=== FILE: README.md ===
# Video and OneDrive/SharePoint downloader: a Dafny model of the download core

The application is a desktop downloader. Videos go through the yt-dlp engine.
OneDrive and SharePoint files go through the engine or through the UI's own
HTTP handler. This project models the decision logic of that core as pure
Dafny functions and proves what the code promises about it:

- **URL preprocessing and validation** for video downloads: whitespace,
  scheme, control characters and the YouTube mobile host.
- **The option profiles** (`DOWNLOAD_CONFIG` and the speed, quality and
  ffmpeg variants) and how `download_video` merges them into the engine's
  options.
- **The retry ladder** of `attempt_download`:
  - fragment errors escalate the fragment settings;
  - other errors fall back to safe options;
  - the alternative-method chain runs after everything else fails.
- **Cookie files** in Netscape text and JSON forms: validation, loading and
  domain filtering.
- **The SharePoint resolver of the download tab**:
  - URL classification;
  - the candidate download URLs built from a `:u:/r/` sharing link;
  - the response checks of `download_from_url`;
  - the filename extractor;
  - the three-phase complex handler.
- **The OneDrive controller**: URL classification, link joining, sharing-URL
  conversion and its three-approach handler.
- **The system optimizer**: the clamped settings derived from CPU count and
  memory, the network tips and the load thresholds of the performance report.
- **The URL box**: reading the entered lines and writing a list back.

Python's `str` semantics live in `PyStr`: `in`, `startswith`, `find`, `split`,
`join`, `replace`, `strip` and `lower`. Percent-encoding lives in `Percent`.
Engine runs, HTTP responses, file contents, regex matches, `urlparse` results,
`urljoin` and base64 are inputs or function parameters of the members that
use them.

Modules and files:

| module | file | models |
|---|---|---|
| `Wrappers` | wrappers.dfy | `Option` |
| `PyStr` | pystr.dfy | Python string operations |
| `Percent` | percent.dfy | `urllib.parse.quote` and `unquote` |
| `Chains` | chains.dfy | first/last success in a list of attempts |
| `Options` | options.dfy | engine option dictionaries |
| `Config` | config.dfy | core/config.py |
| `Downloader` | downloader.dfy | core/downloader.py |
| `Cookies` | cookies.dfy | utils/cookies.py |
| `SharePointUrls` | sharepoint_urls.dfy | URL classification and builders of ui/download_ui.py |
| `SharePointNames` | sharepoint_names.dfy | the filename extractor of ui/download_ui.py |
| `SharePointFetch` | sharepoint_fetch.dfy | `download_from_url`, page links and the complex handler of ui/download_ui.py |
| `OneDriveController` | onedrive.dfy | ui/controllers/onedrive_controller.py |
| `SystemOptimizer` | optimizer.dfy | utils/system_optimizer.py |
| `UrlInput` | urlinput.dfy | `get_urls` and `set_urls` of ui/components/url_input.py |

## Model

| member | source | states |
|---|---|---|
| Options.Get | core/downloader.py:253-256 | `dict.get`: the stored value when the key is present, the default otherwise |
| Options.AsNumber | core/downloader.py:135-136 | among the modelled values, exactly ints and bools can be compared with a number; an int keeps its value and a bool counts as 0 or 1 |
| Config.SpeedDiffersOnlyInThroughput | core/config.py:36-41 | the speed profile has the base profile's keys and values except fragment concurrency 6, buffer 2048 and chunk 20 MiB |
| Config.QualityDiffersOnlyInFormat | core/config.py:93-98 | the quality profile differs from the base profile only in the merge format and fragment concurrency 3 |
| Config.BaseConcurrencyWithinThreshold | core/config.py:14 | the base profile asks for 4 parallel fragments and the quality profile for 3, under the validator's warning threshold of 8 |
| Config.SpeedConcurrencyWithinThreshold | core/config.py:36-52 | the speed profile asks for 6 parallel fragments and the speed-quality profile for 8, neither above the warning threshold |
| Config.SpeedQualityHasMaxDownloads | core/config.py:63 | only the speed-quality profile limits the number of downloads |
| Config.OthersLackMaxDownloads | core/config.py:7-98 | the base, speed and quality profiles carry no download limit |
| Config.FfmpegOverlayKeepsOthers | core/config.py:101-109 | the ffmpeg overlay sets exactly format, prefer_ffmpeg, restrictfilenames and postprocessors; merging it keeps every other option, including concurrency, retries and timeouts |
| Config.DownloadConfigLacksSleepKeys | core/config.py:7-30 | the base profile sets no retry sleep or file-access retries, so the engine defaults decide them, and it sets 3 fragment retries |
| Downloader.WithScheme | core/downloader.py:87-90 | the result always starts with http:// or https://; a URL that already has one is unchanged; a `//` URL gets `https:`; the original text is always the suffix |
| Downloader.RemoveControl | core/downloader.py:93 | no newline, carriage return or tab remains, and nothing is added |
| Downloader.RemoveControlAbsent | core/downloader.py:93 | a URL without control characters is left unchanged |
| Downloader.NoMobileAfterRewrite | core/downloader.py:97 | after replacing every `/m.` with `/www.` no `/m.` is left, even where replacements meet |
| Downloader.MobileRewrite | core/downloader.py:96-97 | a non-YouTube URL, or one without `/m.`, is unchanged; a YouTube URL with `/m.` has every `/m.` replaced by `/www.`; afterwards no YouTube URL still contains `/m.` |
| Downloader.MobileRewriteScheme | core/downloader.py:96-97 | the mobile rewrite never destroys the web scheme |
| Downloader.PreprocessUrl | core/downloader.py:78-102 | the preprocessed URL has a web scheme, no control characters and no surrounding whitespace; it is non-empty and mobile-free; when no rewrite applies it is the normalised URL, and otherwise the normalised URL with every `/m.` replaced by `/www.` |
| Downloader.PreprocessIdempotent | core/downloader.py:78-102 | preprocessing an already preprocessed URL changes nothing |
| Downloader.ValidateDownloadConfig | core/downloader.py:105-145 | it rejects a blank URL, then a problematic scheme (naming the first listed pattern found), then an empty configuration; a non-numeric concurrency setting makes the check itself fail; otherwise it accepts, warning exactly when concurrency exceeds 8 |
| Downloader.PreprocessedNeverEmpty | core/downloader.py:111-114 | a preprocessed URL is never rejected as empty |
| Downloader.SelectProfile | core/downloader.py:170-176 | "speed" selects the speed profile, "quality" the quality profile, and the result is always one of the three profiles |
| Downloader.ProfileSelection | core/downloader.py:170-176 | every other mode, "balanced" included, gets the base profile; the speed-quality profile is never selected |
| Downloader.WithFfmpeg | core/downloader.py:191-197 | with ffmpeg in quality mode the ffmpeg overlay wins on its keys and the other keys are kept; otherwise the configuration is unchanged |
| Downloader.YdlOpts | core/downloader.py:237-259 | the engine options have the fixed keys plus the configuration's keys, and the configuration's values win |
| Downloader.MainBaseValues | core/downloader.py:238-256 | the fixed part reads the retry settings from the configuration with defaults 5, 2, 5 and true; it restricts filenames on Windows; it trims names to 120 |
| Downloader.YdlOptsValues | core/downloader.py:243-259 | after the spread each retry setting is the configuration's value or the default; restrictfilenames defaults to whether the platform is Windows |
| Downloader.MainOpts | core/downloader.py:237-271 | the first attempt's options hold the fixed keys, the configuration's keys and the cookie option; a valid cookie file's path overrides any `cookiefile` in the configuration |
| Downloader.BaseProfileOptions | core/downloader.py:252-258 | with the base profile the engine gets retry sleep 2, file-access retries 5, fragment retries 3 and unrestricted filenames |
| Downloader.CookieOpts | core/downloader.py:262-271 | a cookie file adds the single `cookiefile` option exactly when it is given, non-empty and valid |
| Downloader.SafeOpts | core/downloader.py:362-380 | the safe fallback options hold the fixed keys, the progress hook, the safe configuration and the cookie option; safe-configuration values survive; a valid cookie file is passed |
| Downloader.NoSuchFileNeverMatches | core/downloader.py:300-318 | the mixed-case keyword "No such file or directory" can never match a lowercased message |
| Downloader.FragmentClassification | core/downloader.py:300-318 | a message is a fragment error exactly when its lowercase form contains one of the eleven keywords that decide the list |
| Downloader.FragmentRetryOpts | core/downloader.py:325-330 | escalation halves concurrency (at least 1, never above the old value) and sets fragment retries 10, retry sleep 3, file-access retries 8 and skipping of missing fragments; every other option is kept; a non-numeric concurrency raises |
| Downloader.IsFragmentError | core/downloader.py:300-318 | any message mentioning a fragment, a segment, a timeout or a retry, in any case, is a fragment error |
| Downloader.StepOf | core/downloader.py:289-386 | success ends the ladder; a fragment error retries with escalated options while attempts remain, crashes when the concurrency cannot be halved, and stops once the budget is spent; any other engine error stops, and crashes instead when the message is empty and a callback is set; any other exception retries with the safe options while attempts remain |
| Downloader.Attempt | core/downloader.py:274-386 | the ladder makes between 1 and the budgeted number of engine calls, starting with the given options, each call following from the previous step |
| Downloader.LadderUnique | core/downloader.py:274-386 | any run that follows the step rule from the given options is the ladder's run |
| Downloader.FragmentLadder | core/downloader.py:320-338 | against an engine that always fails with fragment errors, every call after the first uses the escalated options of the one before |
| Downloader.MethodOpts | core/downloader.py:461-478 | an alternative method's options hold the fixed keys, the method's configuration and the cookie option, and carry no progress hook |
| Downloader.AlternativeOpts | core/downloader.py:417-471 | there are three alternative methods, tried with their own options in order |
| Downloader.AlternativesSequential | core/downloader.py:417-453 | every alternative method downloads one fragment at a time |
| Downloader.TryAlternatives | core/downloader.py:455-495 | the chain reports the first method that succeeds and that all earlier ones failed; it reports none exactly when all three fail |
| Downloader.MainOptsCarriesConfig | core/downloader.py:237-265 | every configuration value except the cookie file reaches the engine options unchanged |
| Downloader.FfmpegReachesEngine | core/downloader.py:190-265 | in quality mode with ffmpeg, every ffmpeg setting reaches the engine |
| Downloader.RunDownload | core/downloader.py:389-410 | the ladder makes at least one and at most max(1, max_retries) calls; a crash aborts; the alternative chain runs exactly after a failed ladder with a callback; success means the ladder or an alternative succeeded |
| Downloader.DownloadPrepared | core/downloader.py:160-272 | a failed validation refuses with its reason; a directory that cannot be created stops; otherwise the run uses the merged main options and the safe options |
| Downloader.DownloadVideo | core/downloader.py:159-188 | `download_video` never refuses a URL as empty, whatever the user typed; everything after preprocessing works on a URL with a web scheme and no surrounding blanks or control characters; the result is the prepared download of such a URL, and a missing folder means the folder could not be made |
| Cookies.Ext | utils/cookies.py:16 | the extension is empty or a dot-led suffix of the path without '/' |
| Cookies.Universal | utils/cookies.py:31-32 | text-mode reading with universal newlines never lengthens the text |
| Cookies.UniversalFacts | utils/cookies.py:31-32 | text-mode reading leaves no carriage return, changes nothing in text without one, is empty exactly for empty text, and has a line end exactly when the raw text has a newline or a carriage return |
| Cookies.UniversalBareCr | utils/cookies.py:31-32 | a carriage return not followed by a newline arrives as one newline |
| Cookies.UniversalCrLf | utils/cookies.py:31-32 | a carriage return and newline pair arrives as one newline |
| Cookies.BareCrEndsLine | utils/cookies.py:32-38 | two lines separated by a bare carriage return are read as two lines, the first ending in a newline |
| Cookies.IsValidTxtCookieFile | utils/cookies.py:26-47 | a text cookie file is valid exactly when it is readable and has a non-blank, non-comment line with at least six tab fields, lines being ended by a newline, a carriage return or both |
| Cookies.IsValidJsonCookieFile | utils/cookies.py:50-68 | a JSON cookie file is valid exactly when it is a non-empty list of objects or a non-empty object |
| Cookies.IsValidCookieFile | utils/cookies.py:7-23 | a missing file is invalid; `.json` files are judged as JSON and all others as text |
| Cookies.TxtFields | utils/cookies.py:220-222 | blank and `#` lines yield no fields; others split on tabs after stripping |
| Cookies.TxtStep | utils/cookies.py:219-226 | a text line raises exactly when it has more than seven tab fields; it sets a cookie only when it has seven fields with a non-empty name and value, and then sets that name to that value; every other line sets nothing |
| Cookies.DomainTxtStep | utils/cookies.py:98-105 | a text line raises exactly when it has more than seven fields; it sets a cookie only when it has seven fields and its first field mentions the domain, with the name and value as written, even empty ones; every other line sets nothing |
| Cookies.ItemStep | utils/cookies.py:192-199 | a list item sets a cookie exactly when it is an object whose name and value are truthy and the name can be a key, and then sets that name to that value; a truthy unhashable name with a truthy value raises |
| Cookies.DomainItemStep | utils/cookies.py:120-128 | a list item sets a cookie exactly when it is an object whose `domain` entry holds the domain and whose name and value are truthy, the name hashable; a `domain` entry that is not a string, list or object raises, as does an unhashable name |
| Cookies.StringItemsSet | utils/cookies.py:211-215 | the string-valued members of a dictionary are exactly the cookies it sets |
| Cookies.MemberSteps | utils/cookies.py:211-215 | the members of one nested object set exactly the names whose value in the dictionary `json.load` built is a string, to that value |
| Cookies.ObjectStepsSet | utils/cookies.py:209-215 | the `{"domain": {...}}` form sets a cookie exactly when some object-valued item whose key passes the domain filter holds it as a string member |
| Cookies.LoadSteps | utils/cookies.py:186-215 | a top-level list, or the list under "cookies", is loaded item by item; any other object by its object-valued members, which never raise; any other document yields nothing |
| Cookies.ExtractSteps | utils/cookies.py:117-145 | as for loading, with list items filtered by their `domain` entry and nested objects by their key |
| Cookies.LoadAll | utils/cookies.py:231-233 | a loader whose handler returns `{}` gives nothing when any step raises, and otherwise exactly the names set, each with its last value |
| Cookies.CollectAll | utils/cookies.py:107-108 | an extractor whose handler keeps the dictionary gives exactly the names set before the first raise, each with its last value |
| Cookies.LoadJson | utils/cookies.py:186-215 | the JSON branch gives `{}` when an item raises, and otherwise exactly the cookies the document's settings leave, the last setting of a name winning |
| Cookies.LoadCookiesFromFile | utils/cookies.py:167-233 | a missing file, unreadable text or rejected JSON gives `{}`; a text file with a line of more than seven fields gives `{}`; otherwise the cookies the file's settings leave, the last setting of a name winning |
| Cookies.TxtOverlongLoadsNothing | utils/cookies.py:222-233 | one text line with more than seven fields empties the whole result |
| Cookies.TxtSets | utils/cookies.py:219-226 | text line `i` sets a name exactly when it is a cookie line with that name |
| Cookies.TxtLoadNames | utils/cookies.py:219-226 | without an overlong line, the loaded names are exactly the names of the cookie lines |
| Cookies.TxtLastLineWins | utils/cookies.py:219-226 | without an overlong line, each name holds the value of the last cookie line that names it |
| Cookies.RepeatedKeyKeepsFirstPlace | utils/cookies.py:209-215 | a repeated top-level key keeps the place of its first occurrence, so in `{"d1": {"a": "1"}, "d2": {"a": "2"}, "d1": {"a": "3"}}` the "d2" cookie is set last and wins |
| Cookies.RepeatedKeyLastValueWins | utils/cookies.py:209-215 | a repeated key takes its last value, so `{"x": {"a": "1"}, "x": 5}` loads nothing |
| Cookies.SameNameTwice | utils/cookies.py:215 | setting one name twice leaves the second value |
| Cookies.DomainIn | utils/cookies.py:124-127 | `domain in v` is a substring test for strings, a membership test for lists and objects, and raises for any other value |
| Cookies.ExtractCookiesFromJson | utils/cookies.py:111-148 | a missing or rejected file gives `{}`; otherwise exactly the cookies the domain's settings before the first exception leave, since the handler keeps the partial dictionary |
| Cookies.ExtractCookiesFromTxt | utils/cookies.py:91-108 | a missing or unreadable file gives `{}`; otherwise exactly the cookies of the matching lines before the first line with more than seven fields, the last match of a name winning |
| Cookies.ExtractCookiesForDomainFirst | utils/cookies.py:71-88 | the shadowed first definition gives `{}` for a missing file and otherwise what the JSON or text extractor gives, by extension |
| CookieLoop.RunDescribed | utils/cookies.py:98-105 | each cookie loop leaves the names set before the first raise, each with the value of the last step that sets it, keeps every other name it started with, and adds nothing else |
| CookieLoop.DescribesUnique | utils/cookies.py:192-226 | that description fixes the dictionary: two dictionaries it describes are equal |
| JsonDoc.Lookup | utils/cookies.py:194-199 | `obj.get(key)` is the value of the last member with that key, and None exactly when no member has it |
| JsonDoc.Update | utils/cookies.py:189 | assigning a key keeps an existing key in its place with the new value and puts a new key last, keeping keys distinct |
| JsonDoc.Entries | utils/cookies.py:189 | the dictionary `json.load` builds holds each key once, with the value of its last member |
| JsonDoc.EntriesOrder | utils/cookies.py:211-213 | the dictionary lists its keys in the order of their first occurrence in the document |
| JsonDoc.EntriesRepeatFirst | utils/cookies.py:189 | a key given again after another key takes the new value in its first place: `{a: x, b: y, a: z}` builds `{a: z, b: y}` for any distinct keys and any values |
| JsonDoc.EntriesRepeatLast | utils/cookies.py:189 | a key given twice keeps only its last value |
| Cookies.ExtractCookiesForDomain | utils/cookies.py:236-257 | the definition callers get returns all loaded cookies, whatever the domain |
| Cookies.ConvertCookiesToYtDlpFormat | utils/cookies.py:151-164 | both branches give the single `cookiefile` option naming the path |
| SharePointUrls.CustomDomainRedundant | ui/download_ui.py:503-512 | the custom tenant domain in the list never changes the classification, since it contains "sharepoint.com" |
| SharePointUrls.IsOneDriveUrl | ui/download_ui.py:503-512 | every URL mentioning "sharepoint.com" or "1drv.ms", in any case, is a OneDrive URL |
| SharePointUrls.IsComplexSharePointUrl | ui/download_ui.py:514-535 | a URL is complex exactly when its lowercased form mentions "sharepoint.com" and it has the case-sensitive `:u:/r/` marker, the viewer path, an `id=` or `parent=` parameter, or more than 200 characters; so only SharePoint URLs are complex, and every SharePoint URL longer than 200 characters is |
| SharePointUrls.ComplexIsOneDrive | ui/download_ui.py:514-535 | every complex SharePoint URL is also a OneDrive URL |
| SharePointUrls.RouteOneDrive | ui/download_ui.py:402-453 | complex SharePoint URLs go to the HTTP handler; every other URL reaches the engine unchanged, since the sharing-link conversion can never fire; SharePoint headers are added exactly for SharePoint URLs |
| SharePointUrls.SharingParts | ui/download_ui.py:686-690 | a link splits into site base and path exactly when the marker occurs once; the two parts around the marker rebuild the link |
| SharePointUrls.PersonalPath | ui/download_ui.py:722-725 | a path already starting with "personal/" is kept as it is; any other path gets "personal/" in front |
| SharePointUrls.PersonalPathIdempotent | ui/download_ui.py:722-725 | adding the personal prefix never doubles it |
| SharePointUrls.DirectFileUrl | ui/download_ui.py:709-737 | a direct file URL exists exactly for single-marker links; it is the site base without trailing '/', then '/', then the path, with "personal/" put in front of a path that does not already start with it |
| SharePointUrls.SuffixedFileUrl | ui/download_ui.py:739-767 | the download-page URL (and, with `?download=1`, the simple URL of lines 825-853) exists exactly when the direct file URL does and is that URL followed by the suffix |
| SharePointUrls.ForceDownloadUrl | ui/download_ui.py:808-823 | viewer URLs, and only they, are rewritten; the result has the URL's length, names the download page and never the viewer page, and differs from the URL only inside windows where the URL had the viewer page and the result has the download page |
| SharePointUrls.DownloadLeavesNoViewer | ui/download_ui.py:815-818 | replacing every viewer page by the download page leaves no viewer page, even where a replacement meets the text around it |
| PyStr.ReplaceAgrees | ui/download_ui.py:815-818 | a `replace` by a text of the same length keeps the length and changes a character only inside a window where the input had the pattern and the output has the replacement |
| SharePointUrls.SharingToOneDriveUrl | ui/download_ui.py:1573-1605 | the conversion exists exactly for single-marker links; a path mentioning "Documents" gives the base, `/personal/` and the path; any other path gives that followed by `/_layouts/15/onedrive.aspx`, which the force-download rewrite accepts |
| SharePointUrls.ApiDownloadUrl | ui/download_ui.py:1512-1553 | for single-marker links, a path containing "personal/" gives `<base>/_api/v2.0/drives/b!<site>/root:/<decoded path>:/content`, the site being the slash-free text after the first "personal/" up to the next '/'; any other path gives `<base>/personal/<path>/_layouts/15/download.aspx` |
| SharePointUrls.GraphApiUrl | ui/download_ui.py:676-707 | for single-marker links, exactly `https://graph.microsoft.com/v1.0/shares/u!<encoded link>/root/content`; nothing otherwise |
| SharePointUrls.SharePointDirectUrl | ui/download_ui.py:626-674 | of the six builders only two can answer first: the Graph URL for single-marker links, else the viewer rewrite |
| SharePointUrls.CandidateTails | ui/download_ui.py:955-1011 | what follows the site base in each candidate: nine entries in source order for a personal path, five for any other path |
| SharePointUrls.Candidates | ui/download_ui.py:946-1019 | the candidates are 9 for a personal path and 5 otherwise, all under the site base, in the order tried: the plain file URL and its two download variants; then for a personal path the download page with the quoted file URL as source, the guest-access page, the drive API URL, the fully quoted path, the unique-id page and the preview page; otherwise the guest-access page and the fully quoted path |
| SharePointUrls.MultipleDownloadUrls | ui/download_ui.py:937-1023 | there are no candidates exactly when the marker does not occur once; otherwise they are the candidates for the site base and the query-free path, each entry pinned as in the Candidates row |
| SharePointNames.AnyCaseExtension | ui/download_ui.py:887-889 | any name ending in a dot and a known extension, written in any letter case, matches the filename pattern |
| SharePointNames.WithCourseSuffix | ui/download_ui.py:899-900 | ".rar" is appended exactly when the name mentions a course keyword |
| SharePointNames.CourseGetsRar | ui/download_ui.py:899-900 | any name holding "course" in any letter case gets ".rar" appended |
| SharePointNames.SharingSegments | ui/download_ui.py:867-885 | the decoded path has at least one segment, none containing '/' |
| SharePointNames.FromSharingPath | ui/download_ui.py:863-903 | the sharing-path method answers only for URLs with the marker, with a non-empty slash-free name, and for such URLs it is the segment choice on the decoded path |
| SharePointNames.PickName | ui/download_ui.py:884-903 | the last segment with a known extension wins; else the last meaningful segment, with ".rar" for course material; none only when no segment is meaningful; a name is never empty and has no '/' |
| SharePointNames.FromIdParameter | ui/download_ui.py:906-914 | the `id=` method answers only for URLs with `id=`; it answers exactly when the decoded value up to the first '&' contains '/' and its last '/'-piece contains a dot, and the answer is that piece |
| SharePointNames.ExtractFilename | ui/download_ui.py:855-931 | the name is never empty and has no '/'; the sharing path, the `id=` parameter, the last filename match and the default are tried in order |
| SharePointNames.ExtensionSegmentWins | ui/download_ui.py:884-889 | a sharing link whose path names a file with a known extension is saved under the last such segment |
| SharePointFetch.Classify | ui/download_ui.py:1073-1121 | only status 200 passes; a non-HTML 200 is kept; an HTML page is followed, kept or refused by the redirect, sign-in, not-found, error-page and download-mention checks in that order; each verdict holds exactly when its check fires and every earlier one does not |
| SharePointFetch.Save | ui/download_ui.py:1124-1154 | the file is saved exactly when the length header parses, the file can be written and at least one byte arrives; otherwise it raises or is refused |
| SharePointFetch.Attempt | ui/download_ui.py:1067-1154 | a failed request raises; a non-200 answer is refused; a saved file came from a 200 answer, or from a followed redirect's 200 non-HTML answer, with that body's size |
| SharePointFetch.DownloadFromUrl | ui/download_ui.py:1025-1181 | the download succeeds exactly when a file was saved, which needs a 200 answer and a writable file |
| SharePointFetch.RedirectPageSaved | ui/download_ui.py:1084-1091 | a redirect page whose target cannot be found is saved as if it were the file |
| SharePointFetch.KeepLinks | ui/download_ui.py:1754-1762 | kept links are absolute matches or resolved root-relative matches, never more than the matches; a list of absolute links is kept whole |
| SharePointFetch.KeepLinksExactly | ui/download_ui.py:1756-1762 | the kept list is exactly the matches starting with "http" or '/', in their order, each kept as it is when absolute and joined onto the page URL otherwise |
| SharePointFetch.KeepLinksAppend | ui/download_ui.py:1754-1762 | keeping links pattern by pattern equals keeping them all at once |
| SharePointFetch.PageLinks | ui/download_ui.py:1728-1769 | a failed page request or a 4xx/5xx answer gives no links; otherwise the kept matches |
| SharePointFetch.HandlerFilename | ui/download_ui.py:550 | the handler always saves under a non-empty name without '/' |
| SharePointFetch.HandleComplexSharePoint | ui/download_ui.py:584-620 | the first candidate that downloads wins; page links are tried only after every candidate failed; the engine fallback only after every link failed; guidance is given exactly on failure |
| SharePointFetch.HandleComplexAsWritten | ui/download_ui.py:537-624 | as written, an exception inside a download aborts the handler with false and no guidance |
| SharePointFetch.AsWrittenAgreesWithoutExceptions | ui/download_ui.py:1176-1181 | when no download attempt raises, the written handler and the corrected one agree |
| SharePointFetch.FirstCandidateExceptionAborts | ui/download_ui.py:1176-1181 | as written, a failed request for the first candidate aborts the whole handler |
| SharePointFetch.FirstCandidateExceptionSkipped | ui/download_ui.py:590-597 | corrected, the same failure only skips to the second candidate |
| OneDriveController.ThrottleEntryNeverMatches | ui/controllers/onedrive_controller.py:158-193 | the mixed-case skip pattern can never match the lowercased URL |
| OneDriveController.IsComplexSharePointUrl | ui/controllers/onedrive_controller.py:260-262 | a URL is complex for the controller exactly when its lowercased form mentions "sharepoint.com" and it has a case-sensitive `/personal/` or `/sites/` path; every such URL is also a OneDrive URL for the resolver's own classifier |
| OneDriveController.UpperCasePathNotComplex | ui/controllers/onedrive_controller.py:260-262 | a SharePoint URL whose only personal-site marker is upper-case `/PERSONAL/` is not complex, although its lowered form holds `/personal/` |
| OneDriveController.IsOneDriveUrl | ui/controllers/onedrive_controller.py:143-195 | a URL is accepted exactly when its lowercased host is a substring of a listed domain and it is not a SharePoint system page; an accepted host has at most 17 characters, and an accepted host that mentions "sharepoint.com" is exactly that domain and the URL is not on a system path |
| OneDriveController.LongHostsRefused | ui/controllers/onedrive_controller.py:195 | the reversed containment refuses every host longer than 17 characters |
| OneDriveController.ExactDomainAccepted | ui/controllers/onedrive_controller.py:145-195 | the exact host onedrive.live.com is accepted |
| OneDriveController.TenantHostRefused | ui/controllers/onedrive_controller.py:195 | a tenant host such as contoso.sharepoint.com is refused |
| OneDriveController.EmptyHostAccepted | ui/controllers/onedrive_controller.py:195 | a URL without a host is accepted, because the empty string is in every domain |
| OneDriveController.IsValidDownloadUrl | ui/controllers/onedrive_controller.py:197-258 | a blank URL is invalid; one naming a file extension is valid; otherwise only SharePoint system pages are invalid |
| OneDriveController.RouteController | ui/controllers/onedrive_controller.py:93-141 | invalid URLs are refused; valid OneDrive URLs of the complex shape go to the complex handler; every other valid URL is downloaded directly |
| OneDriveController.TenantLinksGoDirect | ui/controllers/onedrive_controller.py:126-137 | valid tenant links are downloaded directly and never reach the complex handler |
| OneDriveController.JoinLink | ui/controllers/onedrive_controller.py:341-345 | absolute links are kept; others are the base without trailing slashes, one '/', and the link without leading slashes |
| OneDriveController.LeadingSlashesIgnored | ui/controllers/onedrive_controller.py:345 | a leading slash on a relative link makes no difference |
| OneDriveController.FindDownloadLinks | ui/controllers/onedrive_controller.py:328-347 | one link per match, in order, each joined to the base |
| OneDriveController.ConvertSharingUrl | ui/controllers/onedrive_controller.py:349-365 | a conversion exists exactly when some path segment is longer than 20; it is exactly `https://` + host + `/_layouts/15/download.aspx?SourceUrl=` followed by the raw URL |
| OneDriveController.ShortPathsNotConverted | ui/controllers/onedrive_controller.py:357-358 | a path of at most 20 characters is never converted |
| OneDriveController.ControllerFilename | ui/controllers/onedrive_controller.py:376-386 | the header's name is used when present; otherwise the URL's last '/'-piece cut at its first '?' when that is non-empty and has a dot, and "downloaded_file" when not |
| OneDriveController.DownloadWith | ui/controllers/onedrive_controller.py:367-409 | a download succeeds exactly with a session, an answer outside 4xx/5xx, a parsable length and a writable file |
| OneDriveController.GraphApproach | ui/controllers/onedrive_controller.py:292-295 | the Graph approach always fails |
| OneDriveController.PageApproach | ui/controllers/onedrive_controller.py:297-314 | page parsing succeeds exactly when a 200 page offers a link that downloads |
| OneDriveController.UrlApproach | ui/controllers/onedrive_controller.py:316-326 | URL manipulation succeeds exactly when a conversion exists and downloads |
| OneDriveController.ApproachChain | ui/controllers/onedrive_controller.py:270-283 | the chain succeeds exactly when one of the three approaches does |
| OneDriveController.HandleComplex | ui/controllers/onedrive_controller.py:264-290 | the controller's complex handler always fails, since it passes no session |
| OneDriveController.LiveSessionCanSucceed | ui/controllers/onedrive_controller.py:270-283 | with a session, a convertible link that downloads makes the chain succeed |
| OneDriveController.ControllerDownload | ui/controllers/onedrive_controller.py:93-141 | the controller succeeds exactly on a direct route whose download succeeds |
| SystemOptimizer.Clamp | utils/system_optimizer.py:24-27 | `min(hi, max(lo, x))` stays within bounds and is x when x is within them |
| SystemOptimizer.PlatformTuning | utils/system_optimizer.py:31-45 | Windows gets timeout 15 and 3 retries, macOS 25 and 4, every other system 20 and 5 |
| SystemOptimizer.OptimalSettings | utils/system_optimizer.py:21-47 | concurrency is twice the CPU count, 20 from ten CPUs on; downloads are 1 below four CPUs, 2 for four or five and 3 from six; buffer and chunk are the memory-derived sizes clamped to 1-8 KiB and 10-50 MiB; the platform tuning is applied |
| SystemOptimizer.SettingsMonotone | utils/system_optimizer.py:24-27 | more CPUs and memory never lower any setting |
| SystemOptimizer.MemoryClampBounds | utils/system_optimizer.py:26-27 | under 2 GiB the buffer is minimal and from 16 GiB maximal; up to 1 GiB the chunk is minimal and from 5 GiB maximal |
| SystemOptimizer.NetworkTips | utils/system_optimizer.py:76-109 | Windows gets 8 tips and other systems 7; the last four are the general tips; every platform list suggests Ethernet; unknown systems get the Linux tips |
| SystemOptimizer.UsageStatus | utils/system_optimizer.py:151 | Good below 80 percent, High from 80 to below 95, Critical from 95 |
| SystemOptimizer.UsageStatusMonotone | utils/system_optimizer.py:151-157 | a higher load never gets a milder status |
| SystemOptimizer.DiskStatus | utils/system_optimizer.py:163 | a disk of size 0 raises; otherwise it is Good exactly when more than a tenth is free |
| SystemOptimizer.PerformanceReport | utils/system_optimizer.py:139-173 | the report is an error exactly when the disk size is 0; the CPU and memory statuses follow the thresholds; the disk status follows the free share |
| UrlInput.Kept | ui/components/url_input.py:78-80 | a line is kept, stripped, exactly when its stripped text is non-empty and not a comment |
| UrlInput.Entries | ui/components/url_input.py:77-80 | the kept lines are non-empty, trimmed, not comments and no more than the lines |
| UrlInput.EntriesAppend | ui/components/url_input.py:77-80 | reading two blocks of lines reads each in turn |
| UrlInput.EntriesKeepClean | ui/components/url_input.py:77-80 | lines that are already clean entries are read back unchanged |
| UrlInput.ReadBack | ui/components/url_input.py:72 | the widget's text always ends with one extra newline |
| UrlInput.GetUrls | ui/components/url_input.py:70-82 | blank content gives no URLs; every URL is a clean, newline-free entry, and there are never more URLs than lines |
| UrlInput.SetUrls | ui/components/url_input.py:84-89 | no URLs leave the box empty; splitting the buffer on newlines gives newline-free URLs back |
| UrlInput.GetAfterSet | ui/components/url_input.py:70-89 | writing clean entries and reading them back gives the same list |
| Percent.Quote | ui/download_ui.py:970-1010 | `quote` writes each character as its UTF-8 bytes, each kept or escaped, so the result is at least as long as the text and at most twelve times as long |
| Percent.QuoteChars | ui/download_ui.py:970-1010 | every character `quote` writes is unreserved, `%`, or an ASCII safe character |
| Percent.Unquote | ui/download_ui.py:876 | decoding never makes the text longer |
| Percent.UnquoteQuote | ui/download_ui.py:876 | `unquote` undoes `quote` on ASCII text whenever `%` is not a safe character |
| Percent.UnquotePlain | ui/download_ui.py:909 | text without `%` decodes to itself |

## Findings

| source | as written | input that shows it | evidently intended | confidence | as-written member | corrected member |
|---|---|---|---|---|---|---|
| ui/download_ui.py:1176-1181 | `download_from_url` catches `requests.exceptions.RequestException`, but `requests` is never imported in that scope. Any exception inside it turns into a NameError. The complex handler's own `except` (line 622) then returns false at once. | a sharing link whose first candidate request times out while the second candidate would download | each failed attempt returns false, so the handler tries the next candidate, the page links and the fallback, and gives guidance on failure | not executed | SharePointFetch.HandleComplexAsWritten, SharePointFetch.FirstCandidateExceptionAborts | SharePointFetch.HandleComplexSharePoint, SharePointFetch.FirstCandidateExceptionSkipped |

## Left out

- I/O is an input of the model: file existence, reading and writing, directory creation, engine runs, HTTP responses and subprocess probes.
- Threads, status callbacks' texts, progress hooks and `print` diagnostics are not modelled; only whether a callback is set, where that changes control flow.
- `check_ffmpeg_available` is a boolean input and `cleanup_temp_files` is omitted. `auto_adjust_config_for_stability` and `SAFE_FALLBACK_CONFIG` are imported from core/config.py, which does not define them (core/downloader.py:7), so they are parameters.
- The fallback cookie helpers at core/downloader.py:20-24 are not modelled; the model uses utils/cookies.py.
- The sleeps between attempts and the session-initialisation GET in `download_from_url` change nothing observable in the model and are omitted.
- The SharePoint cookie enhancement in the complex handler (lines 557-580) only adds session cookies, which the model's fetch oracle already abstracts.
- Regular-expression scans (HTML links, filename patterns, `window.location`, Content-Disposition) are inputs: the model receives their matches in order.
- `urlparse`, `urljoin` and base64 encoding are function parameters or inputs. The `ValueError` `urlparse` raises for a malformed bracketed host is not modelled: the parse is total.
- The engine is an oracle, so the model does not say which errors yt-dlp raises for which URL.
- Lowering covers ASCII, the Latin-1 capitals, Đ, Ơ and Ư, the accented capitals of the Latin Extended Additional block, Ă, Ĩ, Ũ and the Kelvin sign. Other characters are left as they are, including 'İ', which Python lowers to two characters. The filename pattern's case-insensitive match adds 'İ', 'ı' and 'ſ'.
- Percent.Unquote: decodes the `%XX` triples that stand for ASCII characters; escapes of multi-byte UTF-8 sequences, which Python's `unquote` decodes, are kept as they are.
- SystemOptimizer.OptimalSettings: memory is in bytes, and `int(memory_gb * 512)` and `int(memory_gb * 10485760)` are computed as exact integer divisions. Float rounding of the gigabyte figure is not modelled.
- SystemOptimizer.OptimalSettings: `os.cpu_count()` returning None, which would raise, is not modelled; the CPU count is a natural number.
- SystemOptimizer.DiskStatus: the free share is compared exactly rather than in floating point, and the rounded report figures are not modelled.
- `check_external_downloaders`, `optimize_system_for_downloads` and `main` in utils/system_optimizer.py are probes and side effects outside the tip and threshold logic.
- The guidance texts of `provide_manual_download_guidance` are left out; the model records only whether guidance was given.
- The yt-dlp fallback of the complex handler is a boolean input (`env.fallback`).
- `extract_filename_from_url`'s own `except` branch (line 933) is left out: nothing in its body can raise for a string URL.
- The widget methods of ui/download_ui.py before line 503, and `find_download_link`, `download_from_direct_link`, `download_sharepoint_direct`, `download_sharepoint_file_multi_approach`, the `try_*` methods, `handle_sharepoint_error_response`, `save_file_with_progress`, `fallback_download_method`, `refresh_performance` and `load_optimization_tips`, are not part of this model.
- `download_video`'s declared fallback from quality to balanced mode is never implemented in the code: `original_mode` is saved and unused. The model follows the code.
- Downloader.StepOf follows the code rather than a taxonomy of network or filesystem errors: every non-engine exception is retried with the safe options while attempts remain, and escalation sets fixed values, which can lower a fragment-retry count above 10.
- Options.AsNumber: the option values the model represents are ints, bools, strings and opaque values; Python floats, which also compare with numbers, are not represented.
- Cookies.ItemStep: JSON numbers are integers and floats are not represented. In Python `true`, `1` and `1.0` are the same dictionary key, so a cookie named `1` and one named `true` would overwrite each other; the model keeps them as distinct keys.
- Cookies.LoadJson: inherits the distinct keys `1`, `1.0` and `true` from Cookies.ItemStep, where Python would merge them.
- Cookies.ExtractCookiesFromTxt: Python decodes the file lazily, so a UTF-8 error part-way through keeps the cookies of the lines decoded before it, a number that depends on the read buffer; the model treats an undecodable file as yielding nothing.
- Cookies.Ext: `os.path.splitext` also splits on '\\' on Windows; the model splits on '/' only.

=== FILE: chains.dfy ===
/**
 Ordered short-circuit chains: try candidates left to right and stop at the
 first one that succeeds. The download pipeline's alternative methods, the
 resolvers' candidate URLs and approach chains are all instances.
 */
module Chains {
  import opened Wrappers

  /** Index of the first element `ok` accepts, or None when every element fails. */
  function FirstSuccess<T>(xs: seq<T>, ok: T -> bool): (r: Option<nat>)
    ensures r.Some? ==> r.value < |xs| && ok(xs[r.value])
    ensures r.Some? ==> forall k :: 0 <= k < r.value ==> !ok(xs[k])
    ensures r.None? <==> forall k :: 0 <= k < |xs| ==> !ok(xs[k])
  {
    if |xs| == 0 then None
    else if ok(xs[0]) then Some(0)
    else
      match FirstSuccess(xs[1..], ok)
      case None => None
      case Some(i) => Some(i + 1)
  }

  /** Appending candidates never changes a success already found in the prefix. */
  lemma {:induction false} FirstSuccessPrefix<T>(xs: seq<T>, ys: seq<T>, ok: T -> bool)
    requires FirstSuccess(xs, ok).Some?
    ensures FirstSuccess(xs + ys, ok) == FirstSuccess(xs, ok)
  {
    var i := FirstSuccess(xs, ok).value;
    assert (xs + ys)[i] == xs[i];
    assert forall k :: 0 <= k < i ==> (xs + ys)[k] == xs[k];
  }

  /** Index of the last element `ok` accepts, scanning from the end, or None when every element fails. */
  function LastSuccess<T>(xs: seq<T>, ok: T -> bool): (r: Option<nat>)
    ensures r.Some? ==> r.value < |xs| && ok(xs[r.value])
    ensures r.Some? ==> forall k :: r.value < k < |xs| ==> !ok(xs[k])
    ensures r.None? <==> forall k :: 0 <= k < |xs| ==> !ok(xs[k])
  {
    if |xs| == 0 then None
    else if ok(xs[|xs| - 1]) then Some(|xs| - 1)
    else LastSuccess(xs[..|xs| - 1], ok)
  }
}

=== FILE: config.dfy ===
/**
 The download profiles of `core/config.py`: the base profile, the speed,
 speed-and-quality and quality variants built by spreading the base profile
 and overriding some keys, and the ffmpeg overlay.
 */
module Config {
  import opened Options

  const BestMp4 := "best[ext=mp4]/best"
  const MergeFormat := "bestvideo[height>=1080][ext=mp4]+bestaudio[ext=m4a]/bestvideo[ext=mp4]+bestaudio[ext=m4a]/best[ext=mp4]/best"
  const FfmpegFormat := "bestvideo[ext=mp4]+bestaudio[ext=m4a]/best[ext=mp4]/best"

  /** `DOWNLOAD_CONFIG`: the balanced profile every other profile starts from. */
  const DownloadConfig: Options := map[
    Format := VStr(BestMp4),
    "merge_output_format" := VStr("mp4"),
    PreferFfmpeg := VBool(false),
    Concurrency := VInt(4),
    "buffersize" := VInt(1024),
    "http_chunk_size" := VInt(10485760),
    Retries := VInt(3),
    FragmentRetries := VInt(3),
    SkipUnavailable := VBool(true),
    SocketTimeout := VInt(30),
    ExtractorRetries := VInt(3),
    "ignoreerrors" := VBool(false),
    "quiet" := VBool(true),
    "noplaylist" := VBool(true),
    RestrictFilenames := VBool(false)
  ]

  /** The keys `SPEED_OPTIMIZED_CONFIG` overrides. */
  const SpeedOverrides: Options := map[
    Concurrency := VInt(6),
    "buffersize" := VInt(2048),
    "http_chunk_size" := VInt(20971520)
  ]

  /** `SPEED_OPTIMIZED_CONFIG`. */
  const SpeedConfig: Options := DownloadConfig + SpeedOverrides

  /** The keys `SPEED_QUALITY_OPTIMIZED_CONFIG` overrides or adds. */
  const SpeedQualityOverrides: Options := map[
    Format := VStr(MergeFormat),
    "merge_output_format" := VStr("mp4"),
    PreferFfmpeg := VBool(true),
    Concurrency := VInt(8),
    "buffersize" := VInt(4096),
    "http_chunk_size" := VInt(31457280),
    Retries := VInt(5),
    FragmentRetries := VInt(5),
    SocketTimeout := VInt(20),
    ExtractorRetries := VInt(5),
    "max_downloads" := VInt(3),
    "max_sleep_interval" := VInt(0),
    "sleep_interval" := VInt(0),
    "max_sleep_interval_requests" := VInt(0),
    "memory_limit" := VInt(0),
    "max_filesize" := VInt(0),
    "http_headers" := VOpaque("browser request headers"),
    "source_address" := VStr("0.0.0.0"),
    "force_ipv4" := VBool(true),
    "nocheckcertificate" := VBool(true),
    "hls_prefer_native" := VBool(false)
  ]

  /** `SPEED_QUALITY_OPTIMIZED_CONFIG`. */
  const SpeedQualityConfig: Options := DownloadConfig + SpeedQualityOverrides

  /** The keys `QUALITY_OPTIMIZED_CONFIG` overrides. */
  const QualityOverrides: Options := map[
    Format := VStr(MergeFormat),
    Concurrency := VInt(3)
  ]

  /** `QUALITY_OPTIMIZED_CONFIG`. */
  const QualityConfig: Options := DownloadConfig + QualityOverrides

  /** `FFMPEG_CONFIG`: the overlay applied when ffmpeg can merge streams. */
  const FfmpegConfig: Options := map[
    Format := VStr(FfmpegFormat),
    PreferFfmpeg := VBool(true),
    RestrictFilenames := VBool(false),
    "postprocessors" := VOpaque("FFmpegVideoConvertor to mp4")
  ]

  /** The warning threshold for concurrent fragments in the pre-flight check. */
  const ConcurrencyWarningThreshold := 8

  /**
   The speed profile has the base profile's keys and agrees with it everywhere
   except on concurrency 6, buffer size 2048 and chunk size 20971520.
   */
  lemma SpeedDiffersOnlyInThroughput()
    ensures SpeedConfig.Keys == DownloadConfig.Keys
    ensures forall k :: k in DownloadConfig && k !in SpeedOverrides.Keys ==> SpeedConfig[k] == DownloadConfig[k]
    ensures SpeedConfig[Concurrency] == VInt(6)
    ensures SpeedConfig["buffersize"] == VInt(2048)
    ensures SpeedConfig["http_chunk_size"] == VInt(20971520)
  {
  }

  /**
   The quality profile has the base profile's keys and differs from it only in
   the merge-style format and concurrency 3.
   */
  lemma QualityDiffersOnlyInFormat()
    ensures QualityConfig.Keys == DownloadConfig.Keys
    ensures forall k :: k in DownloadConfig && k != Format && k != Concurrency ==> QualityConfig[k] == DownloadConfig[k]
    ensures QualityConfig[Format] == VStr(MergeFormat) && QualityConfig[Concurrency] == VInt(3)
  {
  }

  /** The base and quality profiles ask for 4 and 3 concurrent fragments, below the warning threshold of 8. */
  lemma BaseConcurrencyWithinThreshold()
    ensures DownloadConfig[Concurrency] == VInt(4)
    ensures QualityConfig[Concurrency] == VInt(3)
  {
    assert Concurrency in QualityOverrides;
  }

  /** The speed profiles ask for 6 and 8 concurrent fragments, at most the warning threshold of 8. */
  lemma SpeedConcurrencyWithinThreshold()
    ensures SpeedConfig[Concurrency] == VInt(6)
    ensures SpeedQualityConfig[Concurrency] == VInt(8)
  {
    assert Concurrency in SpeedOverrides && Concurrency in SpeedQualityOverrides;
  }

  /** The speed-and-quality profile caps downloads with a `max_downloads` key. */
  lemma SpeedQualityHasMaxDownloads()
    ensures "max_downloads" in SpeedQualityConfig
  {
    assert "max_downloads" in SpeedQualityOverrides;
  }

  /**
   No other profile has a `max_downloads` key, so the speed-and-quality profile
   is told apart from the others.
   */
  lemma OthersLackMaxDownloads()
    ensures "max_downloads" !in DownloadConfig
    ensures "max_downloads" !in SpeedConfig
    ensures "max_downloads" !in QualityConfig
  {
    assert "max_downloads" !in DownloadConfig.Keys;
    assert "max_downloads" !in SpeedOverrides.Keys && "max_downloads" !in QualityOverrides.Keys;
  }

  /**
   The ffmpeg overlay sets exactly format, prefer_ffmpeg, restrictfilenames and
   postprocessors, so overlaying it on any options keeps every other value.
   */
  lemma FfmpegOverlayKeepsOthers(o: Options)
    ensures FfmpegConfig.Keys == {Format, PreferFfmpeg, RestrictFilenames, "postprocessors"}
    ensures (o + FfmpegConfig).Keys == o.Keys + FfmpegConfig.Keys
    ensures forall k :: k in o && k !in FfmpegConfig ==> (o + FfmpegConfig)[k] == o[k]
    ensures forall k :: k in {Concurrency, Retries, FragmentRetries, SocketTimeout, ExtractorRetries} && k in o ==>
              (o + FfmpegConfig)[k] == o[k]
  {
  }

  /** The base profile has no `retry_sleep` or `file_access_retries`. */
  lemma DownloadConfigLacksSleepKeys()
    ensures RetrySleep !in DownloadConfig && FileAccessRetries !in DownloadConfig
    ensures DownloadConfig[FragmentRetries] == VInt(3)
  {
  }
}

=== FILE: cookie_loop.dfy ===
/**
 The loops of the cookie loaders share one shape: each item either leaves the
 dictionary alone, sets one name to one value, or raises, and a raise ends
 the loop. `Run` is that loop; `Describes` says what it leaves without
 running it.
 */
module CookieLoop {
  /** What one item of a loop does to the dictionary. */
  datatype Step<K, V> = Skip | Put(name: K, value: V) | Raise

  /** The index of the first raising step, or the number of steps when none raises. */
  function Halt<K, V>(steps: seq<Step<K, V>>): (n: nat)
    ensures n <= |steps|
    ensures forall i :: 0 <= i < n ==> !steps[i].Raise?
    ensures n < |steps| ==> steps[n].Raise?
    decreases |steps|
  {
    if steps == [] || steps[0].Raise? then 0 else 1 + Halt(steps[1..])
  }

  /** The dictionary a loop leaves, and whether a step raised. */
  datatype Outcome<K, V> = Outcome(dict: map<K, V>, raised: bool)

  /** The loop: apply the steps in order; a raise stops it and keeps what was set so far. */
  function Run<K, V>(steps: seq<Step<K, V>>, d: map<K, V>): (r: Outcome<K, V>)
    ensures r.raised <==> Halt(steps) < |steps|
    decreases |steps|
  {
    if steps == [] then Outcome(d, false)
    else
      match steps[0]
      case Skip => Run(steps[1..], d)
      case Put(k, v) => Run(steps[1..], d[k := v])
      case Raise => Outcome(d, true)
  }

  /** Step `i` sets the name `k`. */
  predicate Sets<K(==), V>(steps: seq<Step<K, V>>, i: int, k: K) {
    0 <= i < |steps| && steps[i].Put? && steps[i].name == k
  }

  /** Step `i` sets a name that no later step before `n` sets again. */
  predicate LastSet<K(==), V>(steps: seq<Step<K, V>>, i: int, n: int) {
    0 <= i < |steps| && steps[i].Put? && forall j :: i < j < n ==> !Sets(steps, j, steps[i].name)
  }

  /** The names present: those of `d` and those set before step `n`. */
  ghost predicate HasNames<K(!new), V>(steps: seq<Step<K, V>>, n: int, d: map<K, V>, r: map<K, V>) {
    forall k :: k in r <==> k in d || exists i :: 0 <= i < n && Sets(steps, i, k)
  }

  /** Each name set before step `n` holds the value of the last step that sets it. */
  ghost predicate LastValues<K, V>(steps: seq<Step<K, V>>, n: int, r: map<K, V>) {
    forall i :: 0 <= i < n && LastSet(steps, i, n) ==> steps[i].name in r && r[steps[i].name] == steps[i].value
  }

  /** Each name of `d` that no step before `n` sets keeps its value. */
  ghost predicate KeepsOthers<K(!new), V>(steps: seq<Step<K, V>>, n: int, d: map<K, V>, r: map<K, V>) {
    forall k :: k in d && (forall i :: 0 <= i < n ==> !Sets(steps, i, k)) ==> k in r && r[k] == d[k]
  }

  /**
   What running `steps` on `d` leaves, stated without running them: the names
   set before the first raise are present, each with the value of the last
   step that sets it; every other name of `d` keeps its value; nothing else is
   present.
   */
  ghost predicate Describes<K(!new), V>(steps: seq<Step<K, V>>, d: map<K, V>, r: map<K, V>) {
    var n := Halt(steps);
    HasNames(steps, n, d, r) && LastValues(steps, n, r) && KeepsOthers(steps, n, d, r)
  }

  /** The dictionary after a first step that does not raise. */
  function After<K, V>(s: Step<K, V>, d: map<K, V>): map<K, V> {
    if s.Put? then d[s.name := s.value] else d
  }

  /** Describing the rest of the steps from the updated dictionary describes them all. */
  lemma NamesStep<K(!new), V>(steps: seq<Step<K, V>>, n: int, d: map<K, V>, r: map<K, V>)
    requires 1 <= n <= |steps| && HasNames(steps[1..], n - 1, After(steps[0], d), r)
    ensures HasNames(steps, n, d, r)
  {
    var rest := steps[1..];
    forall k
      ensures k in r <==> k in d || exists i :: 0 <= i < n && Sets(steps, i, k)
    {
      if i :| 0 <= i < n && Sets(steps, i, k) {
        if i > 0 {
          assert Sets(rest, i - 1, k);
        }
      }
      if k in r && k !in d {
        if i :| 0 <= i < n - 1 && Sets(rest, i, k) {
          assert Sets(steps, i + 1, k);
        } else {
          assert Sets(steps, 0, k);
        }
      }
    }
  }

  /** As `NamesStep`, for the values of names set by the steps. */
  lemma LastValuesStep<K(!new), V>(steps: seq<Step<K, V>>, n: int, d: map<K, V>, r: map<K, V>)
    requires 1 <= n <= |steps|
    requires LastValues(steps[1..], n - 1, r) && KeepsOthers(steps[1..], n - 1, After(steps[0], d), r)
    ensures LastValues(steps, n, r)
  {
    var rest := steps[1..];
    forall i | 0 <= i < n && LastSet(steps, i, n)
      ensures steps[i].name in r && r[steps[i].name] == steps[i].value
    {
      var k := steps[i].name;
      if i > 0 {
        assert rest[i - 1] == steps[i];
        forall j | i - 1 < j < n - 1 ensures !Sets(rest, j, k) {
          SetsShift(steps, j, k);
        }
        assert LastSet(rest, i - 1, n - 1);
      } else {
        forall j | 0 <= j < n - 1 ensures !Sets(rest, j, k) {
          SetsShift(steps, j, k);
        }
      }
    }
  }

  /** Step `j` of the steps after the first is step `j + 1` of all of them. */
  lemma SetsShift<K, V>(steps: seq<Step<K, V>>, j: int, k: K)
    requires 1 <= |steps| && 0 <= j
    ensures Sets(steps[1..], j, k) <==> Sets(steps, j + 1, k)
  {
    if 0 <= j < |steps| - 1 {
      assert steps[1..][j] == steps[j + 1];
    }
  }

  /** As `NamesStep`, for the names no step sets. */
  lemma KeepsOthersStep<K(!new), V>(steps: seq<Step<K, V>>, n: int, d: map<K, V>, r: map<K, V>)
    requires 1 <= n <= |steps| && KeepsOthers(steps[1..], n - 1, After(steps[0], d), r)
    ensures KeepsOthers(steps, n, d, r)
  {
    var rest := steps[1..];
    forall k | k in d && (forall i :: 0 <= i < n ==> !Sets(steps, i, k))
      ensures k in r && r[k] == d[k]
    {
      assert !Sets(steps, 0, k);
      assert forall i :: 0 <= i < n - 1 ==> !Sets(rest, i, k) by {
        forall i | 0 <= i < n - 1 ensures !Sets(rest, i, k) {
          assert !Sets(steps, i + 1, k);
        }
      }
    }
  }

  /** The loop leaves exactly what `Describes` says. */
  lemma {:induction false} RunDescribed<K(!new), V>(steps: seq<Step<K, V>>, d: map<K, V>)
    ensures Describes(steps, d, Run(steps, d).dict)
    decreases |steps|
  {
    if steps != [] && !steps[0].Raise? {
      var rest := steps[1..];
      var d' := After(steps[0], d);
      var r := Run(steps, d).dict;
      assert r == Run(rest, d').dict;
      RunDescribed(rest, d');
      var n := Halt(steps);
      assert Halt(rest) == n - 1;
      NamesStep(steps, n, d, r);
      LastValuesStep(steps, n, d, r);
      KeepsOthersStep(steps, n, d, r);
    }
  }

  /** A name set before `n` has a last step before `n` that sets it. */
  lemma {:induction false} LastSetExists<K, V>(steps: seq<Step<K, V>>, n: int, i: int, k: K)
    requires n <= |steps| && i < n && Sets(steps, i, k)
    ensures exists j :: i <= j < n && Sets(steps, j, k) && LastSet(steps, j, n)
    decreases n - i
  {
    if !LastSet(steps, i, n) {
      var j :| i < j < n && Sets(steps, j, steps[i].name);
      LastSetExists(steps, n, j, k);
    }
  }

  /** `Describes` fixes the dictionary: two dictionaries it describes are equal. */
  lemma DescribesUnique<K(!new), V>(steps: seq<Step<K, V>>, d: map<K, V>, r1: map<K, V>, r2: map<K, V>)
    requires Describes(steps, d, r1) && Describes(steps, d, r2)
    ensures r1 == r2
  {
    var n := Halt(steps);
    forall k | k in r1
      ensures k in r2 && r1[k] == r2[k]
    {
      if i :| 0 <= i < n && Sets(steps, i, k) {
        LastSetExists(steps, n, i, k);
        var j :| i <= j < n && Sets(steps, j, k) && LastSet(steps, j, n);
        assert steps[j].name == k;
      }
    }
  }
}

=== FILE: cookies.dfy ===
/**
 Cookie files (`utils/cookies.py`): validation and loading of Netscape
 tab-separated files and of JSON files. The file system is a value: a cookie
 file is its path together with what reading it yields.
 */
module Cookies {
  import opened Wrappers
  import opened PyStr
  import opened Chains
  import opened Options
  import opened JsonDoc
  import opened CookieLoop

  /**
   What reading an existing file yields: its text, or None when it is not
   valid UTF-8; and the JSON document, or None when `json.load` rejects it.
   */
  datatype FileBody = FileBody(text: Option<string>, json: Option<Json>)

  /** A cookie file path and its contents; `body` is None when the path does not exist. */
  datatype CookieFile = CookieFile(path: string, body: Option<FileBody>)

  /** A cookie dictionary: names to values, both as Python saw them. */
  type Jar = map<Json, Json>

  /** What one line or item of a cookie loop does to the dictionary. */
  type CookieStep = Step<Json, Json>

  /** Last index of `c` in `s`, or -1 (Python's `s.rfind(c)`). */
  function RFind(s: string, c: char): (r: int)
    ensures -1 <= r < |s|
    ensures r >= 0 ==> s[r] == c
    ensures forall j :: r < j < |s| ==> s[j] != c
  {
    if s == [] then -1
    else if s[|s| - 1] == c then |s| - 1
    else RFind(s[..|s| - 1], c)
  }

  /** Some character of `s[a..b]` is not a dot. */
  predicate HasNonDot(s: string, a: int, b: int)
    requires 0 <= a <= b <= |s|
  {
    exists j :: a <= j < b && s[j] != '.'
  }

  /**
   `os.path.splitext(path)[1]` with `/` as separator: from the last dot of the
   last path component, unless that component has only dots before it.
   */
  function Ext(path: string): (e: string)
    ensures e == [] || (e[0] == '.' && EndsWith(path, e))
    ensures '/' !in e
  {
    var sep := RFind(path, '/');
    var dot := RFind(path, '.');
    if dot > sep && HasNonDot(path, sep + 1, dot) then
      assert forall j :: dot <= j < |path| ==> path[j] != '/';
      path[dot..]
    else ""
  }

  /** The extension check the module uses: `splitext(path)[1].lower() == '.json'`. */
  predicate IsJsonPath(path: string) {
    Lower(Ext(path)) == ".json"
  }

  /**
   Text-mode reading with universal newlines: a `\r\n` pair and a bare `\r`
   both arrive as a single `\n`.
   */
  function Universal(text: string): (r: string)
    ensures |r| <= |text|
    decreases |text|
  {
    if text == [] then []
    else if text[0] == '\r' then
      "\n" + Universal(if |text| > 1 && text[1] == '\n' then text[2..] else text[1..])
    else
      [text[0]] + Universal(text[1..])
  }

  /**
   After translation no carriage return is left, text without one is
   unchanged, and there is a line end exactly when the raw text had a newline
   or a carriage return.
   */
  lemma {:induction false} UniversalFacts(text: string)
    ensures '\r' !in Universal(text)
    ensures '\r' !in text ==> Universal(text) == text
    ensures Universal(text) == [] <==> text == []
    ensures '\n' in Universal(text) <==> '\n' in text || '\r' in text
    decreases |text|
  {
    if text == [] {
    } else if text[0] == '\r' {
      var rest := if |text| > 1 && text[1] == '\n' then text[2..] else text[1..];
      UniversalFacts(rest);
    } else {
      UniversalFacts(text[1..]);
      assert text == [text[0]] + text[1..];
    }
  }

  /** A bare `\r` not followed by `\n` becomes a line end. */
  lemma {:induction false} UniversalBareCr(a: string, b: string)
    requires '\r' !in a
    requires b == [] || b[0] != '\n'
    ensures Universal(a + "\r" + b) == a + "\n" + Universal(b)
    decreases |a|
  {
    var t := a + "\r" + b;
    if a == [] {
      assert t[0] == '\r' && t[1..] == b;
    } else {
      assert t[0] == a[0] && t[1..] == a[1..] + "\r" + b;
      UniversalBareCr(a[1..], b);
      assert Universal(t) == [a[0]] + Universal(t[1..]);
      assert a == [a[0]] + a[1..];
    }
  }

  /** A `\r\n` pair becomes one line end. */
  lemma {:induction false} UniversalCrLf(a: string, b: string)
    requires '\r' !in a
    ensures Universal(a + "\r\n" + b) == a + "\n" + Universal(b)
    decreases |a|
  {
    var t := a + "\r\n" + b;
    if a == [] {
      assert t[0] == '\r' && t[1] == '\n' && t[2..] == b;
    } else {
      assert t[0] == a[0] && t[1..] == a[1..] + "\r\n" + b;
      UniversalCrLf(a[1..], b);
      assert Universal(t) == [a[0]] + Universal(t[1..]);
      assert a == [a[0]] + a[1..];
    }
  }

  /**
   The lines Python's file iteration yields after universal-newline
   translation: each keeps its `\n`, and a final empty piece is dropped.
   */
  function Lines(text: string): (ls: seq<string>)
    ensures text == [] <==> ls == []
  {
    var pieces := Split(Universal(text), "\n");
    var last := pieces[|pieces| - 1];
    var init := seq(|pieces| - 1, i requires 0 <= i < |pieces| - 1 => pieces[i] + "\n");
    assert text == [] ==> pieces == [""];
    assert text != [] && |pieces| == 1 ==> last == Universal(text);
    if last == [] then init else init + [last]
  }

  /** Splitting two newline-free pieces joined by one `\n` gives them back. */
  lemma SplitTwo(a: string, b: string)
    requires '\n' !in a && '\n' !in b
    ensures Split(a + "\n" + b, "\n") == [a, b]
  {
    var u := a + "\n" + b;
    assert Find(u, "\n") == |a| by {
      assert OccursAt(u, "\n", |a|);
      forall j | 0 <= j < |a| ensures !OccursAt(u, "\n", j) {
        assert u[j] == a[j];
      }
    }
    assert u[..|a|] == a && u[|a| + 1..] == b;
    if b != [] {
      MissingCharNotContained(b, "\n", 0);
    }
    SplitStep(u, "\n");
  }

  /** Two lines separated by a bare `\r` are read as two lines. */
  lemma BareCrEndsLine(a: string, b: string)
    requires '\r' !in a && '\n' !in a && '\r' !in b && '\n' !in b && b != []
    ensures Lines(a + "\r" + b) == [a + "\n", b]
  {
    UniversalBareCr(a, b);
    UniversalFacts(b);
    assert Universal(a + "\r" + b) == a + "\n" + b;
    SplitTwo(a, b);
  }

  /** A line the text validator counts: not blank, not a comment, at least six tab fields. */
  predicate TxtCookieLine(line: string) {
    var s := Strip(line);
    !StartsWith(s, "#") && s != "" && |Split(s, "\t")| >= 6
  }

  /** `is_valid_txt_cookie_file` on the file's text. */
  function IsValidTxtCookieFile(text: Option<string>): (ok: bool)
    ensures ok <==> text.Some? && exists i :: 0 <= i < |Lines(text.value)| && TxtCookieLine(Lines(text.value)[i])
  {
    match text
    case None => false
    case Some(t) =>
      var lines := Lines(t);
      |lines| != 0 && FirstSuccess(lines, TxtCookieLine).Some?
  }

  /** `is_valid_json_cookie_file` on the parsed document. */
  function IsValidJsonCookieFile(json: Option<Json>): (ok: bool)
    ensures ok ==> json.Some? && (json.value.JArr? || json.value.JObj?)
    ensures json.Some? && json.value.JArr? ==>
              (ok <==> |json.value.items| > 0 && forall i :: 0 <= i < |json.value.items| ==> json.value.items[i].JObj?)
    ensures json.Some? && json.value.JObj? ==> (ok <==> |json.value.fields| > 0)
  {
    match json
    case Some(JArr(items)) => |items| > 0 && forall i :: 0 <= i < |items| ==> items[i].JObj?
    case Some(JObj(fields)) => |fields| > 0
    case _ => false
  }

  /** `is_valid_cookie_file`: the file must exist; `.json` files are checked as JSON, all others as text. */
  function IsValidCookieFile(f: CookieFile): (ok: bool)
    ensures ok ==> f.body.Some?
    ensures f.body.Some? && IsJsonPath(f.path) ==> (ok <==> IsValidJsonCookieFile(f.body.value.json))
    ensures f.body.Some? && !IsJsonPath(f.path) ==> (ok <==> IsValidTxtCookieFile(f.body.value.text))
  {
    match f.body
    case None => false
    case Some(b) => if IsJsonPath(f.path) then IsValidJsonCookieFile(b.json) else IsValidTxtCookieFile(b.text)
  }

  /** A text line split into its tab fields, or None for a blank or `#` line (the `#` check looks at the raw line). */
  function TxtFields(line: string): (r: Option<seq<string>>)
    ensures r.Some? ==> !StartsWith(line, "#") && Strip(line) != "" && r.value == Split(Strip(line), "\t")
    ensures r.None? <==> StartsWith(line, "#") || Strip(line) == ""
  {
    if StartsWith(line, "#") || Strip(line) == "" then None else Some(Split(Strip(line), "\t"))
  }

  /** A text line with more than seven fields, which the seven-way unpacking rejects. */
  predicate Overlong(line: string) {
    TxtFields(line).Some? && |TxtFields(line).value| > 7
  }

  /** A seven-field text line whose name field `k` and value field `v` are both non-empty. */
  predicate CookieLine(line: string, k: Json, v: Json) {
    var f := TxtFields(line);
    f.Some? && |f.value| == 7 && f.value[5] != "" && f.value[6] != "" && k == JStr(f.value[5]) && v == JStr(f.value[6])
  }

  /**
   One line of the text loop of `load_cookies_from_file`: a seven-field line
   with a non-empty name and value sets that cookie; a line with more than
   seven fields raises; every other line is skipped.
   */
  function TxtStep(line: string): (s: CookieStep)
    ensures s.Raise? <==> Overlong(line)
    ensures s.Put? ==> CookieLine(line, s.name, s.value)
    ensures s.Skip? ==> forall k, v :: !CookieLine(line, k, v)
  {
    match TxtFields(line)
    case None => Skip
    case Some(parts) =>
      if |parts| > 7 then Raise
      else if |parts| == 7 && parts[5] != "" && parts[6] != "" then Put(JStr(parts[5]), JStr(parts[6]))
      else Skip
  }

  /** The steps of the text loop of `load_cookies_from_file`, one per line. */
  function TxtSteps(lines: seq<string>): (s: seq<CookieStep>)
    ensures |s| == |lines| && forall i :: 0 <= i < |lines| ==> s[i] == TxtStep(lines[i])
  {
    seq(|lines|, i requires 0 <= i < |lines| => TxtStep(lines[i]))
  }

  /** A seven-field text line whose first field mentions `domain`, with name field `k` and value field `v`. */
  predicate DomainLine(line: string, domain: string, k: Json, v: Json) {
    var f := TxtFields(line);
    f.Some? && |f.value| == 7 && Contains(f.value[0], domain) && k == JStr(f.value[5]) && v == JStr(f.value[6])
  }

  /**
   One line of the loop of `extract_cookies_from_txt`: a seven-field line
   whose first field mentions `domain` sets its cookie, even with an empty name
   or value; a line with more than seven fields raises.
   */
  function DomainTxtStep(line: string, domain: string): (s: CookieStep)
    ensures s.Raise? <==> Overlong(line)
    ensures s.Put? ==> DomainLine(line, domain, s.name, s.value)
    ensures s.Skip? ==> forall k, v :: !DomainLine(line, domain, k, v)
  {
    match TxtFields(line)
    case None => Skip
    case Some(parts) =>
      if |parts| > 7 then Raise
      else if |parts| == 7 && Contains(parts[0], domain) then Put(JStr(parts[5]), JStr(parts[6]))
      else Skip
  }

  /** The steps of the loop of `extract_cookies_from_txt`, one per line. */
  function DomainTxtSteps(lines: seq<string>, domain: string): (s: seq<CookieStep>)
    ensures |s| == |lines| && forall i :: 0 <= i < |lines| ==> s[i] == DomainTxtStep(lines[i], domain)
  {
    seq(|lines|, i requires 0 <= i < |lines| => DomainTxtStep(lines[i], domain))
  }

  /** `item.get(key, '')` for a list item that is an object, and the empty string otherwise. */
  function Field(item: Json, key: string): Json {
    if item.JObj? then GetOrEmpty(item.fields, key) else JStr("")
  }

  /**
   One item of a cookie list when loading: an object whose name and value are
   truthy sets that cookie, and raises when the name cannot be a key; anything
   else is skipped.
   */
  function ItemStep(item: Json): (s: CookieStep)
    ensures s.Put? <==> item.JObj? && Truthy(Field(item, "name")) && Truthy(Field(item, "value")) && Hashable(Field(item, "name"))
    ensures s.Raise? <==> item.JObj? && Truthy(Field(item, "name")) && Truthy(Field(item, "value")) && !Hashable(Field(item, "name"))
    ensures s.Put? ==> s.name == Field(item, "name") && s.value == Field(item, "value")
  {
    var name := Field(item, "name");
    var value := Field(item, "value");
    if item.JObj? && Truthy(name) && Truthy(value) then
      if Hashable(name) then Put(name, value) else Raise
    else Skip
  }

  /** The steps of a cookie list when loading, one per item. */
  function ItemSteps(items: seq<Json>): (s: seq<CookieStep>)
    ensures |s| == |items| && forall i :: 0 <= i < |items| ==> s[i] == ItemStep(items[i])
  {
    seq(|items|, i requires 0 <= i < |items| => ItemStep(items[i]))
  }

  /**
   One item of a cookie list when extracting for `domain`: an object whose
   `domain` entry holds `domain` and whose name and value are truthy sets that
   cookie; a `domain` entry that is not a container, or a name that cannot be
   a key, raises; anything else is skipped.
   */
  function DomainItemStep(item: Json, domain: string): (s: CookieStep)
    ensures s.Put? <==>
      item.JObj? && DomainIn(domain, Field(item, "domain")) == Some(true) &&
      Truthy(Field(item, "name")) && Truthy(Field(item, "value")) && Hashable(Field(item, "name"))
    ensures s.Raise? <==>
      item.JObj? && (DomainIn(domain, Field(item, "domain")).None? ||
                     (DomainIn(domain, Field(item, "domain")) == Some(true) &&
                      Truthy(Field(item, "name")) && Truthy(Field(item, "value")) && !Hashable(Field(item, "name"))))
    ensures s.Put? ==> s.name == Field(item, "name") && s.value == Field(item, "value")
  {
    if !item.JObj? then Skip
    else
      match DomainIn(domain, Field(item, "domain"))
      case None => Raise
      case Some(inDomain) =>
        var name := Field(item, "name");
        var value := Field(item, "value");
        if inDomain && Truthy(name) && Truthy(value) then
          if Hashable(name) then Put(name, value) else Raise
        else Skip
  }

  /** The steps of a cookie list when extracting for `domain`, one per item. */
  function DomainItemSteps(items: seq<Json>, domain: string): (s: seq<CookieStep>)
    ensures |s| == |items| && forall i :: 0 <= i < |items| ==> s[i] == DomainItemStep(items[i], domain)
  {
    seq(|items|, i requires 0 <= i < |items| => DomainItemStep(items[i], domain))
  }

  /** Dictionary items as settings: each string-valued item sets its key to its value. */
  function StringItems(es: seq<(string, Json)>): (s: seq<CookieStep>)
    ensures forall st :: st in s ==> st.Put?
    decreases |es|
  {
    if es == [] then []
    else
      var head: seq<CookieStep> := if es[0].1.JStr? then [Put(JStr(es[0].0), es[0].1)] else [];
      head + StringItems(es[1..])
  }

  /** `StringItems` sets exactly the string-valued items. */
  lemma {:induction false} StringItemsSet(es: seq<(string, Json)>)
    ensures forall k, v :: Put(k, v) in StringItems(es) <==> k.JStr? && v.JStr? && (k.s, v) in es
    decreases |es|
  {
    if es != [] {
      StringItemsSet(es[1..]);
      assert forall e :: e in es <==> e == es[0] || e in es[1..] by {
        assert es == [es[0]] + es[1..];
      }
    }
  }

  /**
   The inner loop of the `{"domain": {...}}` form: the string members of one
   object, in the order of the dictionary built from it.
   */
  function MemberSteps(inner: seq<(string, Json)>): (s: seq<CookieStep>)
    ensures forall st :: st in s ==> st.Put?
    ensures forall k, v :: Put(k, v) in s <==> k.JStr? && v.JStr? && Lookup(inner, k.s) == Some(v)
  {
    StringItemsSet(Entries(inner));
    StringItems(Entries(inner))
  }

  /** Whether a member key passes the optional `domain in key` filter. */
  predicate Passes(key: string, filter: Option<string>) {
    filter.None? || Contains(key, filter.value)
  }

  /**
   The outer loop of the `{"domain": {...}}` form over dictionary items: the
   string members of every object-valued item whose key passes the filter.
   */
  function ObjectSteps(es: seq<(string, Json)>, filter: Option<string>): (s: seq<CookieStep>)
    ensures forall st :: st in s ==> st.Put?
    decreases |es|
  {
    if es == [] then []
    else
      var head := if es[0].1.JObj? && Passes(es[0].0, filter) then MemberSteps(es[0].1.fields) else [];
      head + ObjectSteps(es[1..], filter)
  }

  /**
   `ObjectSteps` sets a cookie exactly when some object-valued item whose key
   passes the filter holds it as a string member.
   */
  lemma {:induction false} ObjectStepsSet(es: seq<(string, Json)>, filter: Option<string>)
    ensures forall k, v :: Put(k, v) in ObjectSteps(es, filter) <==>
      exists e :: e in es && e.1.JObj? && Passes(e.0, filter) && k.JStr? && v.JStr? && Lookup(e.1.fields, k.s) == Some(v)
    decreases |es|
  {
    if es != [] {
      ObjectStepsSet(es[1..], filter);
      assert forall e :: e in es <==> e == es[0] || e in es[1..] by {
        assert es == [es[0]] + es[1..];
      }
    }
  }

  /** Steps that never raise run to the end. */
  lemma NoRaiseRunsAll(steps: seq<CookieStep>)
    requires forall st :: st in steps ==> st.Put?
    ensures Halt(steps) == |steps|
  {
    assert forall i :: 0 <= i < |steps| ==> steps[i] in steps;
  }

  /**
   The steps of the JSON branch of `load_cookies_from_file`: a top-level list,
   or the list under "cookies", item by item; otherwise the string members of
   every object-valued member; nothing for any other document.
   */
  function LoadSteps(doc: Json): (s: seq<CookieStep>)
    ensures doc.JArr? ==> s == ItemSteps(doc.items)
    ensures doc.JObj? && Lookup(doc.fields, "cookies").Some? && Lookup(doc.fields, "cookies").value.JArr? ==>
      s == ItemSteps(Lookup(doc.fields, "cookies").value.items)
    ensures doc.JObj? && !(Lookup(doc.fields, "cookies").Some? && Lookup(doc.fields, "cookies").value.JArr?) ==>
      s == ObjectSteps(Entries(doc.fields), None) && Halt(s) == |s|
    ensures !doc.JArr? && !doc.JObj? ==> s == []
  {
    match doc
    case JArr(items) => ItemSteps(items)
    case JObj(fields) =>
      (match Lookup(fields, "cookies")
       case Some(JArr(items)) => ItemSteps(items)
       case _ =>
         NoRaiseRunsAll(ObjectSteps(Entries(fields), None));
         ObjectSteps(Entries(fields), None))
    case _ => []
  }

  /**
   The steps of `extract_cookies_from_json` for `domain`: as `LoadSteps`, with
   list items filtered by their `domain` entry and nested objects by their key.
   */
  function ExtractSteps(doc: Json, domain: string): (s: seq<CookieStep>)
    ensures doc.JArr? ==> s == DomainItemSteps(doc.items, domain)
    ensures doc.JObj? && Lookup(doc.fields, "cookies").Some? && Lookup(doc.fields, "cookies").value.JArr? ==>
      s == DomainItemSteps(Lookup(doc.fields, "cookies").value.items, domain)
    ensures doc.JObj? && !(Lookup(doc.fields, "cookies").Some? && Lookup(doc.fields, "cookies").value.JArr?) ==>
      s == ObjectSteps(Entries(doc.fields), Some(domain)) && Halt(s) == |s|
    ensures !doc.JArr? && !doc.JObj? ==> s == []
  {
    match doc
    case JArr(items) => DomainItemSteps(items, domain)
    case JObj(fields) =>
      (match Lookup(fields, "cookies")
       case Some(JArr(items)) => DomainItemSteps(items, domain)
       case _ =>
         NoRaiseRunsAll(ObjectSteps(Entries(fields), Some(domain)));
         ObjectSteps(Entries(fields), Some(domain)))
    case _ => []
  }

  /** What a loader whose handler returns `{}` gives: nothing when a step raises, else what the steps leave. */
  ghost predicate Loaded(steps: seq<CookieStep>, r: Jar) {
    if Halt(steps) < |steps| then r == map[] else Describes(steps, map[], r)
  }

  /** Running a loader's steps from an empty dictionary; an exception gives `{}`. */
  function LoadAll(steps: seq<CookieStep>): (r: Jar)
    ensures Loaded(steps, r)
  {
    var o := Run(steps, map[]);
    RunDescribed(steps, map[]);
    if o.raised then map[] else o.dict
  }

  /** Running an extractor's steps from an empty dictionary; an exception keeps what was collected. */
  function CollectAll(steps: seq<CookieStep>): (r: Jar)
    ensures Describes(steps, map[], r)
  {
    RunDescribed(steps, map[]);
    Run(steps, map[]).dict
  }

  /** The JSON branch of `load_cookies_from_file` on the parsed document. */
  function LoadJson(doc: Json): (r: Jar)
    ensures Loaded(LoadSteps(doc), r)
  {
    LoadAll(LoadSteps(doc))
  }

  /**
   `load_cookies_from_file`: an empty dictionary for a missing file and for
   any exception (unreadable text, rejected JSON, a name that cannot be a key,
   a line with more than seven fields); otherwise what the file's settings
   leave, the last setting of a name winning.
   */
  function LoadCookiesFromFile(f: CookieFile): (r: Jar)
    ensures f.body.None? ==> r == map[]
    ensures f.body.Some? && IsJsonPath(f.path) ==>
      if f.body.value.json.None? then r == map[] else Loaded(LoadSteps(f.body.value.json.value), r)
    ensures f.body.Some? && !IsJsonPath(f.path) ==>
      if f.body.value.text.None? then r == map[] else Loaded(TxtSteps(Lines(f.body.value.text.value)), r)
  {
    match f.body
    case None => map[]
    case Some(b) =>
      if IsJsonPath(f.path) then
        (match b.json
         case None => map[]
         case Some(doc) => LoadJson(doc))
      else
        match b.text
        case None => map[]
        case Some(t) => LoadAll(TxtSteps(Lines(t)))
  }

  /** A text file with a line of more than seven fields loads to `{}`. */
  lemma TxtOverlongLoadsNothing(lines: seq<string>, i: int)
    requires 0 <= i < |lines| && Overlong(lines[i])
    ensures LoadAll(TxtSteps(lines)) == map[]
  {
    assert Halt(TxtSteps(lines)) <= i;
  }

  /** Step `i` of the text loop sets `k` exactly when line `i` is a cookie line named `k`. */
  lemma TxtSets(lines: seq<string>, i: int, k: Json)
    requires 0 <= i < |lines|
    ensures Sets(TxtSteps(lines), i, k) <==> exists v :: CookieLine(lines[i], k, v)
  {
    if exists v :: CookieLine(lines[i], k, v) {
      var v :| CookieLine(lines[i], k, v);
      assert TxtFields(lines[i]).Some?;
    }
  }

  /** Without such a line, the loaded names are exactly the names of the cookie lines. */
  lemma TxtLoadNames(lines: seq<string>)
    requires forall i :: 0 <= i < |lines| ==> !Overlong(lines[i])
    ensures forall k :: k in LoadAll(TxtSteps(lines)) <==> exists i, v :: 0 <= i < |lines| && CookieLine(lines[i], k, v)
  {
    var steps := TxtSteps(lines);
    assert Halt(steps) == |lines|;
    forall i, k | 0 <= i < |lines|
      ensures Sets(steps, i, k) <==> exists v :: CookieLine(lines[i], k, v)
    {
      TxtSets(lines, i, k);
    }
  }

  /** Without such a line, each name holds the value of the last cookie line that sets it. */
  lemma TxtLastLineWins(lines: seq<string>, i: int, k: Json, v: Json)
    requires forall j :: 0 <= j < |lines| ==> !Overlong(lines[j])
    requires 0 <= i < |lines| && CookieLine(lines[i], k, v)
    requires forall j, w :: i < j < |lines| ==> !CookieLine(lines[j], k, w)
    ensures k in LoadAll(TxtSteps(lines)) && LoadAll(TxtSteps(lines))[k] == v
  {
    var steps := TxtSteps(lines);
    assert Halt(steps) == |lines|;
    TxtSets(lines, i, k);
    forall j | i < j < |lines|
      ensures !Sets(steps, j, k)
    {
      TxtSets(lines, j, k);
    }
    assert LastSet(steps, i, |lines|);
  }

  /** The members of the repeated-key example, as written. */
  const RepeatedKeyMembers: seq<(string, Json)> :=
    [("d1", JObj([("a", JStr("1"))])), ("d2", JObj([("a", JStr("2"))])), ("d1", JObj([("a", JStr("3"))]))]

  /** The dictionary built from them: "d1" first, holding its last value. */
  lemma RepeatedKeyEntries()
    ensures Entries(RepeatedKeyMembers) == [("d1", JObj([("a", JStr("3"))])), ("d2", JObj([("a", JStr("2"))]))]
  {
    assert "d1"[1] != "d2"[1];
    EntriesRepeatFirst("d1", "d2", JObj([("a", JStr("1"))]), JObj([("a", JStr("2"))]), JObj([("a", JStr("3"))]));
  }

  /** A one-member object with a string value sets that one cookie. */
  lemma SingleMemberSteps(k: string, v: string)
    ensures MemberSteps([(k, JStr(v))]) == [Put(JStr(k), JStr(v))]
  {
    var es := [(k, JStr(v))];
    assert Entries(es) == es;
    assert StringItems(es[1..]) == [];
  }

  /** The settings of the repeated-key example's dictionary: "d1" first, then "d2". */
  lemma RepeatedKeySteps()
    ensures ObjectSteps(Entries(RepeatedKeyMembers), None) == [Put(JStr("a"), JStr("3")), Put(JStr("a"), JStr("2"))]
  {
    RepeatedKeyEntries();
    TwoItemSteps("d1", "a", "3", "d2", "a", "2");
  }

  /** Two one-member items set their members in order. */
  lemma TwoItemSteps(d1: string, k1: string, v1: string, d2: string, k2: string, v2: string)
    ensures ObjectSteps([(d1, JObj([(k1, JStr(v1))])), (d2, JObj([(k2, JStr(v2))]))], None) ==
      [Put(JStr(k1), JStr(v1)), Put(JStr(k2), JStr(v2))]
  {
    var es := [(d1, JObj([(k1, JStr(v1))])), (d2, JObj([(k2, JStr(v2))]))];
    SingleMemberSteps(k1, v1);
    assert es[1..] == [(d2, JObj([(k2, JStr(v2))]))];
    SingleItemSteps(d2, k2, v2);
  }

  /** A one-item dictionary holding one string member sets that member. */
  lemma SingleItemSteps(d: string, k: string, v: string)
    ensures ObjectSteps([(d, JObj([(k, JStr(v))]))], None) == [Put(JStr(k), JStr(v))]
  {
    SingleMemberSteps(k, v);
    assert [(d, JObj([(k, JStr(v))]))][1..] == [];
  }

  /**
   Repeated keys follow the dictionary `json.load` builds: in
   `{"d1": {"a": "1"}, "d2": {"a": "2"}, "d1": {"a": "3"}}` the second "d1"
   replaces the first in its place, so the "d2" cookie is set last and wins.
   */
  lemma RepeatedKeyKeepsFirstPlace()
    ensures LoadJson(JObj(RepeatedKeyMembers)) == map[JStr("a") := JStr("2")]
  {
    var fields := RepeatedKeyMembers;
    var steps := [Put(JStr("a"), JStr("3")), Put(JStr("a"), JStr("2"))];
    assert Lookup(fields, "cookies").None? by {
      assert forall i :: 0 <= i < |fields| ==> fields[i].0 != "cookies";
    }
    RepeatedKeySteps();
    assert LoadSteps(JObj(fields)) == steps;
    SameNameTwice(JStr("a"), JStr("3"), JStr("2"));
  }

  /** Setting one name twice leaves the second value. */
  lemma SameNameTwice(k: Json, v1: Json, v2: Json)
    ensures Run([Put(k, v1), Put(k, v2)], map[]) == Outcome(map[k := v2], false)
  {
    var steps := [Put(k, v1), Put(k, v2)];
    assert steps[1..][1..] == [];
    assert Run(steps, map[]) == Run(steps[1..], map[k := v1]);
    assert map[k := v1][k := v2] == map[k := v2];
  }

  /** A repeated key whose last value is not an object hides the earlier object: `{"x": {"a": "1"}, "x": 5}` loads nothing. */
  lemma RepeatedKeyLastValueWins()
    ensures LoadJson(JObj([("x", JObj([("a", JStr("1"))])), ("x", JNum(5))])) == map[]
  {
    var fields := [("x", JObj([("a", JStr("1"))])), ("x", JNum(5))];
    EntriesRepeatLast("x", JObj([("a", JStr("1"))]), JNum(5));
    assert Lookup(fields, "cookies").None? by {
      assert |fields[0].0| != |"cookies"| && |fields[1].0| != |"cookies"|;
    }
    assert ObjectSteps([("x", JNum(5))], None) == [] by {
      assert [("x", JNum(5))][1..] == [];
    }
  }

  /** Whether `domain in v` holds, or None when Python raises because `v` is not a container. */
  function DomainIn(domain: string, v: Json): (r: Option<bool>)
    ensures r.None? <==> !(v.JStr? || v.JArr? || v.JObj?)
    ensures v.JStr? ==> r == Some(Contains(v.s, domain))
  {
    match v
    case JStr(s) => Some(Contains(s, domain))
    case JArr(items) => Some(JStr(domain) in items)
    case JObj(fields) => Some(Lookup(fields, domain).Some?)
    case _ => None
  }

  /**
   `extract_cookies_from_json` on the file: nothing for a missing or rejected
   file; otherwise what the domain's settings before the first exception leave,
   since the handler keeps the partial dictionary.
   */
  function ExtractCookiesFromJson(f: CookieFile, domain: string): (r: Jar)
    ensures f.body.None? || f.body.value.json.None? ==> r == map[]
    ensures f.body.Some? && f.body.value.json.Some? ==> Describes(ExtractSteps(f.body.value.json.value, domain), map[], r)
  {
    match f.body
    case None => map[]
    case Some(b) =>
      match b.json
      case None => map[]
      case Some(doc) => CollectAll(ExtractSteps(doc, domain))
  }

  /**
   `extract_cookies_from_txt` on the file: nothing for a missing or unreadable
   file; otherwise what the matching lines before the first line with more
   than seven fields leave, since the handler keeps the partial dictionary.
   */
  function ExtractCookiesFromTxt(f: CookieFile, domain: string): (r: Jar)
    ensures f.body.None? || f.body.value.text.None? ==> r == map[]
    ensures f.body.Some? && f.body.value.text.Some? ==> Describes(DomainTxtSteps(Lines(f.body.value.text.value), domain), map[], r)
  {
    match f.body
    case None => map[]
    case Some(b) =>
      match b.text
      case None => map[]
      case Some(t) => CollectAll(DomainTxtSteps(Lines(t), domain))
  }

  /** The first `extract_cookies_for_domain`, which the second definition in the module shadows. */
  function ExtractCookiesForDomainFirst(f: CookieFile, domain: string): (r: Jar)
    ensures f.body.None? ==> r == map[]
    ensures f.body.Some? && IsJsonPath(f.path) ==>
      if f.body.value.json.None? then r == map[] else Describes(ExtractSteps(f.body.value.json.value, domain), map[], r)
    ensures f.body.Some? && !IsJsonPath(f.path) ==>
      if f.body.value.text.None? then r == map[] else Describes(DomainTxtSteps(Lines(f.body.value.text.value), domain), map[], r)
  {
    if f.body.None? then map[]
    else if IsJsonPath(f.path) then ExtractCookiesFromJson(f, domain)
    else ExtractCookiesFromTxt(f, domain)
  }

  /**
   The second `extract_cookies_for_domain`, the one callers get: it copies every
   loaded cookie and ignores the domain.
   */
  function ExtractCookiesForDomain(f: CookieFile, domain: string): (r: Jar)
    ensures r == LoadCookiesFromFile(f)
  {
    var all := LoadCookiesFromFile(f);
    map k | k in all :: all[k]
  }

  /** `convert_cookies_to_yt_dlp_format`: the same single option whatever the extension. */
  function ConvertCookiesToYtDlpFormat(path: string): (o: Options)
    ensures o.Keys == {CookieFileKey}
    ensures o[CookieFileKey] == VStr(path)
  {
    if IsJsonPath(path) then map[CookieFileKey := VStr(path)] else map[CookieFileKey := VStr(path)]
  }
}

=== FILE: downloader.dfy ===
/**
 The video download pipeline of `core/downloader.py`: URL normalisation,
 pre-flight validation, profile selection and option merging, the bounded
 retry ladder around the yt-dlp engine, and the fixed chain of alternative
 methods. The engine is an oracle: for each call it yields a scripted outcome.
 */
module Downloader {
  import opened Wrappers
  import opened PyStr
  import opened Chains
  import opened Options
  import opened Config
  import opened Cookies

  // ---------------------------------------------------------------------------
  // preprocess_url
  // ---------------------------------------------------------------------------

  /** The URL has one of the two schemes the pipeline hands to the engine. */
  predicate HasWebScheme(u: string) {
    StartsWith(u, "http://") || StartsWith(u, "https://")
  }

  /** A string whose first character differs from a non-empty `p`'s does not start with `p`. */
  lemma FirstDiffers(s: string, p: string)
    requires |p| > 0 && |s| > 0 && s[0] != p[0]
    ensures !StartsWith(s, p)
  {
    assert |p| <= |s| ==> s[..|p|][0] == s[0];
  }

  /** A scheme-relative `//host` gets `https:`; a URL without a web scheme gets `https://`. */
  function WithScheme(u: string): (r: string)
    ensures HasWebScheme(r)
    ensures HasWebScheme(u) ==> r == u
    ensures StartsWith(u, "//") ==> r == "https:" + u
    ensures EndsWith(r, u)
  {
    if StartsWith(u, "//") then
      var r := "https:" + u;
      assert u[..2] == "//";
      assert u[0] == u[..2][0] == '/';
      FirstDiffers(u, "http://");
      FirstDiffers(u, "https://");
      assert r[..8] == "https:" + u[..2];
      assert r[|r| - |u|..] == u;
      r
    else if HasWebScheme(u) then u
    else
      var r := "https://" + u;
      assert r[..8] == "https://";
      assert r[|r| - |u|..] == u;
      r
  }

  /** `replace('\n', '').replace('\r', '').replace('\t', '')`. */
  function RemoveControl(u: string): (r: string)
    ensures '\n' !in r && '\r' !in r && '\t' !in r
    ensures |r| <= |u|
  {
    Without(Without(Without(u, '\n'), '\r'), '\t')
  }

  /** Removing the control characters keeps a prefix that has none. */
  lemma RemoveControlPrefix(p: string, s: string)
    requires '\n' !in p && '\r' !in p && '\t' !in p
    ensures RemoveControl(p + s) == p + RemoveControl(s)
  {
    WithoutPrefix(p, s, '\n');
    WithoutPrefix(p, Without(s, '\n'), '\r');
    WithoutPrefix(p, Without(Without(s, '\n'), '\r'), '\t');
  }

  /** Removing the control characters keeps a last character that is not whitespace. */
  lemma RemoveControlLast(s: string)
    requires s != [] && !IsSpace(s[|s| - 1])
    ensures var r := RemoveControl(s); r != [] && r[|r| - 1] == s[|s| - 1]
  {
    WithoutLast(s, '\n');
    var a := Without(s, '\n');
    WithoutLast(a, '\r');
    var b := Without(a, '\r');
    WithoutLast(b, '\t');
  }

  /** Removing the control characters from a string that has none changes nothing. */
  lemma RemoveControlAbsent(s: string)
    requires '\n' !in s && '\r' !in s && '\t' !in s
    ensures RemoveControl(s) == s
  {
    WithoutAbsent(s, '\n');
    WithoutAbsent(s, '\r');
    WithoutAbsent(s, '\t');
  }

  const MobileMarker := "/m."
  const DesktopMarker := "/www."

  /** `"/m."` occurs at `j` exactly when its three characters stand there. */
  lemma MobileAt(t: string, j: int)
    requires 0 <= j && j + 3 <= |t|
    ensures OccursAt(t, MobileMarker, j) <==> t[j] == '/' && t[j + 1] == 'm' && t[j + 2] == '.'
  {
    var w := t[j..j + 3];
    assert w[0] == t[j] && w[1] == t[j + 1] && w[2] == t[j + 2];
  }

  /**
   Gluing two pieces without `"/m."` around `"/www."` creates no `"/m."`: the
   only `/` of `"/www."` is followed by `w`, and it ends in `.` after a `w`.
   */
  lemma NoMobileAcross(a: string, b: string)
    requires !Contains(a, MobileMarker) && !Contains(b, MobileMarker)
    ensures !Contains(a + DesktopMarker + b, MobileMarker)
  {
    var t := a + DesktopMarker + b;
    var n := |a|;
    assert t[n] == '/' && t[n + 1] == 'w' && t[n + 2] == 'w' && t[n + 3] == 'w' && t[n + 4] == '.';
    forall j | 0 <= j && j + 3 <= |t|
      ensures !OccursAt(t, MobileMarker, j)
    {
      MobileAt(t, j);
      if j + 3 <= n {
        assert t[j..j + 3] == a[j..j + 3];
        assert !OccursAt(a, MobileMarker, j);
      } else if j >= n + 5 {
        var m := j - n - 5;
        assert t[j..j + 3] == b[m..m + 3];
        assert !OccursAt(b, MobileMarker, m);
      } else if j == n - 2 {
        assert t[j + 2] == '/';
      } else if j == n - 1 {
        assert t[j + 1] == '/';
      } else if j == n {
        assert t[j + 1] == 'w';
      } else {
        assert t[j] != '/';
      }
    }
  }

  /** After replacing every `"/m."` by `"/www."`, no `"/m."` is left. */
  lemma {:induction false} NoMobileAfterRewrite(s: string)
    ensures !Contains(Replace(s, MobileMarker, DesktopMarker), MobileMarker)
    decreases |s|
  {
    if Contains(s, MobileMarker) {
      var i := Find(s, MobileMarker);
      var tail := s[i + 3..];
      var rest := Replace(tail, MobileMarker, DesktopMarker);
      ReplaceStep(s, MobileMarker, DesktopMarker);
      assert Replace(s, MobileMarker, DesktopMarker) == s[..i] + DesktopMarker + rest;
      NoMobileAfterRewrite(tail);
      SplitStep(s, MobileMarker);
      assert Before(s, MobileMarker) == s[..i];
      NoMobileAcross(s[..i], rest);
    } else {
      ReplaceAbsent(s, MobileMarker, DesktopMarker);
    }
  }

  /**
   The YouTube mobile rewrite: on a URL naming `youtube.com` every `"/m."`
   becomes `"/www."`. Afterwards the URL never holds both markers, and a URL
   without both is left as it is.
   */
  function MobileRewrite(u: string): (r: string)
    ensures !(Contains(u, "youtube.com") && Contains(u, MobileMarker)) ==> r == u
    ensures Contains(u, "youtube.com") && Contains(u, MobileMarker) ==>
      r == Replace(u, MobileMarker, DesktopMarker)
    ensures Contains(u, "youtube.com") ==> !Contains(r, MobileMarker)
    ensures !(Contains(r, "youtube.com") && Contains(r, MobileMarker))
  {
    if Contains(u, "youtube.com") && Contains(u, MobileMarker) then
      NoMobileAfterRewrite(u);
      Replace(u, MobileMarker, DesktopMarker)
    else u
  }

  /**
   Replacing `"/m."` keeps a prefix ending in `/` whose other characters after
   the first are not `m`: no occurrence can start before its last character,
   and `"/www."` starts with `/`.
   */
  lemma RewriteKeepsPrefix(s: string, p: string)
    requires StartsWith(s, p) && |p| >= 1 && p[|p| - 1] == '/'
    requires forall j :: 1 <= j < |p| ==> p[j] != 'm'
    ensures StartsWith(Replace(s, MobileMarker, DesktopMarker), p)
  {
    if Contains(s, MobileMarker) {
      var i := Find(s, MobileMarker);
      MobileNotBefore(s, p);
      ReplaceStep(s, MobileMarker, DesktopMarker);
      GluedPrefix(s, i, p, Replace(s[i + 3..], MobileMarker, DesktopMarker));
    } else {
      ReplaceAbsent(s, MobileMarker, DesktopMarker);
    }
  }

  /** No `"/m."` starts before the last character of such a prefix. */
  lemma MobileNotBefore(s: string, p: string)
    requires StartsWith(s, p) && |p| >= 1
    requires forall j :: 1 <= j < |p| ==> p[j] != 'm'
    ensures Find(s, MobileMarker) == -1 || Find(s, MobileMarker) >= |p| - 1
  {
    forall j | 0 <= j < |p| - 1
      ensures !OccursAt(s, MobileMarker, j)
    {
      if j + 3 <= |s| {
        MobileAt(s, j);
        assert s[j + 1] == s[..|p|][j + 1] == p[j + 1];
      }
    }
  }

  /** Text of `s` up to `i`, then `"/www."`, starts with `p` when `p` ends in `/` at index `i` or earlier. */
  lemma GluedPrefix(s: string, i: int, p: string, rest: string)
    requires StartsWith(s, p) && |p| >= 1 && p[|p| - 1] == '/'
    requires |p| - 1 <= i <= |s|
    ensures StartsWith(s[..i] + DesktopMarker + rest, p)
  {
    var r := s[..i] + DesktopMarker + rest;
    forall k | 0 <= k < |p|
      ensures r[k] == p[k]
    {
      if k < i {
        assert r[k] == s[k] == s[..|p|][k];
      } else {
        assert r[k] == DesktopMarker[0];
      }
    }
    assert r[..|p|] == p;
  }

  /** The rewrite keeps a web scheme. */
  lemma MobileRewriteScheme(s: string)
    requires HasWebScheme(s)
    ensures HasWebScheme(MobileRewrite(s))
  {
    if StartsWith(s, "https://") {
      RewriteKeepsPrefix(s, "https://");
    } else {
      RewriteKeepsPrefix(s, "http://");
    }
  }

  /** The rewrite keeps a last character that is not whitespace. */
  lemma MobileRewriteLast(s: string)
    requires s != [] && !IsSpace(s[|s| - 1])
    ensures var r := MobileRewrite(s); r != [] && !IsSpace(r[|r| - 1])
  {
    if Contains(s, "youtube.com") && Contains(s, MobileMarker) {
      ReplaceLast(s, MobileMarker, DesktopMarker);
    }
  }

  /** The rewrite brings in no control character. */
  lemma MobileRewriteChars(s: string)
    requires '\n' !in s && '\r' !in s && '\t' !in s
    ensures var r := MobileRewrite(s); '\n' !in r && '\r' !in r && '\t' !in r
  {
    if Contains(s, "youtube.com") && Contains(s, MobileMarker) {
      ReplaceChars(s, MobileMarker, DesktopMarker);
    }
  }

  /** `preprocess_url` before the mobile rewrite: strip, add a scheme, drop control characters. */
  function Normalized(url: string): string {
    RemoveControl(WithScheme(Strip(url)))
  }

  /**
   `preprocess_url`: the result has a web scheme, no surrounding whitespace and
   no line break or tab, and never names `youtube.com` together with `"/m."`.
   */
  function PreprocessUrl(url: string): (r: string)
    ensures HasWebScheme(r)
    ensures '\n' !in r && '\r' !in r && '\t' !in r
    ensures r != [] && !IsSpace(r[0]) && !IsSpace(r[|r| - 1])
    ensures Strip(r) == r
    ensures !(Contains(r, "youtube.com") && Contains(r, MobileMarker))
    ensures !(Contains(Normalized(url), "youtube.com") && Contains(Normalized(url), MobileMarker)) ==> r == Normalized(url)
    ensures Contains(Normalized(url), "youtube.com") && Contains(Normalized(url), MobileMarker) ==>
      r == Replace(Normalized(url), MobileMarker, DesktopMarker)
  {
    var v := Normalized(url);
    NormalizedShape(url);
    MobileRewriteScheme(v);
    MobileRewriteLast(v);
    MobileRewriteChars(v);
    var r := MobileRewrite(v);
    WebSchemeFirst(r);
    StripId(r);
    r
  }

  /** A URL with a web scheme starts with `h`. */
  lemma WebSchemeFirst(r: string)
    requires HasWebScheme(r)
    ensures r != [] && r[0] == 'h'
  {
    assert StartsWith(r, "http://") ==> r[0] == r[..7][0];
    assert StartsWith(r, "https://") ==> r[0] == r[..8][0];
  }

  /** Before the rewrite the URL has a web scheme, no control character, and a last character that is not whitespace. */
  lemma NormalizedShape(url: string)
    ensures var v := Normalized(url);
            HasWebScheme(v) && '\n' !in v && '\r' !in v && '\t' !in v && v != [] && !IsSpace(v[|v| - 1])
  {
    SchemedShape(Strip(url));
  }

  /** The shape `NormalizedShape` states, for any string whose last character is not whitespace. */
  lemma SchemedShape(s: string)
    requires s == [] || !IsSpace(s[|s| - 1])
    ensures var v := RemoveControl(WithScheme(s));
            HasWebScheme(v) && v != [] && !IsSpace(v[|v| - 1])
  {
    var u := WithScheme(s);
    SchemeSurvives(u);
    LastKept(s, u);
    RemoveControlLast(u);
  }

  /** Removing the control characters keeps the web scheme. */
  lemma SchemeSurvives(u: string)
    requires HasWebScheme(u)
    ensures HasWebScheme(RemoveControl(u))
  {
    if StartsWith(u, "https://") {
      PrefixSurvives(u, "https://");
    } else {
      PrefixSurvives(u, "http://");
    }
  }

  /** Removing the control characters keeps a prefix that has none. */
  lemma PrefixSurvives(u: string, p: string)
    requires StartsWith(u, p) && '\n' !in p && '\r' !in p && '\t' !in p
    ensures StartsWith(RemoveControl(u), p)
  {
    assert u == p + u[|p|..];
    RemoveControlPrefix(p, u[|p|..]);
    var v := RemoveControl(u);
    assert v[..|p|] == p;
  }

  /** Adding the scheme keeps a last character that is not whitespace. */
  lemma LastKept(s: string, u: string)
    requires s == [] || !IsSpace(s[|s| - 1])
    requires u == WithScheme(s)
    ensures u != [] && !IsSpace(u[|u| - 1])
  {
    assert EndsWith(u, s);
    WebSchemeFirst(u);
    if s != [] {
      assert u[|u| - 1] == u[|u| - |s|..][|s| - 1];
    } else {
      assert u == "https://";
    }
  }

  /** Preprocessing a preprocessed URL changes nothing. */
  lemma PreprocessIdempotent(url: string)
    ensures PreprocessUrl(PreprocessUrl(url)) == PreprocessUrl(url)
  {
    var r := PreprocessUrl(url);
    assert Strip(r) == r;
    assert WithScheme(r) == r;
    RemoveControlAbsent(r);
    assert Normalized(r) == r;
  }

  // ---------------------------------------------------------------------------
  // validate_download_config
  // ---------------------------------------------------------------------------

  const ProblematicPatterns: seq<string> := ["javascript:", "data:", "file://", "ftp://"]

  /** Some refused pattern occurs in the lower-cased URL. */
  predicate Problematic(url: string) {
    exists i :: 0 <= i < |ProblematicPatterns| && Contains(Lower(url), ProblematicPatterns[i])
  }

  /** Why the pre-flight check refused: no URL, a refused pattern, no configuration, or an exception inside the check. */
  datatype Rejection = EmptyUrl | UnsupportedScheme(pattern: string) | EmptyConfig | CheckFailed

  /** The outcome of the pre-flight check; an accepted configuration may carry the concurrency warning. */
  datatype Validation = Rejected(why: Rejection) | Accepted(warned: bool)

  /**
   `validate_download_config`: an empty or blank URL, a URL holding a refused
   pattern (the first one in list order is reported) and an empty configuration
   are refused; a concurrency above 8 only warns. Comparing a string or a
   structured concurrency value with 8 raises, which the check reports as a refusal.
   */
  function ValidateDownloadConfig(url: string, config: Options): (v: Validation)
    ensures v == Rejected(EmptyUrl) <==> Strip(url) == []
    ensures v.Rejected? && v.why.UnsupportedScheme? ==>
              v.why.pattern in ProblematicPatterns && Contains(Lower(url), v.why.pattern)
    ensures v.Rejected? && v.why.UnsupportedScheme? ==>
              exists i :: 0 <= i < |ProblematicPatterns| && ProblematicPatterns[i] == v.why.pattern &&
                          forall j :: 0 <= j < i ==> !Contains(Lower(url), ProblematicPatterns[j])
    ensures Strip(url) != [] && Problematic(url) ==> v.Rejected? && v.why.UnsupportedScheme?
    ensures v == Rejected(EmptyConfig) <==> Strip(url) != [] && !Problematic(url) && config == map[]
    ensures v.Accepted? <==> Strip(url) != [] && !Problematic(url) && config != map[]
                              && AsNumber(Get(config, Concurrency, VInt(1))).Some?
    ensures v.Accepted? ==> (v.warned <==> AsNumber(Get(config, Concurrency, VInt(1))).value > ConcurrencyWarningThreshold)
    ensures v == Rejected(CheckFailed) ==> var c := Get(config, Concurrency, VInt(1)); c.VStr? || c.VOpaque?
  {
    if Strip(url) == [] then Rejected(EmptyUrl)
    else
      match FirstSuccess(ProblematicPatterns, (p: string) => Contains(Lower(url), p))
      case Some(i) => Rejected(UnsupportedScheme(ProblematicPatterns[i]))
      case None =>
        if config == map[] then Rejected(EmptyConfig)
        else
          match AsNumber(Get(config, Concurrency, VInt(1)))
          case None => Rejected(CheckFailed)
          case Some(n) => Accepted(n > ConcurrencyWarningThreshold)
  }

  /** A preprocessed URL is never refused as empty. */
  lemma PreprocessedNeverEmpty(url: string, config: Options)
    ensures ValidateDownloadConfig(PreprocessUrl(url), config) != Rejected(EmptyUrl)
  {
    var r := PreprocessUrl(url);
    assert !IsSpace(r[0]);
  }

  // ---------------------------------------------------------------------------
  // Profile selection and option merging in download_video
  // ---------------------------------------------------------------------------

  /** The profile `download_video` starts from for an optimisation mode. */
  function SelectProfile(mode: string): (c: Options)
    ensures c in {DownloadConfig, SpeedConfig, QualityConfig}
    ensures mode == "speed" ==> c == SpeedConfig
    ensures mode == "quality" ==> c == QualityConfig
  {
    if mode == "speed" then SpeedConfig
    else if mode == "quality" then QualityConfig
    else DownloadConfig
  }

  /** Every mode other than `speed` and `quality`, `balanced` and `speed_quality` included, gets the base profile; no mode gets the speed-and-quality profile. */
  lemma ProfileSelection(mode: string)
    ensures mode != "speed" && mode != "quality" ==> SelectProfile(mode) == DownloadConfig
    ensures SelectProfile(mode) != SpeedQualityConfig
  {
    SpeedQualityHasMaxDownloads();
    OthersLackMaxDownloads();
  }

  /** The ffmpeg overlay is applied exactly when ffmpeg is there and the mode is `quality`. */
  function WithFfmpeg(config: Options, mode: string, ffmpeg: bool): (c: Options)
    ensures ffmpeg && mode == "quality" ==> c.Keys == config.Keys + FfmpegConfig.Keys
    ensures ffmpeg && mode == "quality" ==> forall k :: k in FfmpegConfig ==> c[k] == FfmpegConfig[k]
    ensures ffmpeg && mode == "quality" ==> forall k :: k in config && k !in FfmpegConfig ==> c[k] == config[k]
    ensures !(ffmpeg && mode == "quality") ==> c == config
  {
    if ffmpeg && mode == "quality" then config + FfmpegConfig else config
  }

  /** The options every option set starts with: output template, folders and file-name safety. */
  function FileBase(isWindows: bool): Options {
    map[
      "outtmpl" := VOpaque("<folder>/%(title)s.%(ext)s"),
      "paths" := VOpaque("home and temp: <folder>"),
      "windowsfilenames" := VBool(true),
      RestrictFilenames := VBool(isWindows),
      "trim_file_name" := VInt(120),
      "continuedl" := VBool(true),
      "nopart" := VBool(false),
      "updatetime" := VBool(false),
      "writethumbnail" := VBool(false)
    ]
  }

  /** The keys `download_video` writes before spreading the profile. */
  function MainBase(config: Options, isWindows: bool): Options {
    FileBase(isWindows) + map[
      "progress_hooks" := VOpaque("progress hook"),
      RestrictFilenames := if isWindows then VBool(true) else Get(config, RestrictFilenames, VBool(false)),
      FragmentRetries := Get(config, FragmentRetries, VInt(5)),
      RetrySleep := Get(config, RetrySleep, VInt(2)),
      FileAccessRetries := Get(config, FileAccessRetries, VInt(5)),
      SkipUnavailable := Get(config, SkipUnavailable, VBool(true))
    ]
  }

  /** `ydl_opts` before cookies: the fixed keys, then `**config`, so every key of the profile wins. */
  function YdlOpts(config: Options, isWindows: bool): (o: Options)
    ensures o.Keys == MainBase(config, isWindows).Keys + config.Keys
    ensures forall k :: k in config ==> o[k] == config[k]
  {
    MainBase(config, isWindows) + config
  }

  /** The fixed keys `download_video` writes, and where their values come from. */
  lemma MainBaseValues(config: Options, isWindows: bool)
    ensures var b := MainBase(config, isWindows);
            && FragmentRetries in b && b[FragmentRetries] == Get(config, FragmentRetries, VInt(5))
            && RetrySleep in b && b[RetrySleep] == Get(config, RetrySleep, VInt(2))
            && FileAccessRetries in b && b[FileAccessRetries] == Get(config, FileAccessRetries, VInt(5))
            && SkipUnavailable in b && b[SkipUnavailable] == Get(config, SkipUnavailable, VBool(true))
            && RestrictFilenames in b
            && b[RestrictFilenames] == (if isWindows then VBool(true) else Get(config, RestrictFilenames, VBool(false)))
            && "trim_file_name" in b && b["trim_file_name"] == VInt(120)
  {
  }

  /**
   The retry keys of `ydl_opts` end up as the profile's value or the default.
   `restrictfilenames` ends up as the profile's value, and only without one
   does the Windows setting show.
   */
  lemma YdlOptsValues(config: Options, isWindows: bool)
    ensures var o := YdlOpts(config, isWindows);
            && o[FragmentRetries] == Get(config, FragmentRetries, VInt(5))
            && o[RetrySleep] == Get(config, RetrySleep, VInt(2))
            && o[FileAccessRetries] == Get(config, FileAccessRetries, VInt(5))
            && o[SkipUnavailable] == Get(config, SkipUnavailable, VBool(true))
            && o[RestrictFilenames] == Get(config, RestrictFilenames, VBool(isWindows))
            && o["trim_file_name"] == Get(config, "trim_file_name", VInt(120))
  {
    MainBaseValues(config, isWindows);
  }

  /**
   With the base profile the defaults 2 and 5 apply to `retry_sleep` and
   `file_access_retries`, while its own `fragment_retries` 3 replaces the
   default 5; on Windows `restrictfilenames` is the profile's false.
   */
  lemma BaseProfileOptions(isWindows: bool)
    ensures YdlOpts(DownloadConfig, isWindows)[RetrySleep] == VInt(2)
    ensures YdlOpts(DownloadConfig, isWindows)[FileAccessRetries] == VInt(5)
    ensures YdlOpts(DownloadConfig, isWindows)[FragmentRetries] == VInt(3)
    ensures YdlOpts(DownloadConfig, isWindows)[RestrictFilenames] == VBool(false)
  {
    DownloadConfigLacksSleepKeys();
    YdlOptsValues(DownloadConfig, isWindows);
  }

  /** The cookie options: only for a named file that passes validation, and then its path. */
  function CookieOpts(cookie: Option<CookieFile>): (o: Options)
    ensures o.Keys <= {CookieFileKey}
    ensures o != map[] <==> cookie.Some? && cookie.value.path != [] && IsValidCookieFile(cookie.value)
    ensures o != map[] ==> o == map[CookieFileKey := VStr(cookie.value.path)]
  {
    match cookie
    case Some(f) =>
      if f.path != [] && IsValidCookieFile(f) then
        var o := ConvertCookiesToYtDlpFormat(f.path);
        assert o == map[CookieFileKey := VStr(f.path)];
        o
      else map[]
    case None => map[]
  }

  /** The option set of the first attempt. */
  function MainOpts(config: Options, isWindows: bool, cookie: Option<CookieFile>): (o: Options)
    ensures o.Keys == MainBase(config, isWindows).Keys + config.Keys + CookieOpts(cookie).Keys
    ensures cookie.Some? && cookie.value.path != [] && IsValidCookieFile(cookie.value) ==>
      o[CookieFileKey] == VStr(cookie.value.path)
  {
    YdlOpts(config, isWindows) + CookieOpts(cookie)
  }

  /**
   The safe option set rebuilt after an unexpected exception: the fixed keys
   with the hook, then the safe fallback profile, then the cookie option.
   Nothing of the failed attempt's options carries over.
   */
  function SafeOpts(safeConfig: Options, isWindows: bool, cookie: Option<CookieFile>): (o: Options)
    ensures o.Keys == FileBase(isWindows).Keys + {"progress_hooks"} + safeConfig.Keys + CookieOpts(cookie).Keys
    ensures forall k :: k in safeConfig && k != CookieFileKey ==> k in o && o[k] == safeConfig[k]
    ensures CookieOpts(cookie) != map[] ==> CookieFileKey in o && o[CookieFileKey] == VStr(cookie.value.path)
  {
    var head := FileBase(isWindows)["progress_hooks" := VOpaque("progress hook")];
    var c := CookieOpts(cookie);
    assert head.Keys == FileBase(isWindows).Keys + {"progress_hooks"};
    MergeThree(head, safeConfig, c);
    head + safeConfig + c
  }

  /** Merging three option maps: every key survives, and a later map wins. */
  lemma MergeThree(a: Options, b: Options, c: Options)
    ensures (a + b + c).Keys == a.Keys + b.Keys + c.Keys
    ensures forall k :: k in b && k !in c ==> (a + b + c)[k] == b[k]
    ensures forall k :: k in c ==> (a + b + c)[k] == c[k]
  {
  }

  // ---------------------------------------------------------------------------
  // attempt_download
  // ---------------------------------------------------------------------------

  /** What one engine call does: finish, raise `DownloadError`, or raise anything else. */
  datatype EngineOutcome = Ok | DownloadError(msg: string) | OtherError(msg: string)

  const FragmentKeywords: seq<string> := [
    "fragment 1 not found", "fragment not found", "No such file or directory",
    "fragment download failed", "unable to continue", "fragment", "segment", "chunk",
    "part", "download failed", "network error", "connection error", "timeout", "retry",
    "failed to download"
  ]

  /**
   A `DownloadError` message is a fragment-class error when a keyword occurs in
   its lower-cased form; any mention of a fragment, a segment, a timeout or a
   retry is one.
   */
  function IsFragmentError(msg: string): (b: bool)
    ensures (Contains(Lower(msg), "fragment") || Contains(Lower(msg), "segment") ||
             Contains(Lower(msg), "timeout") || Contains(Lower(msg), "retry")) ==> b
  {
    assert FragmentKeywords[5] == "fragment" && FragmentKeywords[6] == "segment";
    assert FragmentKeywords[12] == "timeout" && FragmentKeywords[13] == "retry";
    exists k :: 0 <= k < |FragmentKeywords| && Contains(Lower(msg), FragmentKeywords[k])
  }

  /** The keywords that decide the classification: the others each contain one of these, or can never match. */
  const DecidingKeywords: seq<string> := [
    "unable to continue", "fragment", "segment", "chunk", "part", "download failed",
    "network error", "connection error", "timeout", "retry", "failed to download"
  ]

  /** A string containing `long` contains every prefix of `long`. */
  lemma ContainsPrefixOf(s: string, long: string, short: string)
    requires StartsWith(long, short) && Contains(s, long)
    ensures Contains(s, short)
  {
    var i := Find(s, long);
    assert s[i..i + |short|] == long[..|short|];
    OccursContains(s, short, i);
  }

  /** The keyword "No such file or directory" holds capitals, so it never occurs in a lower-cased message. */
  lemma NoSuchFileNeverMatches(msg: string)
    ensures !Contains(Lower(msg), FragmentKeywords[2])
  {
    UpperNeverInLower(msg, FragmentKeywords[2], 0);
  }

  /** The first four keywords all start with "fragment". */
  lemma FragmentPrefixed(l: string, k: nat)
    requires k <= 3 && k != 2 && Contains(l, FragmentKeywords[k])
    ensures Contains(l, DecidingKeywords[1])
  {
    assert FragmentKeywords[k][..8] == "fragment" == DecidingKeywords[1];
    ContainsPrefixOf(l, FragmentKeywords[k], "fragment");
  }

  /** Keywords 4 to 14 are the deciding keywords, in order. */
  lemma DecidingTail(k: nat)
    requires 4 <= k < |FragmentKeywords|
    ensures FragmentKeywords[k] == DecidingKeywords[k - 4]
  {
  }

  /** Classifying by the eleven deciding keywords gives the same answer for every message. */
  lemma FragmentClassification(msg: string)
    ensures IsFragmentError(msg) <==>
            exists k :: 0 <= k < |DecidingKeywords| && Contains(Lower(msg), DecidingKeywords[k])
  {
    var l := Lower(msg);
    NoSuchFileNeverMatches(msg);
    if IsFragmentError(msg) {
      var k :| 0 <= k < |FragmentKeywords| && Contains(l, FragmentKeywords[k]);
      if k <= 3 {
        FragmentPrefixed(l, k);
      } else {
        DecidingTail(k);
      }
    }
    if exists k :: 0 <= k < |DecidingKeywords| && Contains(l, DecidingKeywords[k]) {
      var k :| 0 <= k < |DecidingKeywords| && Contains(l, DecidingKeywords[k]);
      DecidingTail(k + 4);
    }
  }

  /** The larger of two integers. */
  function Max(a: int, b: int): (m: int)
    ensures m >= a && m >= b && (m == a || m == b)
  {
    if a >= b then a else b
  }

  const EscalatedKeys: set<string> := {Concurrency, FragmentRetries, RetrySleep, FileAccessRetries, SkipUnavailable}

  /**
   The options retried after a fragment-class error: concurrency halved
   (floor division, default 4) but at least 1, and fixed retry values. A
   concurrency Python cannot floor-divide raises inside the handler (None).
   */
  function FragmentRetryOpts(opts: Options): (r: Option<Options>)
    ensures r.None? <==> AsNumber(Get(opts, Concurrency, VInt(4))).None?
    ensures r.Some? ==> r.value.Keys == opts.Keys + EscalatedKeys
    ensures r.Some? ==> forall k :: k in opts && k !in EscalatedKeys ==> r.value[k] == opts[k]
    ensures r.Some? ==> var old_ := AsNumber(Get(opts, Concurrency, VInt(4))).value;
                        var c := r.value[Concurrency];
                        c.VInt? && c.i >= 1 && c.i == Max(1, old_ / 2) && (old_ >= 1 ==> c.i <= old_)
    ensures r.Some? ==> r.value[FragmentRetries] == VInt(10) && r.value[RetrySleep] == VInt(3)
                        && r.value[FileAccessRetries] == VInt(8) && r.value[SkipUnavailable] == VBool(true)
  {
    match AsNumber(Get(opts, Concurrency, VInt(4)))
    case None => None
    case Some(n) =>
      Some(opts[Concurrency := VInt(Max(1, n / 2))][FragmentRetries := VInt(10)][RetrySleep := VInt(3)]
               [FileAccessRetries := VInt(8)][SkipUnavailable := VBool(true)])
  }

  /** What the ladder does after one engine call. */
  datatype Step = Done | Stop | Crash | Retry(next: Options)

  /**
   One rung of `attempt_download`. A fragment-class `DownloadError` below the
   budget retries with escalated options; any other exception below the budget
   retries with the safe options. A `DownloadError` reported to a callback
   takes the message's first line, which raises for an empty message.
   */
  function StepOf(outcome: EngineOutcome, n: nat, maxRetries: int, opts: Options, safe: Options,
                  hasCallback: bool): (s: Step)
    ensures s == Done <==> outcome.Ok?
    ensures s.Retry? ==> n < maxRetries
    ensures s.Retry? && outcome.DownloadError? ==>
              IsFragmentError(outcome.msg) && FragmentRetryOpts(opts) == Some(s.next)
    ensures outcome.DownloadError? && IsFragmentError(outcome.msg) && n < maxRetries ==>
              (s.Retry? <==> FragmentRetryOpts(opts).Some?)
    ensures (outcome.DownloadError? && IsFragmentError(outcome.msg) && n < maxRetries &&
             FragmentRetryOpts(opts).None?) ==> s == Crash
    ensures outcome.DownloadError? && IsFragmentError(outcome.msg) && n >= maxRetries ==> s == Stop
    ensures outcome.DownloadError? && !IsFragmentError(outcome.msg) ==>
              (s == Crash <==> hasCallback && outcome.msg == []) && (s == Stop <==> !(hasCallback && outcome.msg == []))
    ensures outcome.OtherError? ==> s == (if n < maxRetries then Retry(safe) else Stop)
    ensures s == Crash ==> outcome.DownloadError?
  {
    match outcome
    case Ok => Done
    case DownloadError(msg) =>
      if IsFragmentError(msg) && n < maxRetries then
        match FragmentRetryOpts(opts)
        case Some(next) => Retry(next)
        case None => Crash
      else if !IsFragmentError(msg) && hasCallback && msg == [] then Crash
      else Stop
    case OtherError(_) => if n < maxRetries then Retry(safe) else Stop
  }

  /** How the ladder ended: success, a `False` return, or an exception escaping it. */
  datatype LadderEnd = Succeeded | Failed | Crashed

  /** The end a final (non-retrying) step stands for. */
  function EndOf(s: Step): LadderEnd
    requires !s.Retry?
  {
    match s
    case Done => Succeeded
    case Stop => Failed
    case Crash => Crashed
  }

  /** The ladder's end and the option set of every engine call, in order. */
  datatype LadderRun = LadderRun(end: LadderEnd, calls: seq<Options>)

  /** The most engine calls a ladder entered at attempt `n` can make. */
  function Budget(n: nat, maxRetries: int): nat {
    if n < maxRetries then maxRetries - n + 1 else 1
  }

  /** What the ladder does after the engine call with these options at this attempt number. */
  type StepRule = (Options, nat) -> Step

  /** A rule that only retries below the attempt budget. */
  ghost predicate RetriesBelow(rule: StepRule, maxRetries: int) {
    forall o: Options, a: nat :: rule(o, a).Retry? ==> a < maxRetries
  }

  /** The rule `attempt_download` follows for a given engine, budget, safe profile and callback. */
  function Rule(engine: (Options, nat) -> EngineOutcome, maxRetries: int, safe: Options, hasCallback: bool): (rule: StepRule)
    ensures RetriesBelow(rule, maxRetries)
  {
    var rule := (o: Options, a: nat) => StepOf(engine(o, a), a, maxRetries, o, safe, hasCallback);
    assert forall o: Options, a: nat :: rule(o, a) == StepOf(engine(o, a), a, maxRetries, o, safe, hasCallback);
    rule
  }

  /** The step taken after call `k` of a ladder entered at attempt `n`. */
  function StepAt(rule: StepRule, calls: seq<Options>, k: nat, n: nat): Step
    requires k < |calls|
  {
    rule(calls[k], n + k)
  }

  /** Every call but the last retried, with the next call's options. */
  predicate Chained(rule: StepRule, calls: seq<Options>, n: nat) {
    forall k :: 0 <= k < |calls| - 1 ==> StepAt(rule, calls, k, n) == Retry(calls[k + 1])
  }

  /** The last call did not retry, and the run ends as that step says. */
  predicate Settled(rule: StepRule, run: LadderRun, n: nat) {
    |run.calls| > 0 &&
    var s := StepAt(rule, run.calls, |run.calls| - 1, n);
    !s.Retry? && run.end == EndOf(s)
  }

  /**
   `attempt_download(opts, n)`: call the engine, and recurse with attempt
   `n + 1` while the step says to retry. The attempt number climbs by one per
   call, so the engine runs at most `Budget(n, maxRetries)` times.
   */
  function Attempt(rule: StepRule, opts: Options, n: nat, maxRetries: int): (r: LadderRun)
    requires RetriesBelow(rule, maxRetries)
    ensures 1 <= |r.calls| <= Budget(n, maxRetries)
    ensures r.calls[0] == opts
    ensures Chained(rule, r.calls, n)
    ensures Settled(rule, r, n)
    decreases if n < maxRetries then maxRetries - n else 0
  {
    match rule(opts, n)
    case Done => LadderRun(Succeeded, [opts])
    case Stop => LadderRun(Failed, [opts])
    case Crash => LadderRun(Crashed, [opts])
    case Retry(next) =>
      var rest := Attempt(rule, next, n + 1, maxRetries);
      LadderCons(rule, opts, rest, n);
      LadderRun(rest.end, [opts] + rest.calls)
  }

  /** A retrying first call followed by a settled run from the next attempt is a settled run. */
  lemma LadderCons(rule: StepRule, opts: Options, rest: LadderRun, n: nat)
    requires |rest.calls| > 0
    requires rule(opts, n) == Retry(rest.calls[0])
    requires Chained(rule, rest.calls, n + 1)
    requires Settled(rule, rest, n + 1)
    ensures var r := LadderRun(rest.end, [opts] + rest.calls);
            Chained(rule, r.calls, n) && Settled(rule, r, n)
  {
    var calls := [opts] + rest.calls;
    forall k | 1 <= k < |calls|
      ensures StepAt(rule, calls, k, n) == StepAt(rule, rest.calls, k - 1, n + 1)
    {
      assert calls[k] == rest.calls[k - 1];
    }
    forall k | 0 <= k < |calls| - 1
      ensures StepAt(rule, calls, k, n) == Retry(calls[k + 1])
    {
      if k > 0 {
        assert calls[k + 1] == rest.calls[k];
      } else {
        assert calls[0] == opts && calls[1] == rest.calls[0];
      }
    }
  }

  /** Dropping the first call of a chained, settled run of two or more calls leaves one entered at the next attempt. */
  lemma LadderTail(rule: StepRule, run: LadderRun, n: nat)
    requires |run.calls| >= 2
    requires Chained(rule, run.calls, n)
    requires Settled(rule, run, n)
    ensures var tail := LadderRun(run.end, run.calls[1..]);
            Chained(rule, tail.calls, n + 1) && Settled(rule, tail, n + 1)
  {
    var rest := run.calls[1..];
    var m := n + 1;
    forall k: nat | k < |rest| - 1
      ensures StepAt(rule, rest, k, m) == Retry(rest[k + 1])
    {
      assert rest[k] == run.calls[k + 1] && rest[k + 1] == run.calls[k + 2];
      assert StepAt(rule, run.calls, k + 1, n) == Retry(run.calls[k + 2]);
    }
    assert rest[|rest| - 1] == run.calls[|run.calls| - 1];
  }

  /**
   The ladder is the only run that starts with `opts`, retries exactly as the
   steps say and settles: a second, independent description of `Attempt`.
   */
  lemma {:induction false} LadderUnique(rule: StepRule, opts: Options, n: nat, maxRetries: int, run: LadderRun)
    requires RetriesBelow(rule, maxRetries)
    requires |run.calls| > 0 && run.calls[0] == opts
    requires Chained(rule, run.calls, n)
    requires Settled(rule, run, n)
    ensures run == Attempt(rule, opts, n, maxRetries)
    decreases if n < maxRetries then maxRetries - n else 0
  {
    var s := rule(opts, n);
    assert s == StepAt(rule, run.calls, 0, n);
    if s.Retry? {
      assert |run.calls| >= 2;
      var tail := LadderRun(run.end, run.calls[1..]);
      assert tail.calls[0] == s.next;
      LadderTail(rule, run, n);
      LadderUnique(rule, s.next, n + 1, maxRetries, tail);
      assert run.calls == [opts] + tail.calls;
    } else {
      assert |run.calls| == 1;
    }
  }

  /**
   While the engine only ever raises fragment-class errors, each retry halves
   the concurrency (never below 1) and sets the escalated retry values.
   */
  lemma FragmentLadder(engine: (Options, nat) -> EngineOutcome, opts: Options, maxRetries: int,
                       safe: Options, hasCallback: bool, k: nat)
    requires forall o: Options, a: nat :: engine(o, a).DownloadError? && IsFragmentError(engine(o, a).msg)
    requires k + 1 < |Attempt(Rule(engine, maxRetries, safe, hasCallback), opts, 1, maxRetries).calls|
    ensures var calls := Attempt(Rule(engine, maxRetries, safe, hasCallback), opts, 1, maxRetries).calls;
            Some(calls[k + 1]) == FragmentRetryOpts(calls[k])
            && calls[k + 1][Concurrency].VInt? && calls[k + 1][Concurrency].i >= 1
            && calls[k + 1][FragmentRetries] == VInt(10)
  {
    var rule := Rule(engine, maxRetries, safe, hasCallback);
    var calls := Attempt(rule, opts, 1, maxRetries).calls;
    assert StepAt(rule, calls, k, 1) == Retry(calls[k + 1]);
    assert rule(calls[k], 1 + k) == StepOf(engine(calls[k], 1 + k), 1 + k, maxRetries, calls[k], safe, hasCallback);
  }

  // ---------------------------------------------------------------------------
  // try_alternative_download_methods
  // ---------------------------------------------------------------------------

  /** The three alternative profiles, tried in this order: simple, audio-only, minimal. */
  const AlternativeConfigs: seq<Options> := [
    map[Format := VStr("best[ext=mp4]/best"), Concurrency := VInt(1), FragmentRetries := VInt(3),
        RetrySleep := VInt(2), SkipUnavailable := VBool(true), PreferFfmpeg := VBool(false)],
    map[Format := VStr("bestaudio[ext=m4a]/bestaudio"), Concurrency := VInt(1), FragmentRetries := VInt(3),
        RetrySleep := VInt(2), SkipUnavailable := VBool(true), PreferFfmpeg := VBool(false)],
    map[Format := VStr("worst[ext=mp4]/worst"), Concurrency := VInt(1), FragmentRetries := VInt(5),
        RetrySleep := VInt(3), SkipUnavailable := VBool(true), PreferFfmpeg := VBool(false),
        "nocheckcertificate" := VBool(true), "ignoreerrors" := VBool(true)]
  ]

  /** The options of one alternative method: the fixed keys without a hook, the method's profile, the cookie option. */
  function MethodOpts(config: Options, isWindows: bool, cookie: Option<CookieFile>): (o: Options)
    ensures o.Keys == FileBase(isWindows).Keys + config.Keys + CookieOpts(cookie).Keys
    ensures forall k :: k in config && k != CookieFileKey ==> o[k] == config[k]
    ensures "progress_hooks" in o <==> "progress_hooks" in config
  {
    FileBase(isWindows) + config + CookieOpts(cookie)
  }

  /** The option sets of the three alternatives, in order. */
  function AlternativeOpts(isWindows: bool, cookie: Option<CookieFile>): (os: seq<Options>)
    ensures |os| == |AlternativeConfigs| == 3
    ensures forall i :: 0 <= i < 3 ==> os[i] == MethodOpts(AlternativeConfigs[i], isWindows, cookie)
  {
    seq(3, i requires 0 <= i < 3 => MethodOpts(AlternativeConfigs[i], isWindows, cookie))
  }

  /** Every alternative runs at concurrency 1 and without the progress hook. */
  lemma AlternativesSequential(isWindows: bool, cookie: Option<CookieFile>, i: nat)
    requires i < |AlternativeConfigs|
    ensures var o := MethodOpts(AlternativeConfigs[i], isWindows, cookie);
            Concurrency in o && o[Concurrency] == VInt(1) && "progress_hooks" !in o
  {
    var c := AlternativeConfigs[i];
    assert Concurrency in c && c[Concurrency] == VInt(1) && "progress_hooks" !in c;
  }

  /**
   `try_alternative_download_methods`: the index of the first method whose
   engine call finishes, every earlier one having raised; None when all three raise.
   */
  function TryAlternatives(alt: Options -> EngineOutcome, isWindows: bool, cookie: Option<CookieFile>): (r: Option<nat>)
    ensures r.Some? ==> r.value < 3 && alt(MethodOpts(AlternativeConfigs[r.value], isWindows, cookie)).Ok?
    ensures r.Some? ==> forall i :: 0 <= i < r.value ==> !alt(MethodOpts(AlternativeConfigs[i], isWindows, cookie)).Ok?
    ensures r.None? <==> forall i :: 0 <= i < 3 ==> !alt(MethodOpts(AlternativeConfigs[i], isWindows, cookie)).Ok?
  {
    var os := AlternativeOpts(isWindows, cookie);
    FirstSuccess(os, (o: Options) => alt(o).Ok?)
  }

  // ---------------------------------------------------------------------------
  // download_video
  // ---------------------------------------------------------------------------

  /** The facts `download_video` learns from its surroundings. */
  datatype Environment = Environment(ffmpeg: bool, isWindows: bool, canMakeDir: bool, hasCallback: bool)

  /**
   How `download_video` ends: refused by the pre-flight check (False), unable
   to create the folder (None), finished with a verdict, or ended by an
   exception escaping the ladder. `alternative` is None when the alternative
   chain did not run, and otherwise its result.
   */
  datatype VideoOutcome =
    | Refused(why: Rejection)
    | NoDirectory
    | Finished(success: bool, ladder: LadderRun, alternative: Option<Option<nat>>)
    | Aborted(ladder: LadderRun)

  /** The profile after selection, stability adjustment and the ffmpeg overlay. */
  function FinalConfig(url: string, mode: string, ffmpeg: bool, adjust: (Options, string) -> Options): Options {
    WithFfmpeg(adjust(SelectProfile(mode), url), mode, ffmpeg)
  }

  /** Every profile value other than the cookie file reaches the first engine call unchanged. */
  lemma MainOptsCarriesConfig(config: Options, isWindows: bool, cookie: Option<CookieFile>)
    ensures var o := MainOpts(config, isWindows, cookie);
            forall k :: k in config && k != CookieFileKey ==> k in o && o[k] == config[k]
  {
    var y := YdlOpts(config, isWindows);
    var c := CookieOpts(cookie);
    assert forall k :: k in config ==> k in y && y[k] == config[k];
    assert forall k :: k != CookieFileKey ==> k !in c;
  }

  /** With ffmpeg and the `quality` mode, the overlay's four values reach the first engine call. */
  lemma FfmpegReachesEngine(url: string, mode: string, adjust: (Options, string) -> Options,
                            isWindows: bool, cookie: Option<CookieFile>)
    ensures var o := MainOpts(FinalConfig(url, mode, true, adjust), isWindows, cookie);
            mode == "quality" ==> forall k :: k in FfmpegConfig ==> k in o && o[k] == FfmpegConfig[k]
  {
    var c := FinalConfig(url, mode, true, adjust);
    FfmpegOverlayKeepsOthers(adjust(SelectProfile(mode), url));
    assert CookieFileKey !in FfmpegConfig;
    MainOptsCarriesConfig(c, isWindows, cookie);
  }

  /**
   The part of `download_video` after the folder exists: run the ladder from
   `opts`, and when it returns False and a callback exists, the alternatives.
   */
  function RunDownload(opts: Options, safe: Options, maxRetries: int, hasCallback: bool, isWindows: bool,
                       cookie: Option<CookieFile>, engine: (Options, nat) -> EngineOutcome,
                       alt: Options -> EngineOutcome): (r: VideoOutcome)
    ensures r.Finished? || r.Aborted?
    ensures 1 <= |r.ladder.calls| <= Max(1, maxRetries) && r.ladder.calls[0] == opts
    ensures r.Aborted? <==> r.ladder.end == Crashed
    ensures r.Finished? ==> (r.alternative.Some? <==> r.ladder.end == Failed && hasCallback)
    ensures r.Finished? ==> (r.success <==> r.ladder.end == Succeeded || (r.alternative.Some? && r.alternative.value.Some?))
    ensures r.Finished? && r.alternative.Some? ==> r.alternative.value == TryAlternatives(alt, isWindows, cookie)
  {
    var ladder := Attempt(Rule(engine, maxRetries, safe, hasCallback), opts, 1, maxRetries);
    match ladder.end
    case Crashed => Aborted(ladder)
    case Succeeded => Finished(true, ladder, None)
    case Failed =>
      if hasCallback then
        var a := TryAlternatives(alt, isWindows, cookie);
        Finished(a.Some?, ladder, Some(a))
      else Finished(false, ladder, None)
  }

  /**
   `download_video` from the preprocessed URL `u` on. The stability adjustment
   and the safe fallback profile are parameters; the engine answers each ladder
   call and `alt` each alternative method. A refused configuration or a missing
   folder stops before any engine call; otherwise the first call gets the
   merged options.
   */
  function DownloadPrepared(u: string, cookie: Option<CookieFile>, mode: string, maxRetries: int, env: Environment,
                            adjust: (Options, string) -> Options, safeConfig: Options,
                            engine: (Options, nat) -> EngineOutcome, alt: Options -> EngineOutcome): (r: VideoOutcome)
    ensures r.Refused? <==> ValidateDownloadConfig(u, adjust(SelectProfile(mode), u)).Rejected?
    ensures r.Refused? ==> r.why == ValidateDownloadConfig(u, adjust(SelectProfile(mode), u)).why
    ensures r.NoDirectory? <==> !r.Refused? && !env.canMakeDir
    ensures !r.Refused? && !r.NoDirectory? ==>
              r == RunDownload(MainOpts(FinalConfig(u, mode, env.ffmpeg, adjust), env.isWindows, cookie),
                               SafeOpts(safeConfig, env.isWindows, cookie), maxRetries, env.hasCallback,
                               env.isWindows, cookie, engine, alt)
  {
    var v := ValidateDownloadConfig(u, adjust(SelectProfile(mode), u));
    if v.Rejected? then Refused(v.why)
    else if !env.canMakeDir then NoDirectory
    else
        RunDownload(MainOpts(FinalConfig(u, mode, env.ffmpeg, adjust), env.isWindows, cookie),
                    SafeOpts(safeConfig, env.isWindows, cookie), maxRetries, env.hasCallback,
                    env.isWindows, cookie, engine, alt)
  }

  /**
   `download_video`: the URL is preprocessed first, so everything after it
   (the pre-flight check, the stability adjustment, the engine) works on a URL
   with a web scheme and without surrounding blanks or control characters, and
   the pre-flight check never sees an empty URL.
   */
  function DownloadVideo(url: string, cookie: Option<CookieFile>, mode: string, maxRetries: int, env: Environment,
                         adjust: (Options, string) -> Options, safeConfig: Options,
                         engine: (Options, nat) -> EngineOutcome, alt: Options -> EngineOutcome): (r: VideoOutcome)
    ensures r.Refused? ==> r.why != EmptyUrl
    ensures exists u :: HasWebScheme(u) && Strip(u) == u && '\n' !in u && '\r' !in u && '\t' !in u &&
                        r == DownloadPrepared(u, cookie, mode, maxRetries, env, adjust, safeConfig, engine, alt)
    ensures r.NoDirectory? ==> !env.canMakeDir
  {
    var u := PreprocessUrl(url);
    PreparedFacts(u, cookie, mode, maxRetries, env, adjust, safeConfig, engine, alt);
    DownloadPrepared(u, cookie, mode, maxRetries, env, adjust, safeConfig, engine, alt)
  }

  /** A prepared download of a preprocessed URL is never refused as empty and stops early only for the folder. */
  lemma PreparedFacts(u: string, cookie: Option<CookieFile>, mode: string, maxRetries: int, env: Environment,
                      adjust: (Options, string) -> Options, safeConfig: Options,
                      engine: (Options, nat) -> EngineOutcome, alt: Options -> EngineOutcome)
    requires u != [] && !IsSpace(u[0])
    ensures var r := DownloadPrepared(u, cookie, mode, maxRetries, env, adjust, safeConfig, engine, alt);
            (r.Refused? ==> r.why != EmptyUrl) && (r.NoDirectory? ==> !env.canMakeDir)
  {
  }

}

=== FILE: json.dfy ===
/**
 JSON documents as `json.load` returns them. An object is written as its
 members in file order; `Entries` gives the dictionary Python builds from
 them, where a repeated key keeps the position of its first occurrence and
 the value of its last.
 */
module JsonDoc {
  import opened Wrappers

  /** A parsed JSON document; objects keep their members as written. */
  datatype Json =
    | JNull
    | JBool(b: bool)
    | JNum(n: int)
    | JStr(s: string)
    | JArr(items: seq<Json>)
    | JObj(fields: seq<(string, Json)>)

  /** Python truthiness of a JSON value. */
  predicate Truthy(j: Json) {
    match j
    case JNull => false
    case JBool(b) => b
    case JNum(n) => n != 0
    case JStr(s) => s != ""
    case JArr(items) => items != []
    case JObj(fields) => fields != []
  }

  /** Values Python can use as a dictionary key: everything but lists and dicts. */
  predicate Hashable(j: Json) {
    !j.JArr? && !j.JObj?
  }

  /** `obj.get(key)`: the value of the last member named `key`, which is the one the dictionary keeps. */
  function Lookup(fields: seq<(string, Json)>, key: string): (r: Option<Json>)
    ensures r.Some? ==> exists i :: 0 <= i < |fields| && fields[i] == (key, r.value)
    ensures r.None? <==> forall i :: 0 <= i < |fields| ==> fields[i].0 != key
    decreases |fields|
  {
    if fields == [] then None
    else if fields[|fields| - 1].0 == key then Some(fields[|fields| - 1].1)
    else Lookup(fields[..|fields| - 1], key)
  }

  /** `item.get(key, '')`. */
  function GetOrEmpty(fields: seq<(string, Json)>, key: string): Json {
    Lookup(fields, key).GetOr(JStr(""))
  }

  /** No key occurs twice. */
  predicate DistinctKeys(d: seq<(string, Json)>) {
    forall i, j :: 0 <= i < j < |d| ==> d[i].0 != d[j].0
  }

  /** The position of `key` in `d`, or -1 when it is absent. */
  function KeyIndex(d: seq<(string, Json)>, key: string): (i: int)
    ensures -1 <= i < |d|
    ensures i >= 0 ==> d[i].0 == key
    ensures i < 0 ==> forall j :: 0 <= j < |d| ==> d[j].0 != key
    decreases |d|
  {
    if d == [] then -1
    else if d[|d| - 1].0 == key then |d| - 1
    else KeyIndex(d[..|d| - 1], key)
  }

  /**
   `d[m.0] = m.1` on a dictionary listed in insertion order: an existing key
   keeps its place and takes the new value; a new key goes last.
   */
  function Update(d: seq<(string, Json)>, m: (string, Json)): (r: seq<(string, Json)>)
    requires DistinctKeys(d)
    ensures DistinctKeys(r)
    ensures forall e :: e in r <==> e == m || (e in d && e.0 != m.0)
    ensures |r| == |d| || r == d + [m]
  {
    var i := KeyIndex(d, m.0);
    if i < 0 then d + [m]
    else
      var r := d[i := m];
      assert r[i] == m;
      assert forall e :: e in r <==> e == m || (e in d && e.0 != m.0) by {
        forall e
          ensures e in r <==> e == m || (e in d && e.0 != m.0)
        {
          if e in d && e.0 != m.0 {
            var j :| 0 <= j < |d| && d[j] == e;
            assert r[j] == e;
          }
          if e in r && e != m {
            var j :| 0 <= j < |r| && r[j] == e;
            assert j != i && d[j] == e;
            assert d[j].0 != d[i].0 by {
              if j < i { assert d[j].0 != d[i].0; } else { assert d[i].0 != d[j].0; }
            }
          }
        }
      }
      r
  }

  /**
   The items of the dictionary `json.load` builds from an object's members,
   in insertion order: each key once, with the value `Lookup` finds.
   */
  function Entries(fields: seq<(string, Json)>): (r: seq<(string, Json)>)
    ensures DistinctKeys(r)
    ensures forall e :: e in r <==> Lookup(fields, e.0) == Some(e.1)
    ensures |r| <= |fields|
    ensures |r| == 0 <==> |fields| == 0
    decreases |fields|
  {
    if fields == [] then []
    else Update(Entries(fields[..|fields| - 1]), fields[|fields| - 1])
  }

  /** A key seen again replaces the first occurrence in its place: `{a: x, b: y, a: z}` builds `{a: z, b: y}`. */
  lemma EntriesRepeatFirst(a: string, b: string, x: Json, y: Json, z: Json)
    requires a != b
    ensures Entries([(a, x), (b, y), (a, z)]) == [(a, z), (b, y)]
  {
    var fields := [(a, x), (b, y), (a, z)];
    assert fields[..2] == [(a, x), (b, y)];
    assert fields[..2][..1] == [(a, x)];
    assert Entries([(a, x)]) == [(a, x)] by {
      assert [(a, x)][..0] == [];
    }
    assert Entries(fields[..2]) == [(a, x), (b, y)] by {
      assert KeyIndex([(a, x)], b) == -1;
    }
    assert KeyIndex([(a, x), (b, y)], a) == 0;
  }

  /** A key given twice in a row keeps only its last value. */
  lemma EntriesRepeatLast(a: string, x: Json, y: Json)
    ensures Entries([(a, x), (a, y)]) == [(a, y)]
  {
    var fields := [(a, x), (a, y)];
    assert fields[..1] == [(a, x)];
    assert Entries([(a, x)]) == [(a, x)] by {
      assert [(a, x)][..0] == [];
    }
    assert KeyIndex([(a, x)], a) == 0;
  }

  /** The position of the first member named `key`, or -1 when there is none. */
  function FirstIndex(fields: seq<(string, Json)>, key: string): (i: int)
    ensures -1 <= i < |fields|
    ensures i >= 0 ==> fields[i].0 == key && forall j :: 0 <= j < i ==> fields[j].0 != key
    ensures i < 0 ==> forall j :: 0 <= j < |fields| ==> fields[j].0 != key
    decreases |fields|
  {
    if fields == [] then -1
    else if fields[0].0 == key then 0
    else
      var t := FirstIndex(fields[1..], key);
      if t < 0 then -1 else t + 1
  }

  /** Appending a member moves no first position, and a new key's first position is the end. */
  lemma FirstIndexAppend(fields: seq<(string, Json)>, m: (string, Json), key: string)
    ensures FirstIndex(fields, key) >= 0 ==> FirstIndex(fields + [m], key) == FirstIndex(fields, key)
    ensures FirstIndex(fields, key) < 0 && key == m.0 ==> FirstIndex(fields + [m], key) == |fields|
  {
    var i := FirstIndex(fields + [m], key);
    assert forall j :: 0 <= j < |fields| ==> (fields + [m])[j] == fields[j];
    assert (fields + [m])[|fields|] == m;
    if FirstIndex(fields, key) >= 0 {
      assert i <= FirstIndex(fields, key);
    }
  }

  /** The keys of `r` occur in `fields`, in the order of their first occurrence there. */
  predicate InFirstOrder(fields: seq<(string, Json)>, r: seq<(string, Json)>) {
    forall i, j :: 0 <= i < j < |r| ==> 0 <= FirstIndex(fields, r[i].0) < FirstIndex(fields, r[j].0)
  }

  /** Every key of `r` occurs in `fields`. */
  predicate KeysOccur(fields: seq<(string, Json)>, r: seq<(string, Json)>) {
    forall i :: 0 <= i < |r| ==> FirstIndex(fields, r[i].0) >= 0
  }

  /** Appending a member keeps the first positions of the keys already there. */
  lemma OrderKept(init: seq<(string, Json)>, m: (string, Json), e: seq<(string, Json)>)
    requires KeysOccur(init, e) && InFirstOrder(init, e)
    ensures KeysOccur(init + [m], e) && InFirstOrder(init + [m], e)
    ensures forall i :: 0 <= i < |e| ==> FirstIndex(init + [m], e[i].0) == FirstIndex(init, e[i].0)
  {
    forall i | 0 <= i < |e|
      ensures FirstIndex(init + [m], e[i].0) == FirstIndex(init, e[i].0)
    {
      FirstIndexAppend(init, m, e[i].0);
    }
  }

  /** A new key goes last, after every key already listed. */
  lemma OrderNewKey(init: seq<(string, Json)>, m: (string, Json), e: seq<(string, Json)>)
    requires KeysOccur(init, e) && InFirstOrder(init, e) && FirstIndex(init, m.0) < 0
    ensures KeysOccur(init + [m], e + [m]) && InFirstOrder(init + [m], e + [m])
  {
    var f := init + [m];
    var r := e + [m];
    OrderKept(init, m, e);
    FirstIndexAppend(init, m, m.0);
    assert FirstIndex(f, m.0) == |init|;
    forall i | 0 <= i < |r|
      ensures 0 <= FirstIndex(f, r[i].0) <= |init|
      ensures i < |e| ==> FirstIndex(f, r[i].0) == FirstIndex(init, e[i].0) < |init|
    {
      if i < |e| {
        assert r[i] == e[i];
      } else {
        assert r[i] == m;
      }
    }
    forall i, j | 0 <= i < j < |r|
      ensures FirstIndex(f, r[i].0) < FirstIndex(f, r[j].0)
    {
      if j < |e| {
        assert FirstIndex(init, e[i].0) < FirstIndex(init, e[j].0);
      } else {
        assert r[j] == m;
      }
    }
  }

  /** An existing key keeps its place. */
  lemma OrderOldKey(init: seq<(string, Json)>, m: (string, Json), e: seq<(string, Json)>)
    requires DistinctKeys(e) && KeysOccur(init, e) && InFirstOrder(init, e) && KeyIndex(e, m.0) >= 0
    ensures KeysOccur(init + [m], Update(e, m)) && InFirstOrder(init + [m], Update(e, m))
  {
    OrderKept(init, m, e);
    var r := Update(e, m);
    assert r == e[KeyIndex(e, m.0) := m];
    SameKeysOrder(init + [m], e, r);
  }

  /** A list with the same keys at the same positions keeps the order facts. */
  lemma SameKeysOrder(fields: seq<(string, Json)>, e: seq<(string, Json)>, r: seq<(string, Json)>)
    requires KeysOccur(fields, e) && InFirstOrder(fields, e)
    requires |r| == |e| && forall i :: 0 <= i < |r| ==> r[i].0 == e[i].0
    ensures KeysOccur(fields, r) && InFirstOrder(fields, r)
  {
  }

  /** The dictionary lists its keys in the order of their first occurrence. */
  lemma {:induction false} EntriesOrder(fields: seq<(string, Json)>)
    ensures KeysOccur(fields, Entries(fields)) && InFirstOrder(fields, Entries(fields))
    decreases |fields|
  {
    if fields != [] {
      var init := fields[..|fields| - 1];
      var m := fields[|fields| - 1];
      assert fields == init + [m];
      var e := Entries(init);
      EntriesOrder(init);
      if KeyIndex(e, m.0) < 0 {
        assert Lookup(init, m.0).None? by {
          assert forall v :: (m.0, v) !in e;
        }
        assert Update(e, m) == e + [m];
        OrderNewKey(init, m, e);
      } else {
        OrderOldKey(init, m, e);
      }
    }
  }
}

=== FILE: onedrive.dfy ===
/**
 The second OneDrive/SharePoint resolver, the download controller used by the
 download tab: its own URL classifiers, routing, link joiner, sharing-URL
 conversion, filename derivation and approach chain.

 `host` and `path` stand for `urlparse(url).netloc` and `urlparse(url).path`,
 which the caller supplies; HTTP goes through a session oracle.
 */
module OneDriveController {
  import opened Wrappers
  import opened PyStr
  import opened Chains
  import SharePointUrls

  /** The domains a host is compared against. */
  const Domains: seq<string> := ["onedrive.live.com", "sharepoint.com", "office.com", "microsoft.com"]

  /**
   SharePoint system paths. The classifier's list repeats eight of these
   entries a second time, which changes nothing.
   */
  const SystemPaths: seq<string> :=
    ["/_layouts/15/Throttle.htm", "/_layouts/15/error.aspx", "/_layouts/15/accessdenied.aspx",
     "/_layouts/15/login.aspx", "/_layouts/15/", "/_vti_bin/", "/_api/", "/_forms/",
     "/_catalogs/", "/_cts/", "/_private/", "/_vti_pvt/", "/_vti_cnf/", "/_vti_log/",
     "/_vti_script/", "/_vti_txt/", "/_vti_aut/", "/_vti_map/", "/_vti_rtf/", "/_vti_pcn/",
     "/_vti_adm/", "/_vti_opt/"]

  /** Extensions whose presence anywhere in the URL makes it a download URL. */
  const FileExtensions: seq<string> :=
    [".pdf", ".doc", ".docx", ".xls", ".xlsx", ".ppt", ".pptx",
     ".zip", ".rar", ".7z", ".tar", ".gz",
     ".mp3", ".mp4", ".avi", ".mkv", ".mov", ".wmv",
     ".jpg", ".jpeg", ".png", ".gif", ".bmp",
     ".txt", ".rtf", ".csv"]

  /** Some listed system path occurs in the lowercased URL. */
  predicate OnSystemPath(url: string) {
    exists k :: 0 <= k < |SystemPaths| && Contains(Lower(url), SystemPaths[k])
  }

  /**
   The throttle page's entry has a capital letter, so it never occurs in a
   lowercased URL: it can never match on its own.
   */
  lemma ThrottleEntryNeverMatches(url: string)
    ensures !Contains(Lower(url), SystemPaths[0])
  {
    UpperNeverInLower(url, SystemPaths[0], 13);
  }

  /**
   `is_onedrive_url`: a SharePoint host on a system path is refused; otherwise
   the lowercased host must be a substring of a listed domain. The containment
   runs the wrong way round, so subdomains fail and an empty host passes.
   */
  function IsOneDriveUrl(url: string, host: string): (r: bool)
    ensures r <==>
      !(Contains(Lower(host), "sharepoint.com") && OnSystemPath(url)) &&
      exists k :: 0 <= k < |Domains| && Contains(Domains[k], Lower(host))
    ensures r ==> |host| <= 17
    ensures r && Contains(Lower(host), "sharepoint.com") ==>
      Lower(host) == "sharepoint.com" && !OnSystemPath(url)
  {
    AcceptedHosts(host);
    if Contains(Lower(host), "sharepoint.com") && OnSystemPath(url) then false
    else exists k :: 0 <= k < |Domains| && Contains(Domains[k], Lower(host))
  }

  /** A string longer than another never occurs in it. */
  lemma LongerNeverContained(s: string, sub: string)
    requires |sub| > |s|
    ensures !Contains(s, sub)
  {
  }

  /**
   A host that is a substring of a listed domain has at most 17 characters,
   and if it mentions "sharepoint.com" it is exactly that domain.
   */
  lemma AcceptedHosts(host: string)
    ensures (exists k :: 0 <= k < |Domains| && Contains(Domains[k], Lower(host))) ==> |host| <= 17
    ensures ((exists k :: 0 <= k < |Domains| && Contains(Domains[k], Lower(host))) &&
             Contains(Lower(host), "sharepoint.com")) ==>
      Lower(host) == "sharepoint.com"
  {
    var h := Lower(host);
    if k :| 0 <= k < |Domains| && Contains(Domains[k], h) {
      if Contains(h, "sharepoint.com") {
        var a := Find(h, "sharepoint.com");
        assert h[a..a + 14] == "sharepoint.com";
        ContainsPart(Domains[k], h, a, a + 14);
        if k == 0 {
          MissingCharNotContained(Domains[0], "sharepoint.com", 0);
        }
        assert k == 1;
        var i := Find(Domains[1], h);
        assert |h| == 14 && i == 0;
      }
    }
  }

  /** Every host longer than the longest listed domain (17 characters) is refused. */
  lemma LongHostsRefused(url: string, host: string)
    requires |host| > 17
    ensures !IsOneDriveUrl(url, host)
  {
    forall k | 0 <= k < |Domains| ensures !Contains(Domains[k], Lower(host)) {
      LongerNeverContained(Domains[k], Lower(host));
    }
  }

  /** The exact consumer domain is accepted: the reversed containment holds for equal strings. */
  lemma ExactDomainAccepted(url: string)
    ensures IsOneDriveUrl(url, "onedrive.live.com")
  {
    var host := "onedrive.live.com";
    assert Lower(host) == Domains[0];
    assert !Contains(Lower(host), "sharepoint.com") by {
      MissingCharNotContained(Lower(host), "sharepoint.com", 0);
    }
    assert OccursAt(Domains[0], Lower(host), 0);
    OccursContains(Domains[0], Lower(host), 0);
  }

  /** A tenant subdomain, the usual SharePoint host, is refused. */
  lemma TenantHostRefused(url: string)
    ensures !IsOneDriveUrl(url, "contoso.sharepoint.com")
  {
    LongHostsRefused(url, "contoso.sharepoint.com");
  }

  /** An empty host (a URL without a scheme) is accepted, being a substring of every domain. */
  lemma EmptyHostAccepted(url: string)
    ensures IsOneDriveUrl(url, "")
  {
    assert Lower("") == "";
    assert !Contains("", "sharepoint.com") by {
      LongerNeverContained("", "sharepoint.com");
    }
    assert OccursAt(Domains[0], "", 0);
    OccursContains(Domains[0], "", 0);
  }

  /** Some listed extension occurs in the lowercased URL. */
  predicate MentionsExtension(url: string) {
    exists k :: 0 <= k < |FileExtensions| && Contains(Lower(url), FileExtensions[k])
  }

  /**
   `is_valid_download_url`, checked in order: a blank URL is invalid; any
   listed extension makes it valid, even on a system path; a SharePoint URL on
   a system path is invalid; anything else is valid.
   */
  function IsValidDownloadUrl(url: string): (r: bool)
    ensures Strip(url) == [] ==> !r
    ensures Strip(url) != [] && MentionsExtension(url) ==> r
    ensures !r <==> (Strip(url) == [] ||
      (!MentionsExtension(url) && Contains(Lower(url), "sharepoint.com") && OnSystemPath(url)))
  {
    if url == [] || Strip(url) == [] then false
    else if MentionsExtension(url) then true
    else if Contains(Lower(url), "sharepoint.com") && OnSystemPath(url) then false
    else true
  }

  /**
   `is_complex_sharepoint_url`: a SharePoint URL with a personal-site or site
   path. The domain test ignores case; the path test does not.
   */
  function IsComplexSharePointUrl(url: string): (b: bool)
    ensures b <==> Contains(Lower(url), "sharepoint.com") && (Contains(url, "/personal/") || Contains(url, "/sites/"))
    ensures b ==> SharePointUrls.IsOneDriveUrl(url)
  {
    Contains(Lower(url), "sharepoint.com") && (Contains(url, "/personal/") || Contains(url, "/sites/"))
  }

  /** Lowering a string lowers every occurrence inside it. */
  lemma LowerKeepsOccurrence(s: string, sub: string)
    requires Contains(s, sub)
    ensures Contains(Lower(s), Lower(sub))
  {
    var i := Find(s, sub);
    assert Lower(s)[i..i + |sub|] == Lower(sub) by {
      assert s[i..i + |sub|] == sub;
      forall j | 0 <= j < |sub| ensures Lower(s)[i..i + |sub|][j] == Lower(sub)[j] {
        assert Lower(s)[i..i + |sub|][j] == Lower(s)[i + j];
        assert s[i + j] == sub[j];
      }
    }
    OccursContains(Lower(s), Lower(sub), i);
  }

  /**
   The path test is case-sensitive: a SharePoint URL whose only personal-site
   marker is upper-case is not complex, although its lowered form holds the
   lower-case marker and the domain test lowers the URL.
   */
  lemma UpperCasePathNotComplex(url: string)
    requires Contains(url, "/PERSONAL/")
    requires !Contains(url, "/personal/") && !Contains(url, "/sites/")
    ensures !IsComplexSharePointUrl(url)
    ensures Contains(Lower(url), "/personal/")
  {
    LowerKeepsOccurrence(url, "/PERSONAL/");
    LowerPersonalMarker();
  }

  /** The upper-case personal-site marker lowers to the lower-case one, letter by letter. */
  lemma LowerPersonalMarker()
    ensures Lower("/PERSONAL/") == "/personal/"
  {
    assert LowerChar('P') == 'p' && LowerChar('E') == 'e' && LowerChar('R') == 'r' && LowerChar('S') == 's';
    assert LowerChar('O') == 'o' && LowerChar('N') == 'n' && LowerChar('A') == 'a' && LowerChar('L') == 'l';
    assert LowerChar('/') == '/';
    assert Lower("/PERSONAL/") ==
      [LowerChar('/'), LowerChar('P'), LowerChar('E'), LowerChar('R'), LowerChar('S'),
       LowerChar('O'), LowerChar('N'), LowerChar('A'), LowerChar('L'), LowerChar('/')];
  }

  /** Where `download_onedrive_file` sends a URL. */
  datatype ControllerRoute = Invalid | ComplexHandler | DirectDownload

  /**
   The routing of `download_onedrive_file`: invalid URLs stop; a OneDrive URL
   that is complex goes to the complex handler; everything else, OneDrive or
   not, is downloaded directly.
   */
  function RouteController(url: string, host: string): (r: ControllerRoute)
    ensures r == Invalid <==> !IsValidDownloadUrl(url)
    ensures r == ComplexHandler <==>
      IsValidDownloadUrl(url) && IsOneDriveUrl(url, host) && IsComplexSharePointUrl(url)
  {
    if !IsValidDownloadUrl(url) then Invalid
    else if IsOneDriveUrl(url, host) && IsComplexSharePointUrl(url) then ComplexHandler
    else DirectDownload
  }

  /**
   A personal-site link on a tenant subdomain never reaches the complex
   handler: the reversed host check classifies it as not OneDrive.
   */
  lemma TenantLinksGoDirect(url: string)
    requires IsValidDownloadUrl(url)
    ensures RouteController(url, "contoso.sharepoint.com") == DirectDownload
  {
    LongHostsRefused(url, "contoso.sharepoint.com");
  }

  /**
   One match as a link: an absolute match is kept; any other is joined to the
   base with exactly one '/' between them.
   */
  function JoinLink(base: string, m: string): (r: string)
    ensures StartsWith(m, "http") ==> r == m
    ensures !StartsWith(m, "http") ==>
      StartsWith(r, RStrip(base, '/') + "/") && EndsWith(r, LStrip(m, '/')) &&
      |r| == |RStrip(base, '/')| + 1 + |LStrip(m, '/')|
  {
    if StartsWith(m, "http") then m
    else
      var head := RStrip(base, '/') + "/";
      StartsWithConcat(head, LStrip(m, '/'));
      EndsWithConcat(head, LStrip(m, '/'));
      head + LStrip(m, '/')
  }

  /** Leading slashes of a relative match never change the joined link. */
  lemma LeadingSlashesIgnored(base: string, m: string)
    requires !StartsWith(m, "http")
    ensures JoinLink(base, "/" + m) == JoinLink(base, m)
  {
    var slashed := "/" + m;
    assert !StartsWith(slashed, "http") by {
      assert slashed[0] == '/';
    }
    assert LStrip(slashed, '/') == LStrip(m, '/') by {
      assert slashed[0] == '/' && slashed[1..] == m;
    }
  }

  /**
   `find_download_link`: one link per match, in match order and without
   deduplication.
   */
  function FindDownloadLinks(matches: seq<string>, base: string): (r: seq<string>)
    ensures |r| == |matches|
    ensures forall k :: 0 <= k < |r| ==> r[k] == JoinLink(base, matches[k])
  {
    seq(|matches|, k requires 0 <= k < |matches| => JoinLink(base, matches[k]))
  }

  /** Some '/'-segment of the path is longer than 20 characters. */
  predicate HasLongSegment(path: string) {
    exists k :: 0 <= k < |Split(path, "/")| && |Split(path, "/")[k]| > 20
  }

  /**
   `convert_sharepoint_sharing_url`: when some '/'-segment of the URL's path
   is longer than 20 characters, the download page of the host with the raw,
   unencoded URL as its source; otherwise None.
   */
  function ConvertSharingUrl(url: string, host: string, path: string): (r: Option<string>)
    ensures r.Some? <==> HasLongSegment(path)
    ensures r.Some? ==>
      var head := "https://" + host + "/_layouts/15/download.aspx?SourceUrl=";
      StartsWith(r.value, head) && EndsWith(r.value, url) && |r.value| == |head| + |url|
  {
    if HasLongSegment(path) then
      var head := "https://" + host + "/_layouts/15/download.aspx?SourceUrl=";
      StartsWithConcat(head, url);
      EndsWithConcat(head, url);
      Some(head + url)
    else None
  }

  /** A path of at most 20 characters has no segment long enough to be converted. */
  lemma ShortPathsNotConverted(url: string, host: string, path: string)
    requires |path| <= 20
    ensures ConvertSharingUrl(url, host, path).None?
  {
    SplitPiecesShorter(path, "/");
  }

  /** The name used when neither the headers nor the URL name the file. */
  const FallbackName: string := "downloaded_file"

  /**
   The filename chosen by the controller's `download_from_url` (which is never
   given one): the Content-Disposition `filename="…"` value when present;
   otherwise the URL's last '/'-segment cut at '?', unless that is empty or has
   no dot.
   */
  function ControllerFilename(url: string, disposition: Option<string>): (r: string)
    requires disposition.Some? ==> disposition.value != []
    ensures r != []
    ensures disposition.Some? ==> r == disposition.value
    ensures disposition.None? ==> '/' !in r && '?' !in r
    ensures disposition.None? && r != FallbackName ==> '.' in r
    ensures disposition.None? && r != FallbackName ==> StartsWith(LastPiece(url, '/'), r)
    ensures disposition.None? && r != FallbackName ==>
      var seg := LastPiece(url, '/');
      |r| == |seg| || seg[|r|] == '?'
    ensures disposition.None? ==>
      var name := Before(LastPiece(url, '/'), "?");
      (name != [] && '.' in name ==> r == name) && (name == [] || '.' !in name ==> r == FallbackName)
  {
    match disposition
    case Some(name) => name
    case None =>
      var name := Before(LastPiece(url, '/'), "?");
      CutAtQuestion(LastPiece(url, '/'));
      if name == [] || '.' !in name then FallbackName else name
  }

  /** Cutting at the first '?' leaves no '?' and stops at the end or at a '?'. */
  lemma CutAtQuestion(seg: string)
    ensures var name := Before(seg, "?");
      '?' !in name && (|name| == |seg| || seg[|name|] == '?')
  {
    var name := Before(seg, "?");
    if '?' in name {
      var j :| 0 <= j < |name| && name[j] == '?';
      OccursChar(name, '?', j);
      OccursContains(name, "?", j);
    }
    if |name| != |seg| {
      assert seg[|name|..|name| + 1] == "?";
    }
  }

  /** The Content-Length header as `int(headers.get('content-length', 0))` sees it. */
  datatype HeaderLength =
    | Missing          // absent: 0
    | Parses(n: int)
    | Garbled          // present but not an integer (an empty value included): `int()` raises

  /**
   A controller response: status, the Content-Disposition filename match, the
   length header, and the matches of the three link patterns over the body in
   pattern order.
   */
  datatype Reply = Reply(status: int, disposition: Option<string>, length: HeaderLength, linkMatches: seq<string>)

  /** A GET through a live session raises or answers. */
  datatype Answer = Failed | Answered(reply: Reply)

  /** The session handed to an approach: none at all, or a live one. */
  datatype Session = NoSession | Live(get: string -> Answer)

  /**
   The controller's `download_from_url`: any exception (no session, a failed
   request, a 4xx/5xx status, an unparsable length, an unwritable file) gives
   false; otherwise true, even when nothing was written.
   */
  function DownloadWith(session: Session, url: string, canWrite: bool): (ok: bool)
    ensures ok <==>
      session.Live? && session.get(url).Answered? &&
      !(400 <= session.get(url).reply.status < 600) &&
      !session.get(url).reply.length.Garbled? && canWrite
  {
    match session
    case NoSession => false
    case Live(get) =>
      match get(url)
      case Failed => false
      case Answered(reply) =>
        if 400 <= reply.status < 600 then false
        else if reply.length.Garbled? then false
        else canWrite
  }

  /** The graph approach is a stub that always fails. */
  function GraphApproach(): (ok: bool)
    ensures !ok
  {
    false
  }

  /**
   The page-parsing approach: fetch the sharing page and, on status 200, try
   its download links in order until one downloads.
   */
  function PageApproach(session: Session, url: string, canWrite: bool): (ok: bool)
    ensures ok ==> session.Live?
    ensures ok <==>
      session.Live? && session.get(url).Answered? && session.get(url).reply.status == 200 &&
      exists k :: 0 <= k < |session.get(url).reply.linkMatches| &&
        DownloadWith(session, FindDownloadLinks(session.get(url).reply.linkMatches, url)[k], canWrite)
  {
    match session
    case NoSession => false
    case Live(get) =>
      match get(url)
      case Failed => false
      case Answered(reply) =>
        if reply.status != 200 then false
        else
          var links := FindDownloadLinks(reply.linkMatches, url);
          FirstSuccess(links, u => DownloadWith(session, u, canWrite)).Some?
  }

  /** The URL-manipulation approach: download the converted URL, if there is one. */
  function UrlApproach(session: Session, url: string, host: string, path: string, canWrite: bool): (ok: bool)
    ensures ok <==>
      ConvertSharingUrl(url, host, path).Some? &&
      DownloadWith(session, ConvertSharingUrl(url, host, path).value, canWrite)
  {
    match ConvertSharingUrl(url, host, path)
    case None => false
    case Some(direct) => DownloadWith(session, direct, canWrite)
  }

  /**
   The approaches of `handle_complex_sharepoint` in order (graph, page
   parsing, URL manipulation) for a given session, stopping at the first
   success.
   */
  function ApproachChain(session: Session, url: string, host: string, path: string, canWrite: bool): (ok: bool)
    ensures ok <==>
      GraphApproach() || PageApproach(session, url, canWrite) || UrlApproach(session, url, host, path, canWrite)
  {
    var results := [GraphApproach(), PageApproach(session, url, canWrite), UrlApproach(session, url, host, path, canWrite)];
    assert results[0] == GraphApproach() && results[1] == PageApproach(session, url, canWrite);
    assert results[2] == UrlApproach(session, url, host, path, canWrite);
    FirstSuccess(results, (b: bool) => b).Some?
  }

  /**
   `handle_complex_sharepoint` passes no session to any approach, so every
   approach fails and the handler always returns false.
   */
  function HandleComplex(url: string, host: string, path: string, canWrite: bool): (ok: bool)
    ensures !ok
  {
    ApproachChain(NoSession, url, host, path, canWrite)
  }

  /**
   The failure is down to the missing session alone: with a live session, a
   converted URL that the server serves is downloaded by the chain.
   */
  lemma LiveSessionCanSucceed(get: string -> Answer, url: string, host: string, path: string)
    requires ConvertSharingUrl(url, host, path).Some?
    requires DownloadWith(Live(get), ConvertSharingUrl(url, host, path).value, true)
    ensures ApproachChain(Live(get), url, host, path, true)
  {
  }

  /**
   `download_onedrive_file`: false for an invalid URL, the complex handler's
   answer (always false) for a complex OneDrive URL, and a direct download
   through the live session otherwise.
   */
  function ControllerDownload(url: string, host: string, path: string, get: string -> Answer, canWrite: bool): (ok: bool)
    ensures ok <==> RouteController(url, host) == DirectDownload && DownloadWith(Live(get), url, canWrite)
  {
    match RouteController(url, host)
    case Invalid => false
    case ComplexHandler => HandleComplex(url, host, path, canWrite)
    case DirectDownload => DownloadWith(Live(get), url, canWrite)
  }
}

=== FILE: optimizer.dfy ===
/**
 The system optimizer's pure parts: the download settings derived from the CPU
 count and memory size, the per-platform timeouts, the network tips and the
 status thresholds of the performance report.

 The CPU count, memory size, platform name and usage figures are parameters;
 the probes that produce them are not modelled.
 */
module SystemOptimizer {
  import opened Wrappers

  /** Python's `min(hi, max(lo, x))`. */
  function Clamp(x: int, lo: int, hi: int): (r: int)
    requires lo <= hi
    ensures lo <= r <= hi
    ensures lo <= x <= hi ==> r == x
    ensures x < lo ==> r == lo
    ensures x > hi ==> r == hi
  {
    if x < lo then lo else if x > hi then hi else x
  }

  /** Bytes in one GiB, the unit `memory_gb` counts in. */
  const GiB: nat := 1073741824

  /** The settings `get_optimal_settings` returns. */
  datatype Settings = Settings(
    concurrentFragments: int,
    maxDownloads: int,
    bufferSize: int,
    chunkSize: int,
    socketTimeout: int,
    extractorRetries: int)

  /** Socket timeout and extractor retries for a lowercased platform name; Linux is the default. */
  function PlatformTuning(system: string): (r: (int, int))
    ensures system == "windows" ==> r == (15, 3)
    ensures system == "darwin" ==> r == (25, 4)
    ensures system != "windows" && system != "darwin" ==> r == (20, 5)
  {
    if system == "windows" then (15, 3)
    else if system == "darwin" then (25, 4)
    else (20, 5)
  }

  /**
   `get_optimal_settings` for a CPU count and a memory size in bytes.
   `int(memory_gb * 512)` is `memoryBytes / 2^21` and `int(memory_gb * 10485760)`
   is `memoryBytes * 10 / 1024`, both truncated.
   */
  function OptimalSettings(system: string, cpuCount: nat, memoryBytes: nat): (s: Settings)
    ensures 0 <= s.concurrentFragments <= 20
    ensures cpuCount <= 10 ==> s.concurrentFragments == 2 * cpuCount
    ensures cpuCount >= 10 ==> s.concurrentFragments == 20
    ensures 1 <= s.maxDownloads <= 3
    ensures cpuCount < 4 ==> s.maxDownloads == 1
    ensures 4 <= cpuCount < 6 ==> s.maxDownloads == 2
    ensures cpuCount >= 6 ==> s.maxDownloads == 3
    ensures 1024 <= s.bufferSize <= 8192
    ensures s.bufferSize == Clamp(memoryBytes / 2097152, 1024, 8192)
    ensures 10485760 <= s.chunkSize <= 52428800
    ensures s.chunkSize == Clamp(memoryBytes * 10 / 1024, 10485760, 52428800)
    ensures (s.socketTimeout, s.extractorRetries) == PlatformTuning(system)
  {
    var tuning := PlatformTuning(system);
    Settings(
      if 2 * cpuCount < 20 then 2 * cpuCount else 20,
      Clamp(cpuCount / 2, 1, 3),
      Clamp(memoryBytes / 2097152, 1024, 8192),
      Clamp(memoryBytes * 10 / 1024, 10485760, 52428800),
      tuning.0,
      tuning.1)
  }

  /** More memory never lowers the buffer or chunk size; more CPUs never lower the concurrency. */
  lemma SettingsMonotone(system: string, cpu1: nat, cpu2: nat, mem1: nat, mem2: nat)
    requires cpu1 <= cpu2 && mem1 <= mem2
    ensures OptimalSettings(system, cpu1, mem1).concurrentFragments <= OptimalSettings(system, cpu2, mem2).concurrentFragments
    ensures OptimalSettings(system, cpu1, mem1).maxDownloads <= OptimalSettings(system, cpu2, mem2).maxDownloads
    ensures OptimalSettings(system, cpu1, mem1).bufferSize <= OptimalSettings(system, cpu2, mem2).bufferSize
    ensures OptimalSettings(system, cpu1, mem1).chunkSize <= OptimalSettings(system, cpu2, mem2).chunkSize
  {
    DivMonotone(mem1, mem2, 2097152);
    DivMonotone(mem1 * 10, mem2 * 10, 1024);
    DivMonotone(cpu1, cpu2, 2);
  }

  /** Truncating division by a positive constant is monotone. */
  lemma DivMonotone(a: nat, b: nat, d: nat)
    requires a <= b && d > 0
    ensures a / d <= b / d
  {
    assert (a / d) * d <= a;
    assert b < (b / d + 1) * d;
    MulCancel(a / d, b / d + 1, d);
  }

  /** A positive factor can be cancelled from a strict inequality. */
  lemma MulCancel(x: int, y: int, d: int)
    requires d > 0 && x * d < y * d
    ensures x < y
  {
  }

  /**
   Where the memory clamps bite: below 2 GiB the buffer is at its floor and
   from 16 GiB at its ceiling; up to 1 GiB the chunk is at its floor and from
   5 GiB at its ceiling.
   */
  lemma MemoryClampBounds(system: string, cpu: nat, mem: nat)
    ensures mem < 2 * GiB ==> OptimalSettings(system, cpu, mem).bufferSize == 1024
    ensures mem >= 16 * GiB ==> OptimalSettings(system, cpu, mem).bufferSize == 8192
    ensures mem <= GiB ==> OptimalSettings(system, cpu, mem).chunkSize == 10485760
    ensures mem >= 5 * GiB ==> OptimalSettings(system, cpu, mem).chunkSize == 52428800
  {
    if mem < 2 * GiB {
      DivMonotone(mem, 2 * GiB - 1, 2097152);
    }
    if mem >= 16 * GiB {
      DivMonotone(16 * GiB, mem, 2097152);
    }
    if mem <= GiB {
      DivMonotone(mem * 10, GiB * 10, 1024);
    }
    if mem >= 5 * GiB {
      DivMonotone(5 * GiB * 10, mem * 10, 1024);
    }
  }

  /** The first tips for Windows. */
  const WindowsTips: seq<string> :=
    ["🔧 Tắt Windows Defender real-time protection tạm thời",
     "🔧 Kiểm tra Windows Firewall settings",
     "🔧 Sử dụng Ethernet thay vì WiFi nếu có thể",
     "🔧 Tắt VPN nếu không cần thiết"]

  /** The first tips for macOS. */
  const MacTips: seq<string> :=
    ["🔧 Kiểm tra macOS Firewall settings",
     "🔧 Tắt VPN nếu không cần thiết",
     "🔧 Sử dụng Ethernet thay vì WiFi nếu có thể"]

  /** The first tips for Linux and every other platform. */
  const LinuxTips: seq<string> :=
    ["🔧 Kiểm tra iptables/firewalld settings",
     "🔧 Tối ưu hóa TCP parameters",
     "🔧 Sử dụng Ethernet thay vì WiFi nếu có thể"]

  /** The tips every platform ends with. */
  const GeneralTips: seq<string> :=
    ["🌐 Kiểm tra DNS settings (thử 8.8.8.8 hoặc 1.1.1.1)",
     "🌐 Tắt IPv6 nếu không cần thiết",
     "🌐 Kiểm tra router QoS settings",
     "🌐 Đóng các ứng dụng sử dụng nhiều bandwidth"]

  /** The wired-connection tip, which every platform list carries. */
  const EthernetTip: string := "🔧 Sử dụng Ethernet thay vì WiFi nếu có thể"

  /**
   `get_network_optimization_tips`: the platform's tips followed by the four
   general ones, eight on Windows and seven elsewhere.
   */
  function NetworkTips(system: string): (r: seq<string>)
    ensures |r| == (if system == "windows" then 8 else 7)
    ensures r[|r| - 4..] == GeneralTips
    ensures EthernetTip in r[..|r| - 4]
    ensures system != "windows" && system != "darwin" ==> r[..3] == LinuxTips
  {
    var own := if system == "windows" then WindowsTips else if system == "darwin" then MacTips else LinuxTips;
    assert EthernetTip == WindowsTips[2] == MacTips[2] == LinuxTips[2];
    assert (own + GeneralTips)[..|own|] == own;
    own + GeneralTips
  }

  /** CPU and memory status of the performance report. */
  datatype Load = Good | High | Critical

  /** The order of the statuses, from best to worst. */
  function Severity(l: Load): (n: nat)
    ensures n <= 2
  {
    match l
    case Good => 0
    case High => 1
    case Critical => 2
  }

  /** The CPU and memory status for a usage percentage: below 80 good, below 95 high, else critical. */
  function UsageStatus(percent: real): (r: Load)
    ensures r == Good <==> percent < 80.0
    ensures r == High <==> 80.0 <= percent < 95.0
    ensures r == Critical <==> percent >= 95.0
  {
    if percent < 80.0 then Good else if percent < 95.0 then High else Critical
  }

  /** Higher usage never gives a better status. */
  lemma UsageStatusMonotone(p: real, q: real)
    requires p <= q
    ensures Severity(UsageStatus(p)) <= Severity(UsageStatus(q))
  {
  }

  /** A ratio exceeds a tenth exactly when ten times the numerator exceeds the denominator. */
  lemma RatioAboveTenth(free: real, total: real)
    requires total > 0.0
    ensures free / total > 0.1 <==> 10.0 * free > total
  {
    var q := free / total;
    assert q * total == free;
    if q > 0.1 {
      assert q * total > 0.1 * total;
    } else {
      assert q * total <= 0.1 * total;
    }
  }

  /** Disk status of the performance report. */
  datatype Space = Plenty | Scarce

  /**
   The disk status for free and total bytes: plenty when more than a tenth is
   free. A zero total raises a division error that turns the whole report into
   an error entry, modelled as None.
   */
  function DiskStatus(free: nat, total: nat): (r: Option<Space>)
    ensures r.None? <==> total == 0
    ensures r == Some(Plenty) <==> total > 0 && 10 * free > total
  {
    if total == 0 then None
    else
      RatioAboveTenth(free as real, total as real);
      if (free as real) / (total as real) > 0.1 then Some(Plenty)
    else Some(Scarce)
  }

  /** The statuses a performance report shows. */
  datatype Report = Report(cpu: Load, memory: Load, disk: Space)

  /**
   `get_performance_report` over sampled figures: the three statuses, or None
   (the error entry) when the disk total is zero.
   */
  function PerformanceReport(cpuPercent: real, memoryPercent: real, free: nat, total: nat): (r: Option<Report>)
    ensures r.None? <==> total == 0
    ensures r.Some? ==> r.value.cpu == UsageStatus(cpuPercent) && r.value.memory == UsageStatus(memoryPercent)
    ensures r.Some? ==> (r.value.disk == Plenty <==> 10 * free > total)
  {
    match DiskStatus(free, total)
    case None => None
    case Some(disk) => Some(Report(UsageStatus(cpuPercent), UsageStatus(memoryPercent), disk))
  }
}

=== FILE: options.dfy ===
/**
 yt-dlp option dictionaries. A dictionary is a finite map from option names to
 values; Python's `{**a, **b}` and `a.update(b)` are the map union `a + b`, in
 which the right-hand side wins.
 */
module Options {
  import opened Wrappers

  /**
   An option value. Python `bool` and `int` values are kept apart; nested
   dictionaries, lists and callables are `VOpaque`, tagged for readability.
   */
  datatype Value = VInt(i: int) | VBool(b: bool) | VStr(s: string) | VOpaque(tag: string)

  type Options = map<string, Value>

  /** Python's `d.get(key, default)`. */
  function Get(o: Options, key: string, default: Value): (v: Value)
    ensures key in o ==> v == o[key]
    ensures key !in o ==> v == default
  {
    if key in o then o[key] else default
  }

  /** The integer Python sees in a value used in arithmetic: `int` as is, `bool` as 0 or 1. */
  function AsNumber(v: Value): (r: Option<int>)
    ensures r.Some? <==> (v.VInt? || v.VBool?)
    ensures v.VInt? ==> r == Some(v.i)
    ensures v.VBool? ==> r == Some(if v.b then 1 else 0)
  {
    match v
    case VInt(i) => Some(i)
    case VBool(b) => Some(if b then 1 else 0)
    case _ => None
  }

  const Concurrency := "concurrent_fragment_downloads"
  const FragmentRetries := "fragment_retries"
  const RetrySleep := "retry_sleep"
  const FileAccessRetries := "file_access_retries"
  const SkipUnavailable := "skip_unavailable_fragments"
  const Retries := "retries"
  const SocketTimeout := "socket_timeout"
  const ExtractorRetries := "extractor_retries"
  const RestrictFilenames := "restrictfilenames"
  const Format := "format"
  const PreferFfmpeg := "prefer_ffmpeg"
  const CookieFileKey := "cookiefile"
}

=== FILE: percent.dfy ===
/**
 Percent-encoding as `urllib.parse.quote` and `urllib.parse.unquote` perform it
 (section 2.1 of RFC 3986): `quote` encodes the text as UTF-8 and writes every
 byte outside the unreserved set and the caller's safe characters as `%XX`
 with upper-case hex digits; `unquote` turns `%XX` triples back into characters.
 */
module Percent {

  /** The characters `quote` never escapes: ASCII letters, digits and `_.-~`. */
  predicate AlwaysSafe(c: char) {
    ('A' <= c <= 'Z') || ('a' <= c <= 'z') || ('0' <= c <= '9')
    || c == '_' || c == '.' || c == '-' || c == '~'
  }

  /** An upper- or lower-case hexadecimal digit. */
  predicate IsHex(c: char) {
    ('0' <= c <= '9') || ('a' <= c <= 'f') || ('A' <= c <= 'F')
  }

  /** The value of a hexadecimal digit. */
  function HexVal(c: char): (v: nat)
    requires IsHex(c)
    ensures v < 16
  {
    if '0' <= c <= '9' then c as int - '0' as int
    else if 'a' <= c <= 'f' then c as int - 'a' as int + 10
    else c as int - 'A' as int + 10
  }

  /** The upper-case hexadecimal digit for `v`, as Python's `%X` writes it. */
  function HexDigit(v: nat): (c: char)
    requires v < 16
    ensures IsHex(c) && HexVal(c) == v
    ensures !('a' <= c <= 'f')
  {
    if v < 10 then ('0' as int + v) as char else ('A' as int + v - 10) as char
  }

  /** The UTF-8 encoding of one Unicode scalar value. */
  function Utf8(c: char): (bs: seq<nat>)
    ensures 1 <= |bs| <= 4
    ensures forall i :: 0 <= i < |bs| ==> bs[i] < 256
    ensures (c as int < 0x80) <==> (|bs| == 1 && bs[0] < 0x80)
    ensures c as int < 0x80 ==> bs == [c as int]
    ensures c as int >= 0x80 ==> forall i :: 0 <= i < |bs| ==> bs[i] >= 0x80
  {
    var cp := c as int;
    if cp < 0x80 then [cp]
    else if cp < 0x800 then [0xC0 + cp / 64, 0x80 + cp % 64]
    else if cp < 0x10000 then [0xE0 + cp / 4096, 0x80 + (cp / 64) % 64, 0x80 + cp % 64]
    else [0xF0 + cp / 262144, 0x80 + (cp / 4096) % 64, 0x80 + (cp / 64) % 64, 0x80 + cp % 64]
  }

  /** `b` is left as it is by `quote(..., safe)`: an ASCII byte that is unreserved or safe. */
  predicate KeptByte(b: nat, safe: string) {
    b < 0x80 && (AlwaysSafe(b as char) || b as char in safe)
  }

  /** How `quote` writes one byte. */
  function QuoteByte(b: nat, safe: string): (r: string)
    requires b < 256
    ensures KeptByte(b, safe) ==> r == [b as char]
    ensures !KeptByte(b, safe) ==> |r| == 3 && r[0] == '%' && IsHex(r[1]) && IsHex(r[2])
                                   && HexVal(r[1]) * 16 + HexVal(r[2]) == b
  {
    if KeptByte(b, safe) then [b as char]
    else ['%', HexDigit(b / 16), HexDigit(b % 16)]
  }

  /** How `quote` writes the bytes of one character. */
  function QuoteBytes(bs: seq<nat>, safe: string): (r: string)
    requires forall i :: 0 <= i < |bs| ==> bs[i] < 256
    ensures |bs| <= |r| <= 3 * |bs|
  {
    if bs == [] then "" else QuoteByte(bs[0], safe) + QuoteBytes(bs[1..], safe)
  }

  /**
   Python's `urllib.parse.quote(s, safe)`: each character becomes its UTF-8
   bytes, each written as itself or as a three-character `%XX` escape.
   */
  function Quote(s: string, safe: string): (r: string)
    ensures |s| <= |r| <= 12 * |s|
  {
    if s == [] then "" else QuoteBytes(Utf8(s[0]), safe) + Quote(s[1..], safe)
  }

  /** A character that can appear in the output of `quote(..., safe)`. */
  predicate QuotedChar(c: char, safe: string) {
    AlwaysSafe(c) || c == '%' || (c in safe && c as int < 0x80)
  }

  /** Every character of `r` can appear in the output of `quote(..., safe)`. */
  predicate AllQuoted(r: string, safe: string) {
    forall k :: 0 <= k < |r| ==> QuotedChar(r[k], safe)
  }

  /** Every character of a concatenation comes from one of its two parts. */
  lemma ConcatChars(h: string, t: string, safe: string)
    requires AllQuoted(h, safe) && AllQuoted(t, safe)
    ensures AllQuoted(h + t, safe)
  {
    forall k | 0 <= k < |h + t| ensures QuotedChar((h + t)[k], safe) {
      if k < |h| {
        assert (h + t)[k] == h[k];
      } else {
        assert (h + t)[k] == t[k - |h|];
      }
    }
  }

  /** Every character written for one byte is unreserved, `%`, or an ASCII safe character. */
  lemma QuoteByteChars(b: nat, safe: string)
    requires b < 256
    ensures AllQuoted(QuoteByte(b, safe), safe)
  {
    var r := QuoteByte(b, safe);
    if KeptByte(b, safe) {
      assert r[0] == b as char;
    } else {
      assert QuotedChar(r[0], safe);
      assert IsHex(r[1]) && r[1] == HexDigit(b / 16);
      assert IsHex(r[2]) && r[2] == HexDigit(b % 16);
    }
  }

  lemma {:induction false} QuoteBytesChars(bs: seq<nat>, safe: string)
    requires forall i :: 0 <= i < |bs| ==> bs[i] < 256
    ensures AllQuoted(QuoteBytes(bs, safe), safe)
    decreases |bs|
  {
    if bs != [] {
      QuoteBytesChars(bs[1..], safe);
      QuoteByteChars(bs[0], safe);
      ConcatChars(QuoteByte(bs[0], safe), QuoteBytes(bs[1..], safe), safe);
    }
  }

  /** Every character `quote(s, safe)` writes is unreserved, `%`, or an ASCII safe character. */
  lemma {:induction false} QuoteChars(s: string, safe: string)
    ensures AllQuoted(Quote(s, safe), safe)
    decreases |s|
  {
    if s != [] {
      QuoteBytesChars(Utf8(s[0]), safe);
      QuoteChars(s[1..], safe);
      ConcatChars(QuoteBytes(Utf8(s[0]), safe), Quote(s[1..], safe), safe);
    }
  }

  /**
   Python's `urllib.parse.unquote(s)` on `%XX` triples that stand for an ASCII
   character; any other `%` is kept as it is.
   */
  function Unquote(s: string): (r: string)
    ensures |r| <= |s|
    decreases |s|
  {
    if s == [] then ""
    else if |s| >= 3 && s[0] == '%' && IsHex(s[1]) && IsHex(s[2])
            && HexVal(s[1]) * 16 + HexVal(s[2]) < 0x80
    then [(HexVal(s[1]) * 16 + HexVal(s[2])) as char] + Unquote(s[3..])
    else [s[0]] + Unquote(s[1..])
  }

  /** A string without `%` is its own unquoting. */
  lemma {:induction false} UnquotePlain(s: string)
    requires '%' !in s
    ensures Unquote(s) == s
    decreases |s|
  {
    if s != [] {
      assert '%' !in s[1..] by {
        forall k | 0 <= k < |s| - 1 ensures s[1..][k] != '%' {
          assert s[1..][k] == s[k + 1];
        }
      }
      UnquotePlain(s[1..]);
    }
  }

  /** Unquoting distributes over a piece that ends in a character other than a pending triple. */
  lemma {:induction false} UnquoteAppendKept(c: char, t: string)
    requires AlwaysSafe(c) || c == '/'
    ensures Unquote([c] + t) == [c] + Unquote(t)
  {
    assert ([c] + t)[1..] == t;
  }

  /** `unquote` turns `%20` into a space, the case file names on sharing links rely on. */
  lemma UnquoteSpace()
    ensures Unquote("%20") == " "
  {
    assert "%20"[3..] == "";
  }

  /** `unquote` undoes `quote` on ASCII text, whatever the safe characters other than `%`. */
  lemma {:induction false} UnquoteQuote(s: string, safe: string)
    requires forall k :: 0 <= k < |s| ==> s[k] as int < 0x80
    requires '%' !in safe
    ensures Unquote(Quote(s, safe)) == s
    decreases |s|
  {
    if s != [] {
      var c := s[0];
      var b := c as int;
      assert Utf8(c) == [b];
      var h := QuoteByte(b, safe);
      assert QuoteBytes([b], safe) == h + QuoteBytes([], safe);
      assert QuoteBytes(Utf8(c), safe) == h;
      var t := Quote(s[1..], safe);
      assert Quote(s, safe) == h + t;
      UnquoteQuote(s[1..], safe);
      if KeptByte(b, safe) {
        assert h == [c] && c != '%';
        UnquoteKept(c, t);
      } else {
        UnquoteEscape(h, t);
      }
    }
  }

  /** A character other than `%` decodes to itself. */
  lemma UnquoteKept(c: char, t: string)
    requires c != '%'
    ensures Unquote([c] + t) == [c] + Unquote(t)
  {
    assert ([c] + t)[1..] == t;
  }

  /** An escape of an ASCII byte decodes to that character. */
  lemma UnquoteEscape(h: string, t: string)
    requires |h| == 3 && h[0] == '%' && IsHex(h[1]) && IsHex(h[2]) && HexVal(h[1]) * 16 + HexVal(h[2]) < 0x80
    ensures Unquote(h + t) == [(HexVal(h[1]) * 16 + HexVal(h[2])) as char] + Unquote(t)
  {
    assert (h + t)[0] == '%' && (h + t)[1] == h[1] && (h + t)[2] == h[2];
    assert (h + t)[3..] == t;
  }
}

=== FILE: pystr.dfy ===
/**
 Python `str` semantics the rest of the model is written in: `in`, `startswith`,
 `endswith`, `find`, `split(sep)`, `sep.join`, `replace`, `strip`, `rstrip(c)`,
 `lstrip(c)` and `lower`.
 */
module PyStr {

  /** `sub` occurs in `s` starting at index `i`. */
  predicate OccursAt(s: string, sub: string, i: int) {
    0 <= i && i + |sub| <= |s| && s[i..i + |sub|] == sub
  }

  /** First index at or after `i` where `sub` occurs, or -1 (Python's `s.find(sub, i)`). */
  function FindFrom(s: string, sub: string, i: nat): (r: int)
    requires i <= |s|
    ensures r == -1 || (i <= r && OccursAt(s, sub, r))
    ensures r == -1 ==> forall j :: i <= j ==> !OccursAt(s, sub, j)
    ensures r != -1 ==> forall j :: i <= j < r ==> !OccursAt(s, sub, j)
    decreases |s| - i
  {
    if i + |sub| > |s| then -1
    else if s[i..i + |sub|] == sub then i
    else FindFrom(s, sub, i + 1)
  }

  /** Python's `s.find(sub)`: the first occurrence of `sub`, or -1 when there is none. */
  function Find(s: string, sub: string): (r: int)
    ensures r == -1 || OccursAt(s, sub, r)
    ensures r == -1 ==> forall j :: !OccursAt(s, sub, j)
    ensures r != -1 ==> forall j :: 0 <= j < r ==> !OccursAt(s, sub, j)
  {
    FindFrom(s, sub, 0)
  }

  /** Python's `sub in s`; the empty string is in every string. */
  predicate Contains(s: string, sub: string) {
    Find(s, sub) != -1
  }

  /** An occurrence at any index makes `sub in s` true. */
  lemma OccursContains(s: string, sub: string, i: int)
    requires OccursAt(s, sub, i)
    ensures Contains(s, sub)
  {
  }

  /** An occurrence inside the slice `s[a..b]` is an occurrence in `s`, shifted by `a`. */
  lemma OccursSlice(s: string, a: int, b: int, sub: string, j: int)
    requires 0 <= a <= b <= |s|
    requires OccursAt(s[a..b], sub, j)
    ensures OccursAt(s, sub, a + j) && a + j + |sub| <= b
  {
    SliceOfSlice(s, a, b, j, |sub|);
  }

  /** A slice of a slice is a slice of the original string. */
  lemma SliceOfSlice(s: string, a: int, b: int, j: int, n: int)
    requires 0 <= a <= b <= |s|
    requires 0 <= j && 0 <= n && j + n <= b - a
    ensures s[a..b][j..j + n] == s[a + j..a + j + n]
  {
    var t := s[a..b][j..j + n];
    var u := s[a + j..a + j + n];
    forall k | 0 <= k < n
      ensures t[k] == u[k]
    {
    }
  }

  /** A one-character pattern occurs exactly where that character stands. */
  lemma OccursChar(s: string, c: char, j: int)
    requires 0 <= j < |s|
    ensures OccursAt(s, [c], j) <==> s[j] == c
  {
    assert s[j..j + 1] == [s[j]];
  }

  /** A pattern holding a character that `s` lacks never occurs in `s`. */
  lemma MissingCharNotContained(s: string, sub: string, k: int)
    requires 0 <= k < |sub| && sub[k] !in s
    ensures !Contains(s, sub)
  {
    forall i | 0 <= i && i + |sub| <= |s|
      ensures !OccursAt(s, sub, i)
    {
      assert s[i..i + |sub|][k] == s[i + k];
    }
  }

  /** Python's `s.startswith(p)`. */
  predicate StartsWith(s: string, p: string) {
    |p| <= |s| && s[..|p|] == p
  }

  /** Python's `s.endswith(p)`. */
  predicate EndsWith(s: string, p: string) {
    |p| <= |s| && s[|s| - |p|..] == p
  }

  /** A concatenation starts with its left part. */
  lemma StartsWithConcat(a: string, b: string)
    ensures StartsWith(a + b, a)
  {
    assert (a + b)[..|a|] == a;
  }

  /** Prepending text to a string and to its prefix keeps the prefix relation. */
  lemma StartsWithExtend(a: string, t: string, pre: string)
    requires StartsWith(t, pre)
    ensures StartsWith(a + t, a + pre)
  {
    assert (a + t)[..|a + pre|] == a + t[..|pre|];
  }

  /** Prepending text keeps a suffix. */
  lemma EndsWithExtend(a: string, t: string, e: string)
    requires EndsWith(t, e)
    ensures EndsWith(a + t, e)
  {
    assert (a + t)[|a + t| - |e|..] == t[|t| - |e|..];
  }

  /** A concatenation ends with its right part. */
  lemma EndsWithConcat(a: string, b: string)
    ensures EndsWith(a + b, b)
  {
    assert (a + b)[|a|..] == b;
  }

  /** A prefix of `s` occurs in `s` at index 0. */
  lemma StartsWithContains(s: string, p: string)
    requires StartsWith(s, p)
    ensures Contains(s, p)
  {
    assert OccursAt(s, p, 0);
  }

  /** Whatever occurs inside an occurring string occurs in `s` too. */
  lemma ContainsPart(s: string, big: string, a: int, b: int)
    requires Contains(s, big) && 0 <= a <= b <= |big|
    ensures Contains(s, big[a..b])
  {
    var i := Find(s, big);
    SliceOfSlice(s, i, i + |big|, a, b - a);
    assert OccursAt(s, big[a..b], i + a);
  }

  /** A suffix of `s` occurs in `s` at index `|s| - |p|`. */
  lemma EndsWithContains(s: string, p: string)
    requires EndsWith(s, p)
    ensures Contains(s, p)
  {
    assert OccursAt(s, p, |s| - |p|);
  }

  /** An occurrence inside a slice is an occurrence in the whole string. */
  lemma ContainsSlice(s: string, a: int, b: int, sub: string)
    requires 0 <= a <= b <= |s|
    requires Contains(s[a..b], sub)
    ensures Contains(s, sub)
  {
    OccursSlice(s, a, b, sub, Find(s[a..b], sub));
  }

  /**
   Python's `s.split(sep)` for a non-empty separator: the pieces between the
   non-overlapping occurrences of `sep`, scanned left to right.
   */
  function Split(s: string, sep: string): (r: seq<string>)
    requires sep != []
    ensures |r| >= 1
    ensures !Contains(s, sep) <==> r == [s]
    decreases |s|
  {
    var i := Find(s, sep);
    if i < 0 then [s]
    else [s[..i]] + Split(s[i + |sep|..], sep)
  }

  /** Python's `sep.join(parts)`. */
  function Join(parts: seq<string>, sep: string): string
  {
    if |parts| == 0 then ""
    else if |parts| == 1 then parts[0]
    else parts[0] + sep + Join(parts[1..], sep)
  }

  /** A split with an occurrence is the text before it followed by the split of the rest. */
  lemma SplitStep(s: string, sep: string)
    requires sep != [] && Contains(s, sep)
    ensures var i := Find(s, sep);
            Split(s, sep) == [s[..i]] + Split(s[i + |sep|..], sep)
  {
  }

  /** Joining a list of two or more parts puts the separator after the first. */
  lemma JoinCons(h: string, rest: seq<string>, sep: string)
    requires |rest| >= 1
    ensures Join([h] + rest, sep) == h + sep + Join(rest, sep)
  {
    assert ([h] + rest)[1..] == rest;
  }

  /** `s.split(sep)[0]`: the text before the first `sep`, which itself never contains `sep`. */
  function Before(s: string, sep: string): (r: string)
    requires sep != []
    ensures StartsWith(s, r)
    ensures !Contains(r, sep)
    ensures !Contains(s, sep) ==> r == s
    ensures |r| == |s| || OccursAt(s, sep, |r|)
  {
    var i := Find(s, sep);
    if i < 0 then s
    else
      assert !Contains(s[..i], sep) by {
        forall j | 0 <= j < i
          ensures !OccursAt(s[..i], sep, j)
        {
          assert !OccursAt(s, sep, j);
          if j + |sep| <= i {
            SliceOfSlice(s, 0, i, j, |sep|);
          }
        }
      }
      Split(s, sep)[0]
  }

  /** The text after the first `sep`: Python's `s.split(sep, 1)[1]`. */
  function AfterFirst(s: string, sep: string): (r: string)
    requires Contains(s, sep)
    ensures EndsWith(s, r) && |r| + |sep| <= |s|
  {
    s[Find(s, sep) + |sep|..]
  }

  /**
   Around an occurring separator, `s.split(sep)[1]` is the text between the
   first and the second occurrence, and the split has exactly two pieces iff
   `sep` occurs once.
   */
  lemma SplitSecond(s: string, sep: string)
    requires sep != [] && Contains(s, sep)
    ensures |Split(s, sep)| >= 2
    ensures Split(s, sep)[1] == Before(AfterFirst(s, sep), sep)
    ensures |Split(s, sep)| == 2 <==> !Contains(AfterFirst(s, sep), sep)
  {
    var tail := AfterFirst(s, sep);
    SplitStep(s, sep);
    if Contains(tail, sep) {
      SplitStep(tail, sep);
    }
  }

  /** Python's `s.split(sep)[1]`, for a separator that occurs. */
  function SecondPiece(s: string, sep: string): (r: string)
    requires sep != [] && Contains(s, sep)
    ensures |Split(s, sep)| >= 2 && r == Split(s, sep)[1]
    ensures !Contains(r, sep)
  {
    SplitSecond(s, sep);
    Before(AfterFirst(s, sep), sep)
  }

  /** Python's `s.replace(pat, rep)` for a non-empty `pat`. */
  function Replace(s: string, pat: string, rep: string): string
    requires pat != []
  {
    Join(Split(s, pat), rep)
  }

  /** `replace` leaves a string without `pat` unchanged. */
  lemma ReplaceAbsent(s: string, pat: string, rep: string)
    requires pat != []
    requires !Contains(s, pat)
    ensures Replace(s, pat, rep) == s
  {
  }

  /** `replace` rewrites the first occurrence and continues after it. */
  lemma ReplaceStep(s: string, pat: string, rep: string)
    requires pat != []
    requires Contains(s, pat)
    ensures var i := Find(s, pat);
            Replace(s, pat, rep) == s[..i] + rep + Replace(s[i + |pat|..], pat, rep)
  {
    var i := Find(s, pat);
    SplitStep(s, pat);
    JoinCons(s[..i], Split(s[i + |pat|..], pat), rep);
  }

  /** Replacing by a string of the same length keeps the length. */
  lemma {:induction false} ReplaceLength(s: string, pat: string, rep: string)
    requires pat != []
    requires |pat| == |rep|
    ensures |Replace(s, pat, rep)| == |s|
    decreases |s|
  {
    if Contains(s, pat) {
      var i := Find(s, pat);
      ReplaceStep(s, pat, rep);
      ReplaceLength(s[i + |pat|..], pat, rep);
    } else {
      ReplaceAbsent(s, pat, rep);
    }
  }

  /**
   With a replacement as long as the pattern, `s.replace(pat, rep)` differs
   from `s` only inside windows where `s` has `pat` and the result has `rep`.
   */
  lemma {:induction false} ReplaceAgrees(s: string, pat: string, rep: string)
    requires pat != [] && |pat| == |rep|
    ensures |Replace(s, pat, rep)| == |s|
    ensures forall k :: 0 <= k < |s| && Replace(s, pat, rep)[k] != s[k] ==>
      exists j :: j <= k < j + |pat| && OccursAt(s, pat, j) && OccursAt(Replace(s, pat, rep), rep, j)
    decreases |s|
  {
    ReplaceLength(s, pat, rep);
    if Contains(s, pat) {
      var i := Find(s, pat);
      var tail := s[i + |pat|..];
      ReplaceStep(s, pat, rep);
      ReplaceAgrees(tail, pat, rep);
      ReplaceLength(tail, pat, rep);
      AgreesStep(s, Replace(s, pat, rep), Replace(tail, pat, rep), pat, rep, i);
    } else {
      ReplaceAbsent(s, pat, rep);
    }
  }

  /** `r` differs from `s` only inside windows where `s` has `pat` and `r` has `rep`. */
  ghost predicate AgreesOutside(s: string, r: string, pat: string, rep: string) {
    |r| == |s| &&
    forall k :: 0 <= k < |s| && r[k] != s[k] ==>
      exists j :: j <= k < j + |pat| && OccursAt(s, pat, j) && OccursAt(r, rep, j)
  }

  /** Rewriting one occurrence at `i` and a tail that agrees outside its windows agrees outside the windows. */
  lemma AgreesStep(s: string, r: string, t: string, pat: string, rep: string, i: int)
    requires |pat| == |rep| && OccursAt(s, pat, i)
    requires r == s[..i] + rep + t
    requires AgreesOutside(s[i + |pat|..], t, pat, rep)
    ensures AgreesOutside(s, r, pat, rep)
  {
    var m := i + |pat|;
    assert |r| == |s|;
    assert OccursAt(r, rep, i) by { assert r[i..m] == rep; }
    forall k | 0 <= k < |s| && r[k] != s[k]
      ensures exists j :: j <= k < j + |pat| && OccursAt(s, pat, j) && OccursAt(r, rep, j)
    {
      if m <= k {
        assert r[m..] == t;
        SuffixAt(s, m, k);
        SuffixAt(r, m, k);
        WindowShift(s, r, m, pat, rep, k);
      } else {
        assert i <= k;
      }
    }
  }

  /** Index `k` of `s` is index `k - m` of the suffix from `m`. */
  lemma SuffixAt(s: string, m: int, k: int)
    requires 0 <= m <= k < |s|
    ensures s[m..][k - m] == s[k]
  {
  }

  /** A window in the suffixes from `m` is a window `m` further on in the whole strings. */
  lemma WindowShift(s: string, r: string, m: int, pat: string, rep: string, k: int)
    requires 0 <= m <= k < |s| && |r| == |s|
    requires exists j :: j <= k - m < j + |pat| && OccursAt(s[m..], pat, j) && OccursAt(r[m..], rep, j)
    ensures exists j :: j <= k < j + |pat| && OccursAt(s, pat, j) && OccursAt(r, rep, j)
  {
    var j :| j <= k - m < j + |pat| && OccursAt(s[m..], pat, j) && OccursAt(r[m..], rep, j);
    assert s[m..] == s[m..|s|] && r[m..] == r[m..|r|];
    OccursSlice(s, m, |s|, pat, j);
    OccursSlice(r, m, |r|, rep, j);
  }

  /** Every character of `s.replace(pat, rep)` comes from `s` or from `rep`. */
  lemma {:induction false} ReplaceChars(s: string, pat: string, rep: string)
    requires pat != []
    ensures forall c :: c in Replace(s, pat, rep) ==> c in s || c in rep
    decreases |s|
  {
    if Contains(s, pat) {
      var i := Find(s, pat);
      var tail := s[i + |pat|..];
      ReplaceStep(s, pat, rep);
      ReplaceChars(tail, pat, rep);
      assert Replace(s, pat, rep) == s[..i] + rep + Replace(tail, pat, rep);
      forall c | c in s[..i] || c in tail
        ensures c in s
      {
        if c in s[..i] {
          var j :| 0 <= j < i && s[..i][j] == c;
          assert s[j] == c;
        } else {
          var j :| 0 <= j < |tail| && tail[j] == c;
          assert s[i + |pat| + j] == c;
        }
      }
    } else {
      ReplaceAbsent(s, pat, rep);
    }
  }

  /** The last character of `s.replace(pat, rep)` is the last of `s` or the last of `rep`. */
  lemma {:induction false} ReplaceLast(s: string, pat: string, rep: string)
    requires pat != [] && s != [] && rep != []
    ensures var r := Replace(s, pat, rep);
            r != [] && (r[|r| - 1] == s[|s| - 1] || r[|r| - 1] == rep[|rep| - 1])
    decreases |s|
  {
    if Contains(s, pat) {
      var i := Find(s, pat);
      var tail := s[i + |pat|..];
      var rt := Replace(tail, pat, rep);
      ReplaceStep(s, pat, rep);
      var r := s[..i] + rep + rt;
      assert Replace(s, pat, rep) == r;
      if tail != [] {
        ReplaceLast(tail, pat, rep);
        assert tail[|tail| - 1] == s[|s| - 1];
        assert r[|r| - 1] == rt[|rt| - 1];
      } else {
        assert !OccursAt(tail, pat, Find(tail, pat));
        assert rt == [];
        assert r[|r| - 1] == rep[|rep| - 1];
      }
    } else {
      ReplaceAbsent(s, pat, rep);
    }
  }

  /** Joining the pieces of a split with the same separator gives back the string. */
  lemma {:induction false} SplitJoin(s: string, sep: string)
    requires sep != []
    ensures Join(Split(s, sep), sep) == s
    decreases |s|
  {
    if Contains(s, sep) {
      var i := Find(s, sep);
      SplitJoin(s[i + |sep|..], sep);
      SplitJoinStep(s, sep, i);
    } else {
      assert Split(s, sep) == [s];
    }
  }

  /** One step of `SplitJoin`: the join is restored around the first occurrence. */
  lemma SplitJoinStep(s: string, sep: string, i: int)
    requires sep != [] && Contains(s, sep) && i == Find(s, sep)
    requires Join(Split(s[i + |sep|..], sep), sep) == s[i + |sep|..]
    ensures Join(Split(s, sep), sep) == s
  {
    var rest := Split(s[i + |sep|..], sep);
    SplitStep(s, sep);
    JoinCons(s[..i], rest, sep);
    ThreeSlices(s, i, i + |sep|);
  }

  /** A string is the concatenation of three consecutive slices of it. */
  lemma ThreeSlices(s: string, i: int, j: int)
    requires 0 <= i <= j <= |s|
    ensures s[..i] + s[i..j] + s[j..] == s
  {
    var t := s[..i] + s[i..j] + s[j..];
    forall k | 0 <= k < |s|
      ensures t[k] == s[k]
    {
      if k < i {
      } else if k < j {
        assert t[k] == s[i..j][k - i];
      } else {
        assert t[k] == s[j..][k - j];
      }
    }
  }

  /**
   Splitting on a single character undoes a join on it, when no part holds
   that character.
   */
  lemma {:induction false} JoinSplit(parts: seq<string>, c: char)
    requires |parts| >= 1
    requires forall k :: 0 <= k < |parts| ==> c !in parts[k]
    ensures Split(Join(parts, [c]), [c]) == parts
    decreases |parts|
  {
    var s := Join(parts, [c]);
    if |parts| == 1 {
      assert !Contains(s, [c]) by {
        forall j | 0 <= j < |s|
          ensures !OccursAt(s, [c], j)
        {
          OccursChar(s, c, j);
        }
      }
    } else {
      var p := parts[0];
      var rest := Join(parts[1..], [c]);
      assert s == p + [c] + rest;
      JoinSplit(parts[1..], c);
      assert OccursAt(s, [c], |p|);
      forall j | 0 <= j < |p|
        ensures !OccursAt(s, [c], j)
      {
        assert s[j] == p[j];
        OccursChar(s, c, j);
      }
      var i := Find(s, [c]);
      assert i == |p|;
      assert s[..i] == p;
      assert s[i + 1..] == rest;
    }
  }

  /** Every piece of a split on a single character is free of that character. */
  lemma {:induction false} SplitPiecesFree(s: string, c: char)
    ensures forall piece :: piece in Split(s, [c]) ==> c !in piece
    ensures forall k :: 0 <= k < |Split(s, [c])| ==> c !in Split(s, [c])[k]
    decreases |s|
  {
    var i := Find(s, [c]);
    if i < 0 {
      assert Split(s, [c]) == [s];
      assert c !in s by {
        if c in s {
          var j :| 0 <= j < |s| && s[j] == c;
          OccursChar(s, c, j);
        }
      }
    } else {
      var tail := s[i + 1..];
      SplitStep(s, [c]);
      SplitPiecesFree(tail, c);
      assert Split(s, [c]) == [s[..i]] + Split(tail, [c]);
      assert c !in s[..i] by {
        if c in s[..i] {
          var j :| 0 <= j < i && s[..i][j] == c;
          OccursChar(s, c, j);
        }
      }
    }
    forall k | 0 <= k < |Split(s, [c])| ensures c !in Split(s, [c])[k] {
      assert Split(s, [c])[k] in Split(s, [c]);
    }
  }

  /** No piece of a split is longer than the string split. */
  lemma {:induction false} SplitPiecesShorter(s: string, sep: string)
    requires sep != []
    ensures forall k :: 0 <= k < |Split(s, sep)| ==> |Split(s, sep)[k]| <= |s|
    decreases |s|
  {
    var i := Find(s, sep);
    if i >= 0 {
      var tail := s[i + |sep|..];
      SplitStep(s, sep);
      SplitPiecesShorter(tail, sep);
      assert Split(s, sep) == [s[..i]] + Split(tail, sep);
      forall k | 0 <= k < |Split(s, sep)| ensures |Split(s, sep)[k]| <= |s| {
        if k > 0 {
          assert Split(s, sep)[k] == Split(tail, sep)[k - 1];
        }
      }
    }
  }

  /** Python's `s.split(c)[-1]`: the text after the last `c`, or all of `s`. */
  function LastPiece(s: string, c: char): (r: string)
    ensures c !in r
    ensures r == Split(s, [c])[|Split(s, [c])| - 1]
  {
    SplitPiecesFree(s, c);
    var parts := Split(s, [c]);
    parts[|parts| - 1]
  }

  /** Python's `c.isspace()`: the characters `str.strip()` removes. */
  predicate IsSpace(c: char) {
    || ('\t' <= c <= '\r')
    || ('\U{001C}' <= c <= '\U{001F}')
    || c == ' ' || c == '\U{0085}' || c == '\U{00A0}' || c == '\U{1680}'
    || ('\U{2000}' <= c <= '\U{200A}')
    || c == '\U{2028}' || c == '\U{2029}' || c == '\U{202F}' || c == '\U{205F}' || c == '\U{3000}'
  }

  /** Number of leading whitespace characters. */
  function LeadingSpaces(s: string): (n: nat)
    ensures n <= |s|
    ensures forall i :: 0 <= i < n ==> IsSpace(s[i])
    ensures n < |s| ==> !IsSpace(s[n])
  {
    if s == [] || !IsSpace(s[0]) then 0
    else 1 + LeadingSpaces(s[1..])
  }

  /** Number of trailing whitespace characters. */
  function TrailingSpaces(s: string): (n: nat)
    ensures n <= |s|
    ensures forall i :: |s| - n <= i < |s| ==> IsSpace(s[i])
    ensures n < |s| ==> !IsSpace(s[|s| - n - 1])
  {
    if s == [] || !IsSpace(s[|s| - 1]) then 0
    else 1 + TrailingSpaces(s[..|s| - 1])
  }

  /** Python's `s.strip()`: the longest slice without surrounding whitespace. */
  function Strip(s: string): (r: string)
    ensures |r| <= |s|
    ensures r != [] ==> !IsSpace(r[0]) && !IsSpace(r[|r| - 1])
    ensures r == [] <==> forall i :: 0 <= i < |s| ==> IsSpace(s[i])
    ensures LeadingSpaces(s) + |r| <= |s|
    ensures forall k :: 0 <= k < |r| ==> r[k] == s[LeadingSpaces(s) + k]
  {
    var a := LeadingSpaces(s);
    if a == |s| then ""
    else
      var t := TrailingSpaces(s);
      assert a <= |s| - t by {
        assert !IsSpace(s[a]);
      }
      s[a..|s| - t]
  }

  /** A string without surrounding whitespace is its own strip. */
  lemma StripId(s: string)
    requires s == [] || (!IsSpace(s[0]) && !IsSpace(s[|s| - 1]))
    ensures Strip(s) == s
  {
  }

  /** Stripping `s + "\n"` gives `s` back when `s` has no surrounding whitespace. */
  lemma StripNewline(s: string)
    requires s == [] || (!IsSpace(s[0]) && !IsSpace(s[|s| - 1]))
    ensures Strip(s + "\n") == s
  {
    var t := s + "\n";
    if s == [] {
      assert t == "\n";
      assert IsSpace(t[0]);
    } else {
      assert t[0] == s[0];
      assert LeadingSpaces(t) == 0;
      assert t[..|t| - 1] == s;
      assert TrailingSpaces(s) == 0;
      assert TrailingSpaces(t) == 1;
      assert t[0..|t| - 1] == s;
    }
  }

  /** Every character of `s.strip()` is a character of `s`. */
  lemma StripChars(s: string, c: char)
    requires c !in s
    ensures c !in Strip(s)
  {
    var r := Strip(s);
    forall k | 0 <= k < |r|
      ensures r[k] != c
    {
      assert r[k] == s[LeadingSpaces(s) + k];
    }
  }

  /** Python's `s.rstrip(c)`: drop every trailing `c`. */
  function RStrip(s: string, c: char): (r: string)
    ensures StartsWith(s, r)
    ensures r == [] || r[|r| - 1] != c
    ensures forall i :: |r| <= i < |s| ==> s[i] == c
  {
    if s != [] && s[|s| - 1] == c then RStrip(s[..|s| - 1], c) else s
  }

  /** Python's `s.lstrip(c)`: drop every leading `c`. */
  function LStrip(s: string, c: char): (r: string)
    ensures EndsWith(s, r)
    ensures r == [] || r[0] != c
    ensures forall i :: 0 <= i < |s| - |r| ==> s[i] == c
  {
    if s != [] && s[0] == c then LStrip(s[1..], c) else s
  }

  /** The string with every `c` removed (Python's `s.replace(c, '')` for one character). */
  function Without(s: string, c: char): (r: string)
    ensures c !in r
    ensures |r| <= |s|
    ensures forall d :: d in r ==> d in s
  {
    if s == [] then ""
    else if s[0] == c then Without(s[1..], c)
    else [s[0]] + Without(s[1..], c)
  }

  /** Removing a character that does not occur changes nothing. */
  lemma {:induction false} WithoutAbsent(s: string, c: char)
    requires c !in s
    ensures Without(s, c) == s
    decreases |s|
  {
    if s != [] {
      assert c !in s[1..] by {
        forall k | 0 <= k < |s| - 1 ensures s[1..][k] != c {
          assert s[1..][k] == s[k + 1];
        }
      }
      WithoutAbsent(s[1..], c);
    }
  }

  /** Removing a character keeps a prefix that does not hold it. */
  lemma {:induction false} WithoutPrefix(p: string, s: string, c: char)
    requires c !in p
    ensures Without(p + s, c) == p + Without(s, c)
    decreases |p|
  {
    if p != [] {
      assert (p + s)[0] == p[0];
      assert (p + s)[1..] == p[1..] + s;
      WithoutPrefix(p[1..], s, c);
    } else {
      assert p + s == s;
    }
  }

  /** Removing a character other than the last keeps the last character. */
  lemma {:induction false} WithoutLast(s: string, c: char)
    requires s != [] && s[|s| - 1] != c
    ensures var r := Without(s, c); r != [] && r[|r| - 1] == s[|s| - 1]
    decreases |s|
  {
    if |s| > 1 {
      WithoutLast(s[1..], c);
    }
  }

  /**
   Python's `lower()` on one character, for the capitals of the Latin letters
   Vietnamese text uses: `A`-`Z`, the Latin-1 capitals, `Ă`, `Đ`, `Ĩ`, `Ũ`,
   `Ơ`, `Ư`, the accented capitals of the Latin Extended Additional block, and
   the Kelvin sign, which lowers to `k`. Every other character is left as it is.
   */
  function LowerChar(c: char): char {
    if 'A' <= c <= 'Z' then (c as int + 32) as char
    else if '\U{00C0}' <= c <= '\U{00DE}' && c != '\U{00D7}' then (c as int + 32) as char
    else if c == '\U{0102}' || c == '\U{0110}' || c == '\U{0128}' || c == '\U{0168}'
            || c == '\U{01A0}' || c == '\U{01AF}' then (c as int + 1) as char
    else if '\U{1EA0}' <= c <= '\U{1EF8}' && c as int % 2 == 0 then (c as int + 1) as char
    else if c == '\U{212A}' then 'k'
    else c
  }

  /** Python's `s.lower()` for the characters `LowerChar` covers. */
  function Lower(s: string): (r: string)
    ensures |r| == |s|
    ensures forall i :: 0 <= i < |s| ==> r[i] == LowerChar(s[i])
  {
    seq(|s|, i requires 0 <= i < |s| => LowerChar(s[i]))
  }

  /** A pattern holding a capital letter never occurs in a lowered string. */
  lemma UpperNeverInLower(s: string, pat: string, k: int)
    requires 0 <= k < |pat| && 'A' <= pat[k] <= 'Z'
    ensures !Contains(Lower(s), pat)
  {
    var l := Lower(s);
    forall i | 0 <= i && i + |pat| <= |l|
      ensures !OccursAt(l, pat, i)
    {
      assert l[i..i + |pat|][k] == l[i + k];
      assert l[i + k] != pat[k];
    }
  }
}

=== FILE: sharepoint_fetch.dfy ===
/**
 The HTTP half of the SharePoint resolver: how `download_from_url` judges a
 response, how page-link matches become absolute links, and the three-phase
 chain of `handle_complex_sharepoint` (candidate URLs, then page links, then
 the engine fallback).

 HTTP is an oracle: `fetch` answers each URL with a response or a request
 exception, `canWrite` says whether the output file can be created and
 written.
 */
module SharePointFetch {
  import opened Wrappers
  import opened PyStr
  import opened Chains
  import opened SharePointUrls
  import opened SharePointNames

  /** The Content-Length header as `int(...) if content_length else 0` sees it. */
  datatype LengthHeader =
    | Absent              // missing or empty: size 0
    | Length(n: int)      // parses as an integer
    | Unparsable          // `int()` raises

  /**
   A response: status, the Content-Type value ("" when missing), the body text,
   the length header, the target of the page's first `window.location = '…'`
   assignment (the redirect pattern's match), and the total size of the body's
   non-empty chunks.
   */
  datatype Response = Response(
    status: int,
    contentType: string,
    body: string,
    length: LengthHeader,
    redirectTarget: Option<string>,
    bytes: nat)

  /** A GET either raises a request exception or yields a response. */
  datatype Fetched = RequestFailed | Got(response: Response)

  /** The response declares an HTML page. */
  predicate IsHtml(r: Response) {
    Contains(Lower(r.contentType), "text/html")
  }

  /** The lowercased body mentions `word`. */
  predicate Mentions(r: Response, word: string) {
    Contains(Lower(r.body), word)
  }

  /** The page looks like a redirect page. */
  predicate RedirectMarker(r: Response) {
    Mentions(r, "redirect") || Mentions(r, "window.location")
  }

  /** Why a download attempt returned false without an exception. */
  datatype Refusal =
    | NotOk            // status other than 200
    | RedirectFailed   // the redirect target was not a 200 non-HTML response
    | AccessDenied     // an HTML page asking to sign in
    | NotFound         // an HTML "file not found" page
    | ErrorPage        // a SharePoint error page
    | NoFileHint       // an HTML page that mentions neither downloads nor files
    | Empty            // zero bytes written; the empty file is removed

  /** The first judgement of a response: save its body, follow a redirect, or refuse. */
  datatype Verdict = Keep | Follow(target: string) | Refuse(why: Refusal)

  /**
   The response checks of `download_from_url`: only status 200 passes; a
   non-HTML 200 is kept; an HTML page goes through the checks in order:
   redirect marker, sign-in, not found, SharePoint error, and finally a
   download/file mention. A redirect-marker page whose target cannot be found
   is kept as if it were the file.
   */
  function Classify(r: Response): (v: Verdict)
    ensures v == Refuse(NotOk) <==> r.status != 200
    ensures r.status == 200 && !IsHtml(r) ==> v == Keep
    ensures v.Follow? <==> r.status == 200 && IsHtml(r) && RedirectMarker(r) && r.redirectTarget.Some?
    ensures v.Follow? ==> v.target == r.redirectTarget.value
    ensures v == Keep <==>
      r.status == 200 &&
      (!IsHtml(r) || (RedirectMarker(r) && r.redirectTarget.None?) ||
       (!RedirectMarker(r) && !Mentions(r, "access denied") && !Mentions(r, "sign in") &&
        !Mentions(r, "file not found") && !Mentions(r, "404") &&
        !(Mentions(r, "sharepoint") && Mentions(r, "error")) &&
        (Mentions(r, "download") || Mentions(r, "file"))))
    ensures r.status == 200 && IsHtml(r) && RedirectMarker(r) ==> v.Keep? || v.Follow?
    ensures v == Refuse(AccessDenied) <==>
      r.status == 200 && IsHtml(r) && !RedirectMarker(r) && (Mentions(r, "access denied") || Mentions(r, "sign in"))
    ensures v == Refuse(NotFound) <==>
      r.status == 200 && IsHtml(r) && !RedirectMarker(r) &&
      !Mentions(r, "access denied") && !Mentions(r, "sign in") &&
      (Mentions(r, "file not found") || Mentions(r, "404"))
    ensures v == Refuse(ErrorPage) <==>
      r.status == 200 && IsHtml(r) && !RedirectMarker(r) &&
      !Mentions(r, "access denied") && !Mentions(r, "sign in") &&
      !Mentions(r, "file not found") && !Mentions(r, "404") &&
      Mentions(r, "sharepoint") && Mentions(r, "error")
    ensures v == Refuse(NoFileHint) <==>
      r.status == 200 && IsHtml(r) && !RedirectMarker(r) &&
      !Mentions(r, "access denied") && !Mentions(r, "sign in") &&
      !Mentions(r, "file not found") && !Mentions(r, "404") &&
      !(Mentions(r, "sharepoint") && Mentions(r, "error")) &&
      !Mentions(r, "download") && !Mentions(r, "file")
    ensures v != Refuse(RedirectFailed) && v != Refuse(Empty)
  {
    if r.status != 200 then Refuse(NotOk)
    else if !IsHtml(r) then Keep
    else if RedirectMarker(r) then
      match r.redirectTarget
      case Some(t) => Follow(t)
      case None => Keep
    else if Mentions(r, "access denied") || Mentions(r, "sign in") then Refuse(AccessDenied)
    else if Mentions(r, "file not found") || Mentions(r, "404") then Refuse(NotFound)
    else if Mentions(r, "sharepoint") && Mentions(r, "error") then Refuse(ErrorPage)
    else if Mentions(r, "download") || Mentions(r, "file") then Keep
    else Refuse(NoFileHint)
  }

  /** What one call of `download_from_url` ends in. */
  datatype Outcome = Saved(size: nat) | Declined(why: Refusal) | Raised

  /**
   The saving step: parsing the (original) length header may raise, creating
   or writing the file may raise, and a body of zero bytes is refused.
   */
  function Save(length: LengthHeader, bytes: nat, canWrite: bool): (o: Outcome)
    ensures o.Saved? <==> !length.Unparsable? && canWrite && bytes > 0
    ensures o.Saved? ==> o.size == bytes
    ensures o.Raised? <==> length.Unparsable? || !canWrite
  {
    if length.Unparsable? || !canWrite then Raised
    else if bytes > 0 then Saved(bytes)
    else Declined(Empty)
  }

  /**
   One call of `download_from_url`, exceptions included: the request, the
   response checks, at most one redirect (whose answer must be a 200 non-HTML
   response), then saving the final body under the original length header.
   */
  function Attempt(url: string, fetch: string -> Fetched, canWrite: bool): (o: Outcome)
    ensures fetch(url).RequestFailed? ==> o.Raised?
    ensures fetch(url).Got? && fetch(url).response.status != 200 ==> o == Declined(NotOk)
    ensures o.Saved? ==>
      fetch(url).Got? && fetch(url).response.status == 200 && canWrite && o.size > 0 &&
      !fetch(url).response.length.Unparsable?
    ensures o.Saved? && Classify(fetch(url).response).Follow? ==>
      var t := Classify(fetch(url).response).target;
      fetch(t).Got? && fetch(t).response.status == 200 && !IsHtml(fetch(t).response) &&
      o.size == fetch(t).response.bytes
    ensures o.Saved? && !Classify(fetch(url).response).Follow? ==> o.size == fetch(url).response.bytes
  {
    match fetch(url)
    case RequestFailed => Raised
    case Got(r) =>
      match Classify(r)
      case Refuse(why) => Declined(why)
      case Keep => Save(r.length, r.bytes, canWrite)
      case Follow(t) =>
        match fetch(t)
        case RequestFailed => Raised
        case Got(r2) =>
          if r2.status != 200 || IsHtml(r2) then Declined(RedirectFailed)
          else Save(r.length, r2.bytes, canWrite)
  }

  /**
   `download_from_url` as its exception handlers evidently intend: every
   exception is reported and turns into false, so the result is true exactly
   when a non-empty file was saved.
   */
  function DownloadFromUrl(url: string, fetch: string -> Fetched, canWrite: bool): (ok: bool)
    ensures ok <==> Attempt(url, fetch, canWrite).Saved?
    ensures ok ==> fetch(url).Got? && fetch(url).response.status == 200 && canWrite
  {
    Attempt(url, fetch, canWrite).Saved?
  }

  /**
   A 200 HTML page that mentions a redirect but has no parsable
   `window.location` target is saved as the downloaded file.
   */
  lemma RedirectPageSaved(url: string, fetch: string -> Fetched, canWrite: bool)
    requires fetch(url).Got?
    requires var r := fetch(url).response;
      r.status == 200 && IsHtml(r) && RedirectMarker(r) && r.redirectTarget.None? &&
      !r.length.Unparsable? && r.bytes > 0
    requires canWrite
    ensures DownloadFromUrl(url, fetch, canWrite)
  {
  }

  /** The page-link patterns' matches that are kept: absolute links as they are, root-relative ones resolved. */
  function KeepLinks(url: string, ms: seq<string>, join: (string, string) -> string): (r: seq<string>)
    ensures |r| <= |ms|
    ensures forall k :: 0 <= k < |r| ==>
      (StartsWith(r[k], "http") && r[k] in ms) ||
      (exists m :: m in ms && StartsWith(m, "/") && r[k] == join(url, m))
    ensures (forall k :: 0 <= k < |ms| ==> StartsWith(ms[k], "http")) ==> r == ms
  {
    if ms == [] then []
    else
      var head :=
        if StartsWith(ms[0], "http") then [ms[0]]
        else if StartsWith(ms[0], "/") then [join(url, ms[0])]
        else [];
      var rest := KeepLinks(url, ms[1..], join);
      assert forall m :: m in ms[1..] ==> m in ms;
      head + rest
  }

  /** A match the page-link loop keeps: an absolute or a root-relative link. */
  predicate IsLink(m: string) {
    StartsWith(m, "http") || StartsWith(m, "/")
  }

  /** The form a kept match is recorded in: as it is when absolute, joined onto the page URL otherwise. */
  function Resolve(url: string, m: string, join: (string, string) -> string): string {
    if StartsWith(m, "http") then m else join(url, m)
  }

  /**
   `r` is the resolved link matches of `ms` in order: the matches at the
   increasing positions `idx`, each a link and resolved, with every position
   holding a link among them.
   */
  ghost predicate Picks(url: string, ms: seq<string>, join: (string, string) -> string, r: seq<string>, idx: seq<int>) {
    |idx| == |r| &&
    (forall k :: 0 <= k < |idx| ==> 0 <= idx[k] < |ms| && IsLink(ms[idx[k]]) && r[k] == Resolve(url, ms[idx[k]], join)) &&
    (forall k, l :: 0 <= k < l < |idx| ==> idx[k] < idx[l]) &&
    (forall j :: 0 <= j < |ms| && IsLink(ms[j]) ==> j in idx)
  }

  /** A link appended to the matches is appended, resolved, to the kept list. */
  lemma PicksLink(url: string, ms: seq<string>, last: string, join: (string, string) -> string, r: seq<string>, idx: seq<int>)
    requires Picks(url, ms, join, r, idx) && IsLink(last)
    ensures Picks(url, ms + [last], join, r + [Resolve(url, last, join)], idx + [|ms|])
  {
    var ms' := ms + [last];
    var r' := r + [Resolve(url, last, join)];
    var idx' := idx + [|ms|];
    assert forall j :: 0 <= j < |ms| ==> ms'[j] == ms[j];
    forall k | 0 <= k < |idx'|
      ensures 0 <= idx'[k] < |ms'| && IsLink(ms'[idx'[k]]) && r'[k] == Resolve(url, ms'[idx'[k]], join)
    {
      if k < |idx| {
        assert idx'[k] == idx[k] && r'[k] == r[k];
      }
    }
    forall j | 0 <= j < |ms'| && IsLink(ms'[j])
      ensures j in idx'
    {
      if j < |ms| {
        var k :| 0 <= k < |idx| && idx[k] == j;
        assert idx'[k] == j;
      } else {
        assert idx'[|idx|] == j;
      }
    }
  }

  /** A non-link appended to the matches changes nothing kept. */
  lemma PicksOther(url: string, ms: seq<string>, last: string, join: (string, string) -> string, r: seq<string>, idx: seq<int>)
    requires Picks(url, ms, join, r, idx) && !IsLink(last)
    ensures Picks(url, ms + [last], join, r, idx)
  {
    var ms' := ms + [last];
    assert forall j :: 0 <= j < |ms| ==> ms'[j] == ms[j];
    forall j | 0 <= j < |ms'| && IsLink(ms'[j])
      ensures j in idx
    {
      assert j < |ms| && IsLink(ms[j]);
    }
  }

  /** `KeepLinks` keeps exactly the link matches, in their order, each resolved. */
  lemma {:induction false} KeepLinksExactly(url: string, ms: seq<string>, join: (string, string) -> string)
    returns (idx: seq<int>)
    ensures Picks(url, ms, join, KeepLinks(url, ms, join), idx)
    decreases |ms|
  {
    if ms == [] {
      idx := [];
    } else {
      var init := ms[..|ms| - 1];
      var last := ms[|ms| - 1];
      assert ms == init + [last];
      KeepLinksAppend(url, init, [last], join);
      var idx0 := KeepLinksExactly(url, init, join);
      var r0 := KeepLinks(url, init, join);
      assert KeepLinks(url, [last], join) == (if IsLink(last) then [Resolve(url, last, join)] else []);
      if IsLink(last) {
        PicksLink(url, init, last, join, r0, idx0);
        idx := idx0 + [|init|];
      } else {
        PicksOther(url, init, last, join, r0, idx0);
        assert r0 + [] == r0;
        idx := idx0;
      }
    }
  }

  /** Keeping links pattern by pattern gives the same list as keeping them all at once. */
  lemma {:induction false} KeepLinksAppend(url: string, a: seq<string>, b: seq<string>,
                                           join: (string, string) -> string)
    ensures KeepLinks(url, a + b, join) == KeepLinks(url, a, join) + KeepLinks(url, b, join)
    decreases |a|
  {
    if a != [] {
      assert (a + b)[0] == a[0];
      assert (a + b)[1..] == a[1..] + b;
      KeepLinksAppend(url, a[1..], b, join);
    } else {
      assert a + b == b;
    }
  }

  /**
   `extract_download_links_from_page`: nothing when the page request raises or
   answers with a 4xx/5xx status; otherwise the kept matches of the four link
   patterns, in pattern order.
   */
  function PageLinks(url: string, page: Fetched, matches: seq<string>,
                     join: (string, string) -> string): (r: seq<string>)
    ensures page.RequestFailed? ==> r == []
    ensures page.Got? && 400 <= page.response.status < 600 ==> r == []
    ensures page.Got? && !(400 <= page.response.status < 600) ==> r == KeepLinks(url, matches, join)
  {
    match page
    case RequestFailed => []
    case Got(resp) => if 400 <= resp.status < 600 then [] else KeepLinks(url, matches, join)
  }

  /** Which phase of the complex handler produced the file, or why none did. */
  datatype Resolution =
    | ByCandidate(index: nat)
    | ByPageLink(index: nat)
    | ByFallback
    | AllFailed
    | Aborted          // an exception escaped the candidate or page-link loop

  /** The handler's answer, whether the manual-download guidance was emitted, and the chosen filename. */
  datatype ComplexResult = ComplexResult(success: bool, how: Resolution, guidance: bool, filename: string)

  /** The inputs the complex handler's phases draw on besides the URL. */
  datatype Environment = Environment(
    fetch: string -> Fetched,
    canWrite: bool,
    page: Fetched,
    pageMatches: seq<string>,
    join: (string, string) -> string,
    fallback: bool,
    nameMatches1: seq<string>,
    nameMatches2: seq<string>)

  /** The filename-pattern matches are shaped as their patterns guarantee. */
  predicate WellFormed(env: Environment) {
    NameMatches(env.nameMatches1) && NameMatches(env.nameMatches2)
  }

  /** The filename the handler announces and saves under. */
  function HandlerFilename(url: string, env: Environment): (name: string)
    requires WellFormed(env)
    ensures name != [] && '/' !in name
  {
    ExtractFilename(url, env.nameMatches1, env.nameMatches2)
  }

  /** The links the page-parsing phase tries. */
  function HandlerLinks(url: string, env: Environment): seq<string> {
    PageLinks(url, env.page, env.pageMatches, env.join)
  }

  /** A download attempt by the corrected `download_from_url` succeeds. */
  function Downloads(env: Environment): string -> bool {
    u => DownloadFromUrl(u, env.fetch, env.canWrite)
  }

  /**
   `handle_complex_sharepoint` with exceptions contained in
   `download_from_url`: the candidate URLs in order, stopping at the first
   success; the page links only if every candidate failed; the engine fallback
   only if every link failed too; the guidance exactly when all three phases
   failed.
   */
  function HandleComplexSharePoint(url: string, env: Environment): (res: ComplexResult)
    requires WellFormed(env)
    ensures res.filename == HandlerFilename(url, env)
    ensures res.success <==> !res.how.AllFailed?
    ensures res.guidance <==> !res.success
    ensures !res.how.Aborted?
    ensures res.how.ByCandidate? ==>
      var cands := MultipleDownloadUrls(url);
      res.how.index < |cands| && Downloads(env)(cands[res.how.index]) &&
      forall k :: 0 <= k < res.how.index ==> !Downloads(env)(cands[k])
    ensures !res.how.ByCandidate? ==>
      forall k :: 0 <= k < |MultipleDownloadUrls(url)| ==> !Downloads(env)(MultipleDownloadUrls(url)[k])
    ensures res.how.ByPageLink? ==>
      var links := HandlerLinks(url, env);
      res.how.index < |links| && Downloads(env)(links[res.how.index]) &&
      forall k :: 0 <= k < res.how.index ==> !Downloads(env)(links[k])
    ensures res.how.ByFallback? || res.how.AllFailed? ==>
      forall k :: 0 <= k < |HandlerLinks(url, env)| ==> !Downloads(env)(HandlerLinks(url, env)[k])
    ensures res.how.ByFallback? ==> env.fallback
    ensures res.how.AllFailed? ==> !env.fallback
  {
    var name := HandlerFilename(url, env);
    var cands := MultipleDownloadUrls(url);
    match FirstSuccess(cands, Downloads(env))
    case Some(i) => ComplexResult(true, ByCandidate(i), false, name)
    case None =>
      var links := HandlerLinks(url, env);
      match FirstSuccess(links, Downloads(env))
      case Some(j) => ComplexResult(true, ByPageLink(j), false, name)
      case None =>
        if env.fallback then ComplexResult(true, ByFallback, false, name)
        else ComplexResult(false, AllFailed, true, name)
  }

  /** An attempt ends the as-written loops: it saved the file or raised. */
  function Stops(env: Environment): string -> bool {
    u => !Attempt(u, env.fetch, env.canWrite).Declined?
  }

  /**
   `handle_complex_sharepoint` as written: `download_from_url` names the
   `requests` module in its first `except` clause without importing it, so an
   exception inside it becomes a NameError that escapes to the handler's own
   `except`, which returns false at once, skipping the remaining candidates,
   the later phases and the guidance.
   */
  function HandleComplexAsWritten(url: string, env: Environment): (res: ComplexResult)
    requires WellFormed(env)
    ensures res.filename == HandlerFilename(url, env)
    ensures res.how.Aborted? ==> !res.success && !res.guidance
    ensures res.how.ByCandidate? ==>
      var cands := MultipleDownloadUrls(url);
      res.how.index < |cands| && Attempt(cands[res.how.index], env.fetch, env.canWrite).Saved?
    ensures res.how.Aborted? ==>
      exists u :: Attempt(u, env.fetch, env.canWrite).Raised?
  {
    var name := HandlerFilename(url, env);
    var cands := MultipleDownloadUrls(url);
    match FirstSuccess(cands, Stops(env))
    case Some(i) =>
      if Attempt(cands[i], env.fetch, env.canWrite).Saved? then ComplexResult(true, ByCandidate(i), false, name)
      else
        assert Attempt(cands[i], env.fetch, env.canWrite).Raised? by { assert Stops(env)(cands[i]); }
        ComplexResult(false, Aborted, false, name)
    case None =>
      var links := HandlerLinks(url, env);
      match FirstSuccess(links, Stops(env))
      case Some(j) =>
        if Attempt(links[j], env.fetch, env.canWrite).Saved? then ComplexResult(true, ByPageLink(j), false, name)
        else
          assert Attempt(links[j], env.fetch, env.canWrite).Raised? by { assert Stops(env)(links[j]); }
          ComplexResult(false, Aborted, false, name)
      case None =>
        if env.fallback then ComplexResult(true, ByFallback, false, name)
        else ComplexResult(false, AllFailed, true, name)
  }

  /** When no attempt can raise, the as-written handler and the corrected one agree. */
  lemma AsWrittenAgreesWithoutExceptions(url: string, env: Environment)
    requires WellFormed(env)
    requires forall u :: !Attempt(u, env.fetch, env.canWrite).Raised?
    ensures HandleComplexAsWritten(url, env) == HandleComplexSharePoint(url, env)
  {
    var cands := MultipleDownloadUrls(url);
    var links := HandlerLinks(url, env);
    assert forall k :: 0 <= k < |cands| ==> (Stops(env)(cands[k]) <==> Downloads(env)(cands[k]));
    assert forall k :: 0 <= k < |links| ==> (Stops(env)(links[k]) <==> Downloads(env)(links[k]));
    SameSuccess(cands, Stops(env), Downloads(env));
    SameSuccess(links, Stops(env), Downloads(env));
  }

  /** Two tests that agree on every element find the same first success. */
  lemma {:induction false} SameSuccess(xs: seq<string>, p: string -> bool, q: string -> bool)
    requires forall k :: 0 <= k < |xs| ==> (p(xs[k]) <==> q(xs[k]))
    ensures FirstSuccess(xs, p) == FirstSuccess(xs, q)
    decreases |xs|
  {
    if xs != [] {
      assert forall k :: 0 <= k < |xs[1..]| ==> xs[1..][k] == xs[k + 1];
      SameSuccess(xs[1..], p, q);
    }
  }

  /**
   The discrepancy on any sharing link: when the request for the first
   candidate raises (a timeout, say), the handler as written gives up at once,
   without trying the second candidate or emitting guidance.
   */
  lemma FirstCandidateExceptionAborts(url: string, env: Environment)
    requires WellFormed(env)
    requires OccursOnce(url, SharingMarker)
    requires env.fetch(MultipleDownloadUrls(url)[0]).RequestFailed?
    ensures HandleComplexAsWritten(url, env).how == Aborted
    ensures !HandleComplexAsWritten(url, env).guidance
  {
    assert Stops(env)(MultipleDownloadUrls(url)[0]);
  }

  /**
   In the same situation the corrected handler treats the failed request as a
   failed candidate and downloads the second candidate when it can.
   */
  lemma FirstCandidateExceptionSkipped(url: string, env: Environment)
    requires WellFormed(env)
    requires OccursOnce(url, SharingMarker)
    requires env.fetch(MultipleDownloadUrls(url)[0]).RequestFailed?
    requires DownloadFromUrl(MultipleDownloadUrls(url)[1], env.fetch, env.canWrite)
    ensures HandleComplexSharePoint(url, env).how == ByCandidate(1)
  {
    var cands := MultipleDownloadUrls(url);
    assert !Downloads(env)(cands[0]);
    assert Downloads(env)(cands[1]);
  }
}

=== FILE: sharepoint_names.dfy ===
/**
 The filename `extract_filename_from_url` picks for a SharePoint download: the
 last decoded path segment with a known extension, else the last meaningful
 segment (with ".rar" added for course material), else the file named by an
 `id=` parameter, else a filename-shaped match in the URL, else a default.
 */
module SharePointNames {
  import opened Wrappers
  import opened PyStr
  import opened Percent
  import opened Chains
  import opened SharePointUrls

  /** The extensions the filename pattern accepts, lowercase, without the dot. */
  const Extensions: seq<string> :=
    ["rar", "zip", "pdf", "doc", "docx", "xls", "xlsx", "ppt", "pptx",
     "mp3", "mp4", "avi", "mkv", "mov", "wmv", "flv", "webm", "m4v"]

  /**
   A text character matches a lowercase pattern character under Python's
   case-insensitive matching: equal after lowering, plus the dotted and dotless
   capital/small I for 'i' and the long s for 's'.
   */
  predicate FoldEq(c: char, p: char) {
    LowerChar(c) == p
    || (p == 'i' && (c == '\U{0130}' || c == '\U{0131}'))
    || (p == 's' && c == '\U{017F}')
  }

  /** `s` ends with the lowercase `suffix`, compared case-insensitively. */
  predicate EndsWithFold(s: string, suffix: string) {
    |suffix| <= |s| && forall k :: 0 <= k < |suffix| ==> FoldEq(s[|s| - |suffix| + k], suffix[k])
  }

  /** The filename pattern: a dot and a known extension at the very end. */
  predicate HasKnownExtension(seg: string) {
    exists k :: 0 <= k < |Extensions| && EndsWithFold(seg, "." + Extensions[k])
  }

  /** A name with a known extension has at least one character before the extension's dot. */
  lemma ExtensionNamesNonEmpty(seg: string)
    requires HasKnownExtension(seg)
    ensures |seg| >= 4
  {
    var k :| 0 <= k < |Extensions| && EndsWithFold(seg, "." + Extensions[k]);
    assert forall j :: 0 <= j < |Extensions| ==> |Extensions[j]| >= 3;
  }

  /** Any name followed by a dot and a known extension, in any letter case, matches the pattern. */
  lemma AnyCaseExtension(name: string, x: string, k: int)
    requires 0 <= k < |Extensions|
    requires |x| == |Extensions[k]| + 1
    requires forall j :: 0 <= j < |x| ==> LowerChar(x[j]) == ("." + Extensions[k])[j]
    ensures HasKnownExtension(name + x)
  {
    var s := name + x;
    var e := "." + Extensions[k];
    forall j | 0 <= j < |e|
      ensures FoldEq(s[|s| - |e| + j], e[j])
    {
      assert s[|s| - |e| + j] == x[j];
    }
    assert EndsWithFold(s, e);
  }

  /** Segments the fallback skips: empty ones and the library folder names. */
  predicate Meaningful(seg: string) {
    seg != [] && seg != "Documents" && seg != "Shared Documents" && seg != "personal"
  }

  /** Words that mark course material, which is assumed to be a RAR archive. */
  const CourseKeywords: seq<string> :=
    ["kh\U{00F3}a h\U{1ECD}c", "course", "lesson", "b\U{00E0}i", "ch\U{01B0}\U{01A1}ng"]

  /** A name mentions course material, compared after lowering. */
  predicate IsCourseName(name: string) {
    exists k :: 0 <= k < |CourseKeywords| && Contains(Lower(name), CourseKeywords[k])
  }

  /** The segment, with ".rar" appended exactly when it names course material. */
  function WithCourseSuffix(name: string): (r: string)
    ensures StartsWith(r, name)
    ensures IsCourseName(name) <==> r == name + ".rar"
    ensures !IsCourseName(name) <==> r == name
  {
    if IsCourseName(name) then name + ".rar" else name
  }

  /** A name holding the word "course" in any letter case gets the archive extension. */
  lemma CourseGetsRar(a: string, w: string, b: string)
    requires |w| == 6
    requires forall j :: 0 <= j < 6 ==> LowerChar(w[j]) == "course"[j]
    ensures WithCourseSuffix(a + w + b) == a + w + b + ".rar"
  {
    var l := Lower(a + w + b);
    assert l[|a|..|a| + 6] == CourseKeywords[1] by {
      forall j | 0 <= j < 6 ensures l[|a|..|a| + 6][j] == CourseKeywords[1][j] {
        assert (a + w + b)[|a| + j] == w[j];
      }
    }
    OccursContains(l, CourseKeywords[1], |a|);
  }

  /**
   The sharing path's segments: the text after the first marker, cut at the
   first '?', percent-decoded, split on '/', each segment stripped. None of
   them contains '/'.
   */
  function SharingSegments(url: string): (r: seq<string>)
    requires Contains(url, SharingMarker)
    ensures |r| >= 1
    ensures forall k :: 0 <= k < |r| ==> '/' !in r[k]
  {
    var path := Unquote(Before(SecondPiece(url, SharingMarker), "?"));
    var pieces := Split(path, "/");
    SplitPiecesFree(path, '/');
    seq(|pieces|, k requires 0 <= k < |pieces| =>
      StripChars(pieces[k], '/');
      Strip(pieces[k]))
  }

  /** Some element of `xs` is accepted by `ok`. */
  predicate AnyWith(xs: seq<string>, ok: string -> bool) {
    exists k :: 0 <= k < |xs| && ok(xs[k])
  }

  /** `x` is the element at the last index of `xs` that `ok` accepts. */
  ghost predicate IsLastWith(xs: seq<string>, ok: string -> bool, x: string) {
    exists i :: 0 <= i < |xs| && xs[i] == x && ok(x) && forall j :: i < j < |xs| ==> !ok(xs[j])
  }

  /**
   The choice among '/'-free segments: the last one with a known extension;
   failing that, the last meaningful one, with ".rar" for course material;
   None when no segment is meaningful.
   */
  function PickName(segs: seq<string>): (r: Option<string>)
    requires forall k :: 0 <= k < |segs| ==> '/' !in segs[k]
    ensures r.Some? ==> r.value != [] && '/' !in r.value
    ensures AnyWith(segs, HasKnownExtension) ==> r.Some? && IsLastWith(segs, HasKnownExtension, r.value)
    ensures !AnyWith(segs, HasKnownExtension) ==>
      (r.None? <==> !AnyWith(segs, Meaningful)) &&
      (r.Some? ==> exists seg :: IsLastWith(segs, Meaningful, seg) && r.value == WithCourseSuffix(seg))
  {
    match LastSuccess(segs, HasKnownExtension)
    case Some(i) =>
      ExtensionNamesNonEmpty(segs[i]);
      Some(segs[i])
    case None =>
      match LastSuccess(segs, Meaningful)
      case Some(i) =>
        var name := WithCourseSuffix(segs[i]);
        assert '/' !in name by {
          assert '/' !in ".rar";
        }
        Some(name)
      case None => None
  }

  /** Method 1 of the extractor, which applies only to a URL with the sharing marker. */
  function FromSharingPath(url: string): (r: Option<string>)
    ensures r.Some? ==> Contains(url, SharingMarker) && r.value != [] && '/' !in r.value
    ensures Contains(url, SharingMarker) ==> r == PickName(SharingSegments(url))
  {
    if Contains(url, SharingMarker) then PickName(SharingSegments(url)) else None
  }

  /** The `id=` parameter's value: after the first "id=" up to the next '&', percent-decoded. */
  function IdValue(url: string): string
    requires Contains(url, "id=")
  {
    Unquote(Before(AfterFirst(url, "id="), "&"))
  }

  /**
   Method 2: when the `id=` value contains '/', its last '/'-piece, provided
   that piece contains a dot.
   */
  function FromIdParameter(url: string): (r: Option<string>)
    ensures r.Some? ==> Contains(url, "id=") && r.value != [] && '/' !in r.value && '.' in r.value
    ensures !Contains(url, "id=") ==> r.None?
    ensures Contains(url, "id=") ==>
      var v := IdValue(url);
      (r.Some? <==> '/' in v && '.' in LastPiece(v, '/')) &&
      (r.Some? ==> r.value == LastPiece(v, '/'))
  {
    if !Contains(url, "id=") then None
    else
      var value := IdValue(url);
      if '/' !in value then None
      else
        var name := LastPiece(value, '/');
        if '.' in name then Some(name) else None
  }

  /** The name used when nothing in the URL names the file. */
  const DefaultName: string := "sharepoint_download.rar"

  /**
   Group-1 matches of the two filename patterns over the URL: each is a
   non-empty run without '/' ending in an extension, as the patterns' character
   classes guarantee.
   */
  predicate NameMatches(ms: seq<string>) {
    forall k :: 0 <= k < |ms| ==> ms[k] != [] && '/' !in ms[k]
  }

  /**
   `extract_filename_from_url`, total: methods 1 to 3 in order, then the
   default. `m1` and `m2` are the matches of the two filename patterns, of which
   the last match of the first non-empty list is taken.
   */
  function ExtractFilename(url: string, m1: seq<string>, m2: seq<string>): (r: string)
    requires NameMatches(m1) && NameMatches(m2)
    ensures r != [] && '/' !in r
    ensures FromSharingPath(url).Some? ==> r == FromSharingPath(url).value
    ensures FromSharingPath(url).None? && FromIdParameter(url).Some? ==> r == FromIdParameter(url).value
    ensures FromSharingPath(url).None? && FromIdParameter(url).None? ==>
      r == (if m1 != [] then m1[|m1| - 1] else if m2 != [] then m2[|m2| - 1] else DefaultName)
  {
    match FromSharingPath(url)
    case Some(name) => name
    case None =>
      match FromIdParameter(url)
      case Some(name) => name
      case None =>
        if m1 != [] then m1[|m1| - 1]
        else if m2 != [] then m2[|m2| - 1]
        else DefaultName
  }

  /**
   For a sharing link whose decoded path has a segment with a known extension,
   the extracted name is the last such segment, whatever the other inputs.
   */
  lemma ExtensionSegmentWins(url: string, m1: seq<string>, m2: seq<string>)
    requires NameMatches(m1) && NameMatches(m2)
    requires Contains(url, SharingMarker) && AnyWith(SharingSegments(url), HasKnownExtension)
    ensures IsLastWith(SharingSegments(url), HasKnownExtension, ExtractFilename(url, m1, m2))
  {
  }
}

=== FILE: sharepoint_urls.dfy ===
/**
 The SharePoint side of the desktop UI's OneDrive support: which URLs count as
 OneDrive/SharePoint, which are routed to the "complex" handler, and the
 candidate download URLs built from a sharing link of the form
 `<base>:u:/r/<path>`.
 */
module SharePointUrls {
  import opened Wrappers
  import opened PyStr
  import opened Percent
  import opened Chains

  /** The marker that separates a sharing link's site base from its file path. */
  const SharingMarker: string := ":u:/r/"

  /** The personal-site path prefix the builders add when it is missing. */
  const PersonalPrefix: string := "personal/"

  /** The layouts directory every SharePoint application page lives under. */
  const LayoutsDir: string := "_layouts/15/"

  /** The OneDrive viewer page and the download page that replaces it. */
  const ViewerPage: string := "onedrive.aspx"
  const DownloadPage: string := "download.aspx"

  /** The viewer page's path, which marks a OneDrive viewer URL. */
  const ViewerPath: string := LayoutsDir + ViewerPage

  /** Domains whose presence (in the lowercased URL) marks a OneDrive/SharePoint URL. */
  const OneDriveDomains: seq<string> :=
    ["1drv.ms", "onedrive.live.com", "sharepoint.com", "office.com", TenantHost + "sharepoint.com"]

  /** The host label of the one tenant the list names, "moithuvemmo-my.sharepoint.com". */
  const TenantHost: string := "moithuvemmo-my."

  /**
   `is_onedrive_url`: some listed domain is a substring of the lowercased URL;
   so every URL mentioning "sharepoint.com" or "1drv.ms", in any case, is one.
   */
  function IsOneDriveUrl(url: string): (b: bool)
    ensures Contains(Lower(url), "sharepoint.com") || Contains(Lower(url), "1drv.ms") ==> b
  {
    assert OneDriveDomains[0] == "1drv.ms" && OneDriveDomains[2] == "sharepoint.com";
    exists k :: 0 <= k < |OneDriveDomains| && Contains(Lower(url), OneDriveDomains[k])
  }

  /**
   The custom tenant domain in the list is redundant: it contains
   "sharepoint.com", so the first four domains alone decide the classifier.
   */
  lemma CustomDomainRedundant(url: string)
    ensures IsOneDriveUrl(url) <==>
      exists k :: 0 <= k < 4 && Contains(Lower(url), OneDriveDomains[k])
  {
    if Contains(Lower(url), OneDriveDomains[4]) {
      CustomContainsSharePoint(Lower(url));
    }
  }

  /** Text containing the custom tenant domain contains "sharepoint.com". */
  lemma CustomContainsSharePoint(l: string)
    requires Contains(l, OneDriveDomains[4])
    ensures Contains(l, OneDriveDomains[2])
  {
    var big := OneDriveDomains[4];
    ContainsPart(l, big, |TenantHost|, |big|);
    assert big[|TenantHost|..|big|] == OneDriveDomains[2];
  }

  /**
   `is_complex_sharepoint_url`: the shapes the UI hands to its own HTTP
   handler: a SharePoint URL with the sharing marker (compared case-sensitively),
   the viewer path, an `id=` or `parent=` parameter, or more than 200
   characters. Only SharePoint URLs qualify, and every SharePoint URL longer
   than 200 characters does.
   */
  function IsComplexSharePointUrl(url: string): (b: bool)
    ensures b <==>
      Contains(Lower(url), "sharepoint.com") &&
      (Contains(url, SharingMarker) || Contains(Lower(url), ViewerPath) ||
       Contains(Lower(url), "id=") || Contains(Lower(url), "parent=") || |url| > 200)
    ensures b ==> Contains(Lower(url), "sharepoint.com")
    ensures Contains(Lower(url), "sharepoint.com") && |url| > 200 ==> b
  {
    var l := Lower(url);
    Contains(l, "sharepoint.com") &&
      (Contains(url, SharingMarker) || Contains(l, ViewerPath) ||
       Contains(l, "id=") || Contains(l, "parent=") || |url| > 200)
  }

  /** Every complex SharePoint URL is also classified as a OneDrive URL. */
  lemma ComplexIsOneDrive(url: string)
    requires IsComplexSharePointUrl(url)
    ensures IsOneDriveUrl(url)
  {
    assert Contains(Lower(url), OneDriveDomains[2]);
  }

  /** Where `download_onedrive_file` sends a URL. */
  datatype Route =
    | Complex
      /** The engine path, with the URL it downloads and whether SharePoint headers are added. */
    | Engine(target: string, sharePointHeaders: bool)

  /**
   The routing of `download_onedrive_file`: complex URLs first; otherwise the
   engine, after the sharing-link conversion for SharePoint URLs carrying the
   marker. That conversion can never fire, because such a URL was already
   routed as complex, so the engine always receives the URL unchanged.
   */
  function RouteOneDrive(url: string): (r: Route)
    ensures r.Complex? <==> IsComplexSharePointUrl(url)
    ensures r.Engine? ==> r.target == url
    ensures r.Engine? ==> (r.sharePointHeaders <==> Contains(Lower(url), "sharepoint.com"))
  {
    if IsComplexSharePointUrl(url) then Complex
    else
      var sharePoint := Contains(Lower(url), "sharepoint.com");
      var target :=
        if sharePoint && Contains(url, SharingMarker) then SharingToOneDriveUrl(url).GetOr(url)
        else url;
      Engine(target, sharePoint)
  }

  /** The marker occurs exactly once: Python's `len(url.split(marker)) == 2`. */
  predicate OccursOnce(s: string, sub: string) {
    Contains(s, sub) && !Contains(AfterFirst(s, sub), sub)
  }

  /**
   `url.split(':u:/r/')` when it has exactly two pieces: the site base and the
   file path, which put back together around the marker give the URL.
   */
  function SharingParts(url: string): (r: Option<(string, string)>)
    ensures r.Some? <==> OccursOnce(url, SharingMarker)
    ensures r.Some? ==> url == r.value.0 + SharingMarker + r.value.1
    ensures r.Some? ==>
      !Contains(r.value.0, SharingMarker) && !Contains(r.value.1, SharingMarker)
  {
    if !Contains(url, SharingMarker) then None
    else
      var parts := Split(url, SharingMarker);
      SplitSecond(url, SharingMarker);
      if |parts| != 2 then None
      else
        assert url == parts[0] + SharingMarker + parts[1] by {
          SplitJoin(url, SharingMarker);
          assert parts == [parts[0]] + [parts[1]];
          JoinCons(parts[0], [parts[1]], SharingMarker);
        }
        assert parts[0] == Before(url, SharingMarker);
        Some((parts[0], parts[1]))
  }

  /** The path with "personal/" in front unless it already starts with it. */
  function PersonalPath(p: string): (r: string)
    ensures StartsWith(r, PersonalPrefix)
    ensures EndsWith(r, p)
    ensures StartsWith(p, PersonalPrefix) ==> r == p
    ensures !StartsWith(p, PersonalPrefix) ==> r == PersonalPrefix + p
  {
    if StartsWith(p, PersonalPrefix) then p else PersonalPrefix + p
  }

  /** Adding the personal prefix twice is the same as adding it once: no "personal/personal/". */
  lemma PersonalPathIdempotent(p: string)
    ensures PersonalPath(PersonalPath(p)) == PersonalPath(p)
  {
  }

  /** `create_direct_file_url`: `<base without trailing '/'>/<personal path>`. */
  function DirectFileUrl(url: string): (r: Option<string>)
    ensures r.Some? <==> OccursOnce(url, SharingMarker)
    ensures r.Some? ==>
      var (b, p) := SharingParts(url).value;
      StartsWith(r.value, RStrip(b, '/') + "/" + PersonalPrefix) && EndsWith(r.value, p)
    ensures r.Some? ==>
      var (b, p) := SharingParts(url).value;
      (StartsWith(p, PersonalPrefix) ==> r.value == RStrip(b, '/') + "/" + p) &&
      (!StartsWith(p, PersonalPrefix) ==> r.value == RStrip(b, '/') + "/" + PersonalPrefix + p)
  {
    match SharingParts(url)
    case None => None
    case Some((b, p)) =>
      var head := RStrip(b, '/') + "/";
      JoinPersonal(head, p);
      Some(head + PersonalPath(p))
  }

  /** A head followed by the personal path of `p`. */
  lemma JoinPersonal(head: string, p: string)
    ensures StartsWith(head + PersonalPath(p), head + PersonalPrefix) && EndsWith(head + PersonalPath(p), p)
    ensures StartsWith(p, PersonalPrefix) ==> head + PersonalPath(p) == head + p
    ensures !StartsWith(p, PersonalPrefix) ==> head + PersonalPath(p) == head + PersonalPrefix + p
  {
    StartsWithExtend(head, PersonalPath(p), PersonalPrefix);
    EndsWithExtend(head, PersonalPath(p), p);
  }

  /** The query that `create_simple_download_url` appends. */
  const SimpleSuffix := "?download=1"

  /** The page that `create_sharepoint_download_aspx_url` appends. */
  const AspxSuffix := "/_layouts/15/download.aspx"

  /**
   `create_simple_download_url` (with `SimpleSuffix`) and
   `create_sharepoint_download_aspx_url` (with `AspxSuffix`), which differ only
   in what follows the direct file URL.
   */
  function SuffixedFileUrl(url: string, suffix: string): (r: Option<string>)
    ensures r.Some? <==> DirectFileUrl(url).Some?
    ensures r.Some? ==> r.value == DirectFileUrl(url).value + suffix
  {
    match SharingParts(url)
    case None => None
    case Some((b, p)) => Some(RStrip(b, '/') + "/" + PersonalPath(p) + suffix)
  }

  /**
   `modify_url_for_download` and `create_onedrive_download_url` (the same code):
   a OneDrive viewer URL with every "onedrive.aspx" turned into "download.aspx".
   Both names are 13 characters, so the length never changes; the result no
   longer names the viewer page, and it differs from the URL only inside the
   windows where the viewer page was and the download page now is.
   */
  function ForceDownloadUrl(url: string): (r: Option<string>)
    ensures r.Some? <==> Contains(url, ViewerPath)
    ensures r.Some? ==> |r.value| == |url| && Contains(r.value, DownloadPage)
    ensures r.Some? ==> !Contains(r.value, ViewerPage)
    ensures r.Some? ==> forall k :: 0 <= k < |url| && r.value[k] != url[k] ==>
      exists j :: j <= k < j + |ViewerPage| && OccursAt(url, ViewerPage, j) && OccursAt(r.value, DownloadPage, j)
  {
    if Contains(url, ViewerPath) then
      var v := Replace(url, ViewerPage, DownloadPage);
      ReplaceAgrees(url, ViewerPage, DownloadPage);
      DownloadLeavesNoViewer(url);
      assert Contains(v, DownloadPage) by {
        ContainsPart(url, ViewerPath, |LayoutsDir|, |ViewerPath|);
        assert ViewerPath[|LayoutsDir|..|ViewerPath|] == ViewerPage;
        ReplaceStep(url, ViewerPage, DownloadPage);
        var i := Find(url, ViewerPage);
        assert OccursAt(v, DownloadPage, i);
        OccursContains(v, DownloadPage, i);
      }
      Some(v)
    else None
  }

  /**
   Rewriting "onedrive.aspx" to "download.aspx" cannot create a new
   "onedrive.aspx": no occurrence can straddle an inserted "download.aspx".
   */
  lemma {:induction false} DownloadLeavesNoViewer(s: string)
    ensures !Contains(Replace(s, ViewerPage, DownloadPage), ViewerPage)
    decreases |s|
  {
    var r := Replace(s, ViewerPage, DownloadPage);
    if Contains(s, ViewerPage) {
      var i := Find(s, ViewerPage);
      var m := i + |ViewerPage|;
      var t := Replace(s[m..], ViewerPage, DownloadPage);
      ReplaceStep(s, ViewerPage, DownloadPage);
      DownloadLeavesNoViewer(s[m..]);
      assert r == s[..i] + DownloadPage + t;
      forall j
        ensures !OccursAt(r, ViewerPage, j)
      {
        if 0 <= j && j + |ViewerPage| <= |r| {
          NoViewerAt(s, i, t, j);
        }
      }
    } else {
      ReplaceAbsent(s, ViewerPage, DownloadPage);
    }
  }

  /** One window of `DownloadLeavesNoViewer`, case by case on where it starts. */
  lemma NoViewerAt(s: string, i: int, t: string, j: int)
    requires 0 <= i && OccursAt(s, ViewerPage, i) && forall q :: 0 <= q < i ==> !OccursAt(s, ViewerPage, q)
    requires !Contains(t, ViewerPage)
    requires 0 <= j && j + |ViewerPage| <= i + |DownloadPage| + |t|
    ensures (s[..i] + DownloadPage + t)[j..j + |ViewerPage|] != ViewerPage
  {
    var r := s[..i] + DownloadPage + t;
    var m := i + |DownloadPage|;
    var w := r[j..j + |ViewerPage|];
    if j + |ViewerPage| <= i {
      assert w == s[j..j + |ViewerPage|];
      assert !OccursAt(s, ViewerPage, j);
    } else if j < i {
      var d := i - j;
      assert r[i] == 'd' && r[i + 1] == 'o';
      if d == 3 {
        assert w[4] == 'o';
      } else {
        assert w[d] == 'd';
      }
    } else if j < m {
      var e := j - i;
      assert w[0] == DownloadPage[e];
      if e == 1 || e == 5 {
        assert w[1] == DownloadPage[e + 1];
      }
    } else {
      assert w == t[j - m..j - m + |ViewerPage|];
      assert !OccursAt(t, ViewerPage, j - m);
    }
  }

  /**
   `convert_sharepoint_sharing_url` (base kept as written, not right-stripped):
   `<base>/personal/<path>`, followed by the OneDrive viewer page unless the
   path mentions "Documents". The viewer form is always one the force-download
   rewriter accepts.
   */
  function SharingToOneDriveUrl(url: string): (r: Option<string>)
    ensures r.Some? <==> OccursOnce(url, SharingMarker)
    ensures r.Some? ==>
      var (b, p) := SharingParts(url).value;
      StartsWith(r.value, b + "/" + PersonalPrefix + p) &&
      (Contains(p, "Documents") ==> r.value == b + "/" + PersonalPrefix + p) &&
      (!Contains(p, "Documents") ==> r.value == b + "/" + PersonalPrefix + p + "/" + ViewerPath)
    ensures r.Some? && !Contains(SharingParts(url).value.1, "Documents") ==>
      ForceDownloadUrl(r.value).Some?
  {
    match SharingParts(url)
    case None => None
    case Some((b, p)) =>
      var head := b + "/" + PersonalPrefix + p;
      if Contains(p, "Documents") then Some(head)
      else
        var v := head + "/" + ViewerPath;
        StartsWithConcat(head, "/" + ViewerPath);
        EndsWithConcat(head + "/", ViewerPath);
        EndsWithContains(v, ViewerPath);
        Some(v)
  }

  /**
   `create_sharepoint_download_url`: for a personal path, the drive API URL
   naming the site (the path segment after "personal/") and the decoded path;
   otherwise the download page under `<base>/personal/<path>`.
   */
  function ApiDownloadUrl(url: string): (r: Option<string>)
    ensures r.Some? <==> OccursOnce(url, SharingMarker)
    ensures r.Some? ==>
      var (b, p) := SharingParts(url).value;
      StartsWith(r.value, RStrip(b, '/') + "/") &&
      (Contains(p, PersonalPrefix) ==> EndsWith(r.value, Unquote(p) + ":/content")) &&
      (!Contains(p, PersonalPrefix) ==> EndsWith(r.value, p + "/_layouts/15/download.aspx"))
    ensures r.Some? ==>
      var (b, p) := SharingParts(url).value;
      (Contains(p, PersonalPrefix) ==>
        var site := Before(SecondPiece(p, PersonalPrefix), "/");
        !Contains(site, "/") &&
        r.value == RStrip(b, '/') + "/_api/v2.0/drives/b!" + site + "/root:/" + Unquote(p) + ":/content") &&
      (!Contains(p, PersonalPrefix) ==>
        r.value == RStrip(b, '/') + "/" + PersonalPrefix + p + "/_layouts/15/download.aspx")
  {
    match SharingParts(url)
    case None => None
    case Some((b, p)) =>
      var root := RStrip(b, '/');
      if Contains(p, PersonalPrefix) then
        var site := Before(SecondPiece(p, PersonalPrefix), "/");
        DriveUrlShape(root, site, Unquote(p));
        Some(root + "/_api/v2.0/drives/b!" + site + "/root:/" + Unquote(p) + ":/content")
      else
        PageUrlShape(root, p);
        Some(root + "/" + PersonalPrefix + p + "/_layouts/15/download.aspx")
  }

  /** The drive API URL lies under `<root>/` and ends with the decoded path and ":/content". */
  lemma DriveUrlShape(root: string, site: string, path: string)
    ensures var v := root + "/_api/v2.0/drives/b!" + site + "/root:/" + path + ":/content";
      StartsWith(v, root + "/") && EndsWith(v, path + ":/content")
  {
    var front := root + "/_api/v2.0/drives/b!" + site + "/root:/";
    var v := front + path + ":/content";
    assert v == front + (path + ":/content");
    assert front[..|root| + 1] == root + "/";
    assert v[..|root| + 1] == front[..|root| + 1];
    EndsWithConcat(front, path + ":/content");
  }

  /** The fallback download-page URL lies under `<root>/` and ends with the path and the page. */
  lemma PageUrlShape(root: string, p: string)
    ensures var v := root + "/" + PersonalPrefix + p + "/_layouts/15/download.aspx";
      StartsWith(v, root + "/") && EndsWith(v, p + "/_layouts/15/download.aspx")
  {
    var base := root + "/";
    var tail := PersonalPrefix + (p + "/_layouts/15/download.aspx");
    assert base + PersonalPrefix + p + "/_layouts/15/download.aspx" == base + tail;
    StartsWithConcat(base, tail);
    EndsWithConcat(PersonalPrefix, p + "/_layouts/15/download.aspx");
    EndsWithExtend(base, tail, p + "/_layouts/15/download.aspx");
  }

  /**
   `create_sharepoint_api_url`: the Graph "shares" URL for the whole sharing
   link. `encode` is the unpadded base64 of the URL's UTF-8 bytes.
   */
  function GraphApiUrl(url: string, encode: string -> string): (r: Option<string>)
    ensures r.Some? <==> OccursOnce(url, SharingMarker)
    ensures r.Some? ==>
      StartsWith(r.value, "https://graph.microsoft.com/v1.0/shares/u!") &&
      EndsWith(r.value, encode(url) + "/root/content")
    ensures r.Some? ==> r.value == "https://graph.microsoft.com/v1.0/shares/u!" + encode(url) + "/root/content"
  {
    if SharingParts(url).Some? then
      var head := "https://graph.microsoft.com/v1.0/shares/u!";
      var v := head + (encode(url) + "/root/content");
      assert v[..|head|] == head;
      Some(v)
    else None
  }

  /** Present answers are successes in the builder chains. */
  predicate Built(o: Option<string>) {
    o.Some?
  }

  /**
   `get_sharepoint_direct_url`: six builders tried in order, the first answer
   wins. Only two can ever answer first: the Graph URL for a link with exactly
   one marker, and otherwise the viewer-to-download rewrite; the direct, simple
   and download-page builders share the Graph builder's condition and are
   shadowed by it.
   */
  function SharePointDirectUrl(url: string, encode: string -> string): (r: Option<string>)
    ensures r == (if OccursOnce(url, SharingMarker) then GraphApiUrl(url, encode) else ForceDownloadUrl(url))
  {
    var steps := [GraphApiUrl(url, encode), DirectFileUrl(url), ForceDownloadUrl(url),
                  SuffixedFileUrl(url, SimpleSuffix), DirectFileUrl(url), SuffixedFileUrl(url, AspxSuffix)];
    var found := FirstSuccess(steps, Built);
    assert OccursOnce(url, SharingMarker) ==> Built(steps[0]);
    assert !OccursOnce(url, SharingMarker) ==>
      !Built(steps[0]) && !Built(steps[1]) && !Built(steps[3]) && !Built(steps[4]) && !Built(steps[5]);
    assert found.None? ==> !Built(steps[2]);
    match found
    case None => None
    case Some(i) => steps[i]
  }

  /** The site base of a sharing link, without trailing '/'. */
  function SiteBase(url: string): (r: string)
    requires OccursOnce(url, SharingMarker)
    ensures r == [] || r[|r| - 1] != '/'
  {
    RStrip(SharingParts(url).value.0, '/')
  }

  /** The sharing link's file path cut at the first '?'. */
  function CleanPath(url: string): (r: string)
    requires OccursOnce(url, SharingMarker)
    ensures StartsWith(SharingParts(url).value.1, r) && '?' !in r
  {
    var c := Before(SharingParts(url).value.1, "?");
    assert '?' !in c by {
      if '?' in c {
        var j :| 0 <= j < |c| && c[j] == '?';
        OccursChar(c, '?', j);
        OccursContains(c, "?", j);
      }
    }
    c
  }

  /** `head` in front of every tail. */
  function Prefixed(head: string, tails: seq<string>): (r: seq<string>)
    ensures |r| == |tails|
    ensures forall k :: 0 <= k < |r| ==> r[k] == head + tails[k] && StartsWith(r[k], head)
  {
    seq(|tails|, k requires 0 <= k < |tails| =>
      var v := head + tails[k];
      assert v[..|head|] == head;
      v)
  }

  /** The download page with the quoted full file URL as its source. */
  function SourceTail(base: string, c: string): string {
    "_layouts/15/download.aspx?SourceUrl=" + Quote(base + "/" + c, "/")
  }

  /** The guest-access page for the quoted path. */
  function GuestTail(c: string): string {
    "_layouts/15/guestaccess.aspx?docid=" + Quote(c, "/") + "&authkey=&e="
  }

  /** The drive API content URL built from the text after the personal prefix. */
  function ApiTail(c: string): string
    requires Contains(c, PersonalPrefix)
  {
    var api := SecondPiece(c, PersonalPrefix);
    "_api/v2.0/drives/b!" + Before(api, "/") + "/root:/" + api + ":/content"
  }

  /** The download page by unique id, with the quoted full file URL as its source. */
  function UniqueIdTail(base: string, c: string): string {
    "_layouts/15/download.aspx?UniqueId=" + Quote(c, "/") + "&SourceUrl=" + Quote(base + "/" + c, "/")
  }

  /** The file preview page with the quoted full file URL as its source. */
  function PreviewTail(base: string, c: string): string {
    "_layouts/15/filepreview.aspx?SourceUrl=" + Quote(base + "/" + c, "/")
  }

  /**
   What follows `<base>/` in each candidate download URL for the query-free path
   `c`, in the order they are tried: the plain path and its two download
   variants, the source download page (personal only), the guest-access page,
   the drive API (personal only), the fully quoted path, and the unique-id and
   preview pages (personal only).
   */
  function CandidateTails(base: string, c: string): (r: seq<string>)
    ensures Contains(c, PersonalPrefix) ==>
      r == [c, c + "?download=1", c + "?download=true&noRedirect=true",
            SourceTail(base, c), GuestTail(c), ApiTail(c), Quote(c, ""),
            UniqueIdTail(base, c), PreviewTail(base, c)]
    ensures !Contains(c, PersonalPrefix) ==>
      r == [c, c + "?download=1", c + "?download=true&noRedirect=true", GuestTail(c), Quote(c, "")]
  {
    var personal := Contains(c, PersonalPrefix);
    var plain := [c, c + "?download=1", c + "?download=true&noRedirect=true"];
    var r := plain
      + (if personal then [SourceTail(base, c)] else [])
      + [GuestTail(c)]
      + (if personal then [ApiTail(c)] else [])
      + [Quote(c, "")]
      + (if personal then [UniqueIdTail(base, c), PreviewTail(base, c)] else []);
    if personal then
      NinePieces(plain, SourceTail(base, c), GuestTail(c), ApiTail(c), Quote(c, ""),
                 UniqueIdTail(base, c), PreviewTail(base, c));
      r
    else
      FivePieces(plain, GuestTail(c), Quote(c, ""));
      r
  }

  /** The personal candidate list laid out flat. */
  lemma NinePieces(p: seq<string>, d: string, e: string, f: string, g: string, h: string, i: string)
    requires |p| == 3
    ensures p + [d] + [e] + [f] + [g] + [h, i] == [p[0], p[1], p[2], d, e, f, g, h, i]
  {
  }

  /** The non-personal candidate list laid out flat. */
  lemma FivePieces(p: seq<string>, e: string, g: string)
    requires |p| == 3
    ensures p + [] + [e] + [] + [g] + [] == [p[0], p[1], p[2], e, g]
  {
  }

  /**
   The promised candidate list for site base `base` and query-free path `c`,
   all under `<base>/`: the plain file URL, its `?download=1` variant and its
   forced-download variant; then, for a personal path, the source download
   page, the guest-access page, the drive API, the quoted path and the
   unique-id and preview pages, and otherwise the guest-access page and the
   quoted path.
   */
  predicate CandidatesShape(r: seq<string>, base: string, c: string) {
    var head := base + "/";
    var src := base + "/" + c;
    |r| == (if Contains(c, PersonalPrefix) then 9 else 5) &&
    r[0] == src && r[1] == src + "?download=1" && r[2] == src + "?download=true&noRedirect=true" &&
    (forall k :: 0 <= k < |r| ==> StartsWith(r[k], head)) &&
    (Contains(c, PersonalPrefix) ==>
       r[3] == head + SourceTail(base, c) && r[4] == head + GuestTail(c) && r[5] == head + ApiTail(c) &&
       r[6] == head + Quote(c, "") && r[7] == head + UniqueIdTail(base, c) && r[8] == head + PreviewTail(base, c)) &&
    (!Contains(c, PersonalPrefix) ==> r[3] == head + GuestTail(c) && r[4] == head + Quote(c, ""))
  }

  /** The candidate URLs for a site base and a query-free path. */
  function Candidates(base: string, c: string): (r: seq<string>)
    ensures CandidatesShape(r, base, c)
  {
    var tails := CandidateTails(base, c);
    PrefixedShape(base, c, tails);
    Prefixed(base + "/", tails)
  }

  /** The candidate tails behind `<base>/` give a list of the promised shape. */
  lemma PrefixedShape(base: string, c: string, tails: seq<string>)
    requires tails == CandidateTails(base, c)
    ensures CandidatesShape(Prefixed(base + "/", tails), base, c)
  {
    var head := base + "/";
    var r := Prefixed(head, tails);
    var d1, d2 := c + "?download=1", c + "?download=true&noRedirect=true";
    if Contains(c, PersonalPrefix) {
      var t := [c, d1, d2, SourceTail(base, c), GuestTail(c), ApiTail(c), Quote(c, ""),
                UniqueIdTail(base, c), PreviewTail(base, c)];
      assert tails == t;
      PrefixedEach(head, t, r);
    } else {
      var t := [c, d1, d2, GuestTail(c), Quote(c, "")];
      assert tails == t;
      PrefixedEach(head, t, r);
    }
    PlainVariants(head, c, d1, d2, r);
  }

  /** Each element of a prefixed list, spelled out for the first nine indices. */
  lemma PrefixedEach(head: string, t: seq<string>, r: seq<string>)
    requires r == Prefixed(head, t)
    ensures |r| == |t| && forall k :: 0 <= k < |r| ==> StartsWith(r[k], head)
    ensures |t| >= 5 ==> r[0] == head + t[0] && r[1] == head + t[1] && r[2] == head + t[2] &&
                         r[3] == head + t[3] && r[4] == head + t[4]
    ensures |t| >= 9 ==> r[5] == head + t[5] && r[6] == head + t[6] && r[7] == head + t[7] &&
                         r[8] == head + t[8]
  {
  }

  /** The three plain variants of `c` behind `head`. */
  lemma PlainVariants(head: string, c: string, d1: string, d2: string, r: seq<string>)
    requires |r| >= 3 && r[0] == head + c && r[1] == head + d1 && r[2] == head + d2
    requires d1 == c + "?download=1" && d2 == c + "?download=true&noRedirect=true"
    ensures r[1] == head + c + "?download=1"
    ensures r[2] == head + c + "?download=true&noRedirect=true"
  {
  }

  /**
   `create_multiple_download_urls`: no candidates unless the marker occurs
   exactly once; otherwise the candidates for the link's site base and its path
   cut at the first '?'.
   */
  function MultipleDownloadUrls(url: string): (r: seq<string>)
    ensures r == [] <==> !OccursOnce(url, SharingMarker)
    ensures OccursOnce(url, SharingMarker) ==> CandidatesShape(r, SiteBase(url), CleanPath(url))
  {
    if !OccursOnce(url, SharingMarker) then []
    else Candidates(SiteBase(url), CleanPath(url))
  }
}

=== FILE: urlinput.dfy ===
/**
 The URL box of the download tab as a text buffer: reading it yields the
 trimmed, non-comment lines; writing a list puts one URL per line.

 The text widget's read-back always ends with one extra newline, which
 `ReadBack` adds.
 */
module UrlInput {
  import opened PyStr

  /** A stripped line the reader keeps: non-empty and not a '#' comment. */
  predicate IsEntry(line: string) {
    line != [] && !StartsWith(line, "#")
  }

  /** No whitespace at either end, so stripping changes nothing. */
  predicate Trimmed(line: string) {
    line == [] || (!IsSpace(line[0]) && !IsSpace(line[|line| - 1]))
  }

  /** One line as the reader sees it: its stripped text if that is an entry, else nothing. */
  function Kept(line: string): (r: seq<string>)
    ensures |r| <= 1
    ensures r != [] ==> IsEntry(r[0]) && Trimmed(r[0]) && r[0] == Strip(line)
    ensures r == [] <==> !IsEntry(Strip(line))
    ensures '\n' !in line ==> r == [] || '\n' !in r[0]
  {
    var t := Strip(line);
    assert '\n' !in line ==> '\n' !in t by {
      if '\n' !in line {
        StripChars(line, '\n');
      }
    }
    if IsEntry(t) then [t] else []
  }

  /** The stripped lines that are entries, in line order. */
  function Entries(lines: seq<string>): (r: seq<string>)
    ensures |r| <= |lines|
    ensures forall line :: line in r ==> IsEntry(line) && Trimmed(line)
    ensures (forall line :: line in lines ==> '\n' !in line) ==> forall line :: line in r ==> '\n' !in line
  {
    if lines == [] then []
    else Kept(lines[0]) + Entries(lines[1..])
  }

  /** Reading the lines of two blocks reads each block in turn. */
  lemma {:induction false} EntriesAppend(a: seq<string>, b: seq<string>)
    ensures Entries(a + b) == Entries(a) + Entries(b)
    decreases |a|
  {
    if a == [] {
      assert a + b == b;
    } else {
      assert (a + b)[0] == a[0];
      assert (a + b)[1..] == a[1..] + b;
      EntriesAppend(a[1..], b);
    }
  }

  /** A line that is already an entry, with nothing to strip. */
  predicate CleanEntry(line: string) {
    IsEntry(line) && Trimmed(line) && '\n' !in line
  }

  /** Lines that are all clean entries are read back unchanged. */
  lemma {:induction false} EntriesKeepClean(lines: seq<string>)
    requires forall k :: 0 <= k < |lines| ==> CleanEntry(lines[k])
    ensures Entries(lines) == lines
    decreases |lines|
  {
    if lines != [] {
      EntriesKeepClean(lines[1..]);
      StripId(lines[0]);
      assert Kept(lines[0]) == [lines[0]];
      HeadTail(lines);
    }
  }

  /** A non-empty sequence is its head followed by its tail. */
  lemma HeadTail<T>(s: seq<T>)
    requires s != []
    ensures s == [s[0]] + s[1..]
  {
  }

  /** What the widget returns for a buffer: its text and a final newline. */
  function ReadBack(buffer: string): (r: string)
    ensures |r| == |buffer| + 1 && r[|buffer|] == '\n'
  {
    buffer + "\n"
  }

  /**
   `get_urls`: nothing for blank content; otherwise the entries among the
   newline-separated lines of the stripped content. Every entry is non-empty,
   trimmed, newline-free and not a comment, and there are never more entries
   than lines.
   */
  function GetUrls(content: string): (r: seq<string>)
    ensures Strip(content) == [] ==> r == []
    ensures Strip(content) != [] ==> |r| <= |Split(Strip(content), "\n")|
    ensures forall line :: line in r ==> CleanEntry(line)
  {
    var text := Strip(content);
    if text == [] then []
    else
      var lines := Split(text, "\n");
      SplitPiecesFree(text, '\n');
      Entries(lines)
  }

  /**
   `set_urls`: the buffer becomes the URLs one per line, or empty for no URLs;
   splitting it on newlines gives the URLs back when none holds a newline.
   */
  function SetUrls(urls: seq<string>): (buffer: string)
    ensures urls == [] ==> buffer == []
    ensures |urls| >= 1 && (forall k :: 0 <= k < |urls| ==> '\n' !in urls[k]) ==> Split(buffer, "\n") == urls
  {
    if urls == [] then ""
    else
      if forall k :: 0 <= k < |urls| ==> '\n' !in urls[k] then
        JoinSplit(urls, '\n');
        Join(urls, "\n")
      else Join(urls, "\n")
  }

  /** A join of parts whose first one is non-empty starts with that part's first character. */
  lemma JoinFirst(parts: seq<string>, sep: string)
    requires |parts| >= 1 && parts[0] != []
    ensures Join(parts, sep) != [] && Join(parts, sep)[0] == parts[0][0]
  {
  }

  /** A join of parts whose last one is non-empty ends with that part's last character. */
  lemma {:induction false} JoinLast(parts: seq<string>, sep: string)
    requires |parts| >= 1 && parts[|parts| - 1] != []
    ensures var j := Join(parts, sep); j != [] && j[|j| - 1] == parts[|parts| - 1][|parts[|parts| - 1]| - 1]
    decreases |parts|
  {
    if |parts| > 1 {
      JoinLast(parts[1..], sep);
      assert parts[1..][|parts| - 2] == parts[|parts| - 1];
    }
  }

  /**
   Round trip: writing clean entries and reading the buffer back gives the
   same list.
   */
  lemma GetAfterSet(urls: seq<string>)
    requires forall k :: 0 <= k < |urls| ==> CleanEntry(urls[k])
    ensures GetUrls(ReadBack(SetUrls(urls))) == urls
  {
    if urls == [] {
      assert ReadBack(SetUrls(urls)) == "\n";
      assert IsSpace(ReadBack(SetUrls(urls))[0]);
    } else {
      var buffer := Join(urls, "\n");
      assert SetUrls(urls) == buffer;
      JoinFirst(urls, "\n");
      JoinLast(urls, "\n");
      StripNewline(buffer);
      JoinSplit(urls, '\n');
      EntriesKeepClean(urls);
    }
  }
}

=== FILE: wrappers.dfy ===
/** The Some/None datatype used wherever the original returns `None` for "no value". */
module Wrappers {

  datatype Option<+T> = None | Some(value: T) {

    /** Returns the value held in Some, or `default` for None. */
    function GetOr(default: T): T {
      match this
      case Some(v) => v
      case None => default
    }
  }
}
